=== FILE: README.md ===
# gentools in Dafny

This project models the core of gentools. gentools is a set of Go code generators: `mongen` (monitoring wrappers for go-kit and OpenCensus), `logen` (logging wrappers) and the vendored `gostub` (test stubs). Every generator starts from an interface declaration in some package. It does four things:

- it finds that declaration and every type it mentions through a **locator**;
- it rewrites each type reference so that it is valid in the generated file, through a **resolver** backed by an **import alias table**;
- it walks the interface's method set, including embedded interfaces, into a list of normalised **method configurations**;
- it hands each configuration to a **method builder** that emits the method's body.

The model follows that structure, one Dafny module per component:

| module | file | models |
|---|---|---|
| `Ast` | ast.dfy | type expressions, fields, declarations, files, errors, and the `Run` (result, state) pair |
| `Text` | text.dfy | decimal rendering, ASCII character classes, `strings.Join`/`Trim` |
| `Walk` | walk.dfy | `pkg/internal` and the vendored `util` walkers and constructors, with the goroutine iterators written as sequence filters |
| `Context` | context.dfy | the locator context and its three-tier candidate locations |
| `Locate` | locator.dfy | the locator, with its write-once cache over an abstract source oracle |
| `Imports` | imports.dfy | the generated file's import alias table and `Build` |
| `Resolve` | resolver.dfy | the type resolver |
| `Generate` | generator.dfy | the interface processor, parameter and result normalisation, and gostub's initial lookup |
| `Snake`, `GostubString` | snake.dfy, gostub_string.dfy | the rune-scan snake case (three identical copies), the regex snake case and `ToPrivate` |
| `GenStrings`, `Receivers`, `MongenText`, `LogenText` | gen_strings.dfy, receivers.dfy, mongen_text.dfy, logen_text.dfy | the text-template generators |
| `GoCode` | go_code.dfy | the statements the AST builders emit, plus a small static semantics (what an expression reads, what a statement declares, def-before-use) |
| `CommonBuilders`, `OcBuilders`, `GokitBuilders`, `StubBuilder` | common_builders.dfy, oc_builders.dfy, gokit_builders.dfy, stub_builder.dfy | the AST method builders |

`pkg/astgen` imports the vendored `resolution`, `generator` and `util` packages, and the two copies of the engine agree line for line. One definition therefore serves both copies, and each row below cites the copy it was read from.

State is explicit. The locator's cache, the import table and the walker's list of methods are immutable records, threaded through pure functions and returned in a `Run`. Each threaded state carries an invariant (`Locate.Coherent`, `Imports.Valid`, and `Resolve.Good` combining them). Every operation preserves its invariant and only ever grows the state (`Grows`, `Extends`).

## Model

| member | source | states |
|---|---|---|
| Text.NatStr | pkg/astgen/generator.go:124 | the `%d` rendering of a natural number is a non-empty string of decimal digits |
| Text.NatStrInjective | pkg/astgen/generator.go:124 | different indices never render to the same text, so `argN`/`resultN`/`aliasN` names are distinct |
| Text.Lower | pkg/transformation/transformation.go:20 | an upper-case letter becomes lower-case, every other character is kept |
| Text.LowerStr | pkg/transformation/transformation.go:20 | lower-casing keeps the length and lowers each character in place |
| Text.JoinSnoc | cmd/mongen/main.go:215-220 | joining one more item appends the separator and that item at the end |
| Text.Join | cmd/mongen/main.go:215-220 | no items join to the empty text |
| Text.JoinEnds | cmd/mongen/main.go:215-220 | the joined text starts with the first item and ends with the last |
| Text.LowerStrAppend | vendor/github.com/mokiat/gostub/util/string.go:14 | lower-casing distributes over concatenation |
| Text.TrimLeftQuotes | pkg/resolution/resolution.go:134 | only leading double quotes are dropped, and the kept suffix does not start with one |
| Text.TrimRightQuotes | pkg/resolution/resolution.go:134 | only trailing double quotes are dropped, and the kept prefix does not end with one |
| Text.TrimQuotedPath | pkg/resolution/resolution.go:134 | an import path written in quotes reads back as exactly the unquoted path |
| Text.TrimQuotes | pkg/resolution/resolution.go:134 | `strings.Trim(s, "\"")`: the input with only quotes removed before and after the result, and a non-empty result neither starts nor ends with one |
| Text.AfterLast | cmd/mongen/main.go:75-78 | the index just past the last occurrence of a character; no occurrence lies after it |
| Text.HasSuffixMeans | pkg/resolution/resolution.go:176 | `HasSuffix` holds exactly when the text is some text followed by the suffix |
| Text.HasSuffixAppended | vendor/github.com/mokiat/gostub/resolution/context.go:77 | any text followed by a suffix has that suffix |
| Walk.ReuseCount | pkg/internal/internal.go:8-13 | a field expands to one entry per name, and to one entry when unnamed; always at least one |
| Walk.TotalReuseAppend | pkg/internal/internal.go:8-13 | the entry count of a field sequence adds up over concatenation |
| Walk.FieldsOf | pkg/internal/internal.go:109-122 | an absent field list yields no fields; a present one yields its fields in order |
| Walk.GenericDecls | pkg/internal/internal.go:59-70 | exactly the general declarations of the file are kept, and none is invented |
| Walk.GenericDeclsAppend | vendor/github.com/mokiat/gostub/util/ast_walk.go:38-49 | the general-declaration filter distributes over concatenation, so order and multiplicity are kept |
| Walk.TypeSpecsOf | pkg/internal/internal.go:83-94 | exactly the type specifications among the specs are kept; value and import specs are dropped |
| Walk.TypeSpecsOfAppend | vendor/github.com/mokiat/gostub/util/ast_walk.go:62-73 | the type-spec filter distributes over concatenation, so order is kept |
| Walk.TypeSpecsInDecls | pkg/internal/internal.go:96-107 | a type spec is yielded exactly when some general declaration holds it; `TypeSpecsInDeclsAppend` and `TypeSpecsInOneDecl` fix the order |
| Walk.TypeSpecsInDeclsAppend | pkg/internal/internal.go:96-107 | the walk keeps declaration order: it distributes over concatenation |
| Walk.TypeSpecsInOneDecl | vendor/github.com/mokiat/gostub/util/ast_walk.go:75-86 | one general declaration yields its type specs in spec order; any other declaration yields none |
| Walk.TypeSpecsInFile | vendor/github.com/mokiat/gostub/util/ast_walk.go:75-86 | a file's type specs are exactly those of its general declarations, in declaration order by the two lemmas above |
| Walk.CreateField | pkg/internal/internal.go:15-22 | the created field has exactly the given name and type, and expands to one entry |
| Walk.FieldsAsAnonymous | pkg/transformation/transformation.go:30-38 | length and types are kept and every name is dropped; the same holds for cmd/mongen/utils.go:22-30 |
| Walk.WithoutEllipsis | vendor/github.com/mokiat/gostub/util/ast_construct.go:24-38 | `...T` becomes the slice `[]T`; every other type is kept; no variadic type is left |
| Walk.FieldsWithoutEllipsis | pkg/internal/internal.go:24-38 | length and names are kept; only variadic types change, each to a slice |
| Walk.FieldsWithoutEllipsisIdempotent | vendor/github.com/mokiat/gostub/util/ast_construct.go:24-38 | the variadic rewrite leaves no variadic type, so applying it twice changes nothing more |
| Walk.FieldsAsAnonymousLaws | vendor/github.com/mokiat/gostub/util/ast_construct.go:14-22 | dropping names is idempotent and commutes with the variadic rewrite |
| Context.SingleLocationContext | pkg/resolution/resolution.go:109-118 | the only candidate for unqualified names is the given location; every qualifier has no candidates |
| Context.SpecEntries | vendor/github.com/mokiat/gostub/resolution/context.go:28-38 | each import spec contributes one entry, its explicit name or "" and its unquoted path; order and multiplicity by `SpecEntriesAppend` and `SpecEntriesOfOne` |
| Context.DeclEntries | pkg/resolution/resolution.go:120-142 | the import entries are exactly those of the import specs of the file's general declarations; order by `DeclEntriesAppend` and `DeclEntriesOfOne` |
| Context.SpecEntriesAppend | vendor/github.com/mokiat/gostub/resolution/context.go:28-38 | import entries keep specification order: the filter distributes over concatenation |
| Context.SpecEntriesOfOne | vendor/github.com/mokiat/gostub/resolution/context.go:30-36 | an import spec yields its one entry, any other spec none |
| Context.DeclEntriesAppend | pkg/resolution/resolution.go:120-142 | import entries keep declaration order across declarations |
| Context.DeclEntriesOfOne | pkg/resolution/resolution.go:120-142 | a general declaration contributes the entries of its specs, any other declaration none |
| Context.FileContext | pkg/resolution/resolution.go:120-142 | the own location comes first as ".", followed by exactly the declaration entries of the file: one per import spec, in declaration order |
| Context.CountEntries | pkg/resolution/resolution.go:120-142 | the file context holds exactly one entry per import spec |
| Context.LocalLocations | pkg/resolution/resolution.go:163-171 | a location is listed exactly when some entry with alias "." names it |
| Context.NonLocalNonAliasedLocations | pkg/resolution/resolution.go:173-181 | a location is listed exactly when an unaliased entry names it and its path ends in the qualifier |
| Context.LocalInAppend | pkg/resolution/resolution.go:163-171 | the local filter keeps context order: it distributes over concatenation |
| Context.SuffixInAppend | vendor/github.com/mokiat/gostub/resolution/context.go:74-82 | the suffix filter keeps context order: it distributes over concatenation |
| Context.AliasedLocation | pkg/resolution/resolution.go:183-190 | found exactly when some entry has the alias, and then it is the location of the first such entry |
| Context.CandidateLocations | pkg/resolution/resolution.go:153-161 | three tiers: the local entries for "."; else the first exact alias match alone; else the suffix-matched unaliased imports |
| Context.FileContextLocalFirst | vendor/github.com/mokiat/gostub/resolution/context.go:21-43 | in a file's context the file's own package is the first place unqualified names are looked up |
| Context.DotImportIsLocal | vendor/github.com/mokiat/gostub/resolution/context.go:32-34 | a dot-import's package is a candidate for unqualified names |
| Context.SuffixMatchIsNotSegmentMatch | vendor/github.com/mokiat/gostub/resolution/context.go:74-82 | suffix matching is by plain text: qualifier `io` also selects an unnamed import of `example.com/radio` |
| Locate.FileDiscoveries | pkg/resolution/resolution.go:69-99 | one discovery per type spec of the file, each carrying the queried location and the file |
| Locate.Discoveries | vendor/github.com/mokiat/gostub/resolution/locator.go:68-98 | the discoveries of a location are exactly its files' type specs, tagged with that location; order by `DiscoveriesAppend` and `DiscoveriesOfOneFile` |
| Locate.DiscoveriesAppend | vendor/github.com/mokiat/gostub/resolution/locator.go:68-98 | discovery keeps file order: it distributes over concatenation of the file list |
| Locate.DiscoveriesOfOneFile | pkg/resolution/resolution.go:69-99 | one file contributes one discovery per type spec, in declaration order |
| Locate.FirstNamed | pkg/resolution/resolution.go:56-67 | the first discovery declaring the name: it is in the list and every discovery before it declares another name; none exactly when no discovery declares it |
| Locate.FirstNamedDeclares | vendor/github.com/mokiat/gostub/resolution/locator.go:55-66 | a location yields a declaration exactly when one of its files declares the name |
| Locate.Search | pkg/resolution/resolution.go:43-54 | the answer comes from a candidate location and has the requested name; `TypeNotFound(name)` exactly when no location declares it and every location loads |
| Locate.SearchAppend | vendor/github.com/mokiat/gostub/resolution/locator.go:42-53 | earlier locations take priority: a later one is consulted only when every earlier one lacks the name |
| Locate.NewLocator | pkg/resolution/resolution.go:13-17 | a new locator is coherent and has nothing cached |
| Locate.DiscoverTypes | pkg/resolution/resolution.go:69-99 | a cache hit returns the cached list unchanged; a miss fails exactly for a location that cannot be loaded; on success the list is cached and equals the location's discoveries |
| Locate.FindInLocation | vendor/github.com/mokiat/gostub/resolution/locator.go:55-66 | the first declaration of the name in the location, through the cache, and the cache stays coherent |
| Locate.FindInLocations | pkg/resolution/resolution.go:43-54 | locations are tried in order; the first load failure or the first declaration ends the search |
| Locate.CachedSearchIsSearch | pkg/resolution/resolution.go:43-99 | caching is invisible: a coherent locator answers exactly as the uncached search |
| Locate.FindIdentType | vendor/github.com/mokiat/gostub/resolution/locator.go:28-31 | an unqualified name is searched only in the local candidate locations |
| Locate.FindSelectorType | pkg/resolution/resolution.go:34-41 | `q.sel` is searched, under its selected name, in the candidate locations of qualifier `q` |
| Locate.RepeatLookupIsStable | vendor/github.com/mokiat/gostub/resolution/locator.go:68-98 | a second identical lookup answers the same and leaves the cache as the first left it |
| Locate.LookupReplay | pkg/resolution/resolution.go:43-99 | a lookup repeated on any coherent locator that keeps what the first one cached answers the same and caches nothing new |
| Imports.EmptyTable | pkg/astgen/file.go:23-29 | a new file's table is valid and empty |
| Imports.AliasNameInjective | pkg/astgen/file.go:51-54 | distinct counter values give distinct `alias<k>` names |
| Imports.AllocateUniqueAlias | pkg/astgen/file.go:51-54 | the counter goes up by one and, under the invariant, the new alias is not in use |
| Imports.AddImport | pkg/astgen/file.go:33-49 | a known location returns its alias and changes nothing; a free non-empty package name is used as given; otherwise `alias<k>` is used; both maps record the alias; validity is kept whenever the name cannot collide with a generated alias |
| Imports.AddImportIdempotent | vendor/github.com/mokiat/gostub/generator/file_builder.go:34-50 | registering the same location twice changes nothing the second time, whatever name is passed |
| Imports.DistinctLocationsDistinctAliases | pkg/astgen/file.go:33-49 | under the invariant, different locations never share an alias |
| Imports.GeneratedShapeNameCollides | pkg/astgen/file.go:39-54 | a caller-supplied name of the form `alias1` later collides with a generated alias and breaks the inverse maps |
| Imports.NewFile | pkg/astgen/file.go:23-29 | a new file has the given package name, a valid empty table and no declarations |
| Imports.AppendDeclaration | pkg/astgen/file.go:88-90 | the declaration goes at the end and nothing else changes |
| Imports.ImportLines | pkg/astgen/file.go:62-77 | one import line per registered alias, naming its quoted location, and no other line |
| Imports.Build | vendor/github.com/mokiat/gostub/generator/file_builder.go:61-89 | an import declaration comes first exactly when some import is registered; the appended declarations follow in order |
| Imports.BuiltImportsMatchTable | pkg/astgen/file.go:57-85 | under the invariant each registered location is imported under exactly its alias |
| Imports.ImportLineReadBack | pkg/resolution/resolution.go:130-137 | an emitted import line, read back by a locator context, names the same alias and location |
| Imports.AppendThenBuild | pkg/astgen/file.go:78-90 | appending a declaration adds it at the end of the built file and changes nothing before it |
| Resolve.ResolvedMonotone | pkg/resolution/resolver.go:25-49 | registering more aliases never un-resolves a type |
| Resolve.ResolveIdent | pkg/resolution/resolver.go:51-64 | builtins come back unchanged with no lookup and no import; any other name becomes `alias.Name`, with the alias `AddImport("", location)` gives for the declaring location; a lookup error propagates with the imports untouched |
| Resolve.ResolveSelector | vendor/github.com/mokiat/gostub/generator/resolver.go:63-73 | the selected name is kept and the qualifier becomes the registered alias of the location declaring it; lookup errors propagate |
| Resolve.ResolveType | pkg/resolution/resolver.go:25-152 | every composite keeps its shape (the result erases to the input); a successful result refers only to registered aliases; the state only grows |
| Resolve.ResolveList | pkg/resolution/resolver.go:109-146 | an absent list stays absent; a present one is rewritten field by field with its shape kept |
| Resolve.ResolveFields | vendor/github.com/mokiat/gostub/generator/resolver.go:106-143 | fields in order with their names kept and each type resolved; the first failure ends the walk |
| Resolve.UntouchedTypes | pkg/resolution/resolver.go:45-54 | a builtin or an uninspected expression costs no lookup and no import |
| Resolve.MapKeyFirst | pkg/resolution/resolver.go:84-95 | a map whose key cannot be resolved fails with the key's error, and its value is never looked up |
| Resolve.ResolveIdentReplay | pkg/resolution/resolver.go:51-64 | resolving a name again, on any good state grown from the first result, answers the same and changes nothing |
| Resolve.ResolveSelectorReplay | pkg/resolution/resolver.go:66-76 | the same for a qualified name |
| Resolve.ResolveTypeReplay | pkg/resolution/resolver.go:25-152 | the same for any type expression: a rewrite depends only on the declaration as written |
| Resolve.MapTypeReplay | pkg/resolution/resolver.go:84-95 | the same for a map type, key then value |
| Resolve.FuncTypeReplay | pkg/resolution/resolver.go:109-124 | the same for a function type, parameters then results |
| Resolve.ResolveListReplay | vendor/github.com/mokiat/gostub/generator/resolver.go:106-143 | the same for a field list |
| Resolve.ResolveFieldsReplay | vendor/github.com/mokiat/gostub/generator/resolver.go:106-143 | the same for a sequence of fields |
| Generate.ExpandedTypes | pkg/astgen/generator.go:121-123 | each field's type is repeated once per normalised entry |
| Generate.NumberedAppend | pkg/astgen/generator.go:120-131 | numbering continues across fields: consecutive numbered blocks make one numbered block |
| Generate.Copies | pkg/astgen/generator.go:123-131 | `count` entries of the same type, named consecutively |
| Generate.ExpandShared | pkg/resolution/resolver.go:78-107 | the source's expansion of a grouped field: on success one numbered entry per name; the state stays good and only grows; `ExpandSharedRewrites` adds that every entry is a resolved rewrite |
| Generate.ExpandSharedRewrites | pkg/resolution/resolver.go:78-107 | every entry of a successful shared expansion is a resolved rewrite of the declared type, although later names resolve the node as earlier rewrites left it |
| Generate.ExpandWith | pkg/astgen/generator.go:121-131 | for any resolver, a successful expansion gives one numbered entry per name |
| Generate.ExpandWithGrows | pkg/astgen/generator.go:121-131 | for any resolver that keeps an invariant and only grows the state, the expansion does too |
| Generate.ExpandWithRewrites | pkg/astgen/generator.go:121-131 | for any resolver that yields rewrites and keeps registered aliases, every entry is a rewrite of the field's type |
| Generate.ExpandWithReplay | pkg/astgen/generator.go:121-131 | expanding again on a state at or after the first expansion's result gives the same entries and changes nothing |
| Generate.ExpandSharedReplay | pkg/resolution/resolver.go:78-107 | the source's expansion, repeated on a grown good state, gives the same entries and changes nothing |
| Generate.ExpandSharedUntouched | pkg/resolution/resolver.go:45-54 | a type the resolver leaves alone is copied unchanged to every name, with no lookup and no import |
| Generate.TypeResolverKeeps | pkg/resolution/resolver.go:25-152 | the source's resolver keeps a good state good and only lets it grow |
| Generate.TypeResolverReplays | pkg/resolution/resolver.go:25-152 | the source's resolver answers the same on any grown good state |
| Generate.TypeResolverRewrites | pkg/resolution/resolver.go:25-152 | the source's resolver yields resolved rewrites and never drops a registered alias |
| Generate.ExpandOnce | pkg/astgen/generator.go:121-131 | the corrected expansion: on success one numbered entry per name, each a resolved rewrite of the field's type |
| Generate.NormalizeFields | pkg/astgen/generator.go:118-135 | one entry per name (one for an unnamed field), numbered consecutively from the start index across the whole list, each type a resolved rewrite in either expansion mode; the first failure ends normalisation |
| Generate.NumberedNamesDistinct | vendor/github.com/mokiat/gostub/generator/generator.go:145-162 | normalised entries carry distinct names |
| Generate.NormalizedParams | pkg/astgen/generator.go:118-135 | parameters are `arg1..argN`, N being the sum over fields of max(1, number of names) |
| Generate.NormalizedResults | pkg/astgen/generator.go:137-154 | results are `result1..resultN`, counted the same way |
| Generate.AllResolvedMonotone | vendor/github.com/mokiat/gostub/generator/generator.go:100-119 | methods already added stay resolved as more imports are registered |
| Generate.ProcessMethod | pkg/astgen/generator.go:72-92 | a method comes out exactly when both normalisations succeed; it keeps its name, its entries are normalised and, in either mode, resolved rewrites of the declared types |
| Generate.ProcessMethodReplay | pkg/astgen/generator.go:72-92 | processing a declaration again on a grown good state yields the same method, or the same error, and changes nothing |
| Generate.ProcessPlainMethod | pkg/astgen/generator.go:72-92 | a method whose types need no lookup comes out as its reference configuration, with the state unchanged |
| Generate.AddMethodOf | pkg/astgen/generator.go:60 | a processed method is appended, exactly that one; a method that fails to process appends nothing and its error is dropped; the lookup state is the one processing left |
| Generate.ProcessInterface | pkg/astgen/generator.go:51-70 | a non-interface is an error that adds nothing; otherwise an error exactly when some entry is of an unknown kind; methods only accumulate; only "not an interface" and "unknown entry" errors reach the caller |
| Generate.ProcessEntries | vendor/github.com/mokiat/gostub/generator/generator.go:86-96 | an error exactly when some entry is neither a method nor an embedded interface; methods only accumulate; `ProcessOneEntry` and `ProcessEntriesAppend` give the per-entry effect and the order |
| Generate.ProcessEntry | pkg/astgen/generator.go:57-66 | a method entry has exactly the effect of `AddMethodOf`; an entry of unknown kind changes nothing; every entry only appends methods and keeps every invariant |
| Generate.ProcessOneEntry | pkg/astgen/generator.go:57-68 | a single known entry is processed and the walk succeeds; an entry of unknown kind ends it with nothing added |
| Generate.ProcessEntriesAppend | vendor/github.com/mokiat/gostub/generator/generator.go:86-96 | walking known entries and then more is walking the rest from where the first part left off: entries are processed in order |
| Generate.PlainEntry | pkg/astgen/generator.go:57-60 | a plain method entry appends its reference configuration and leaves the lookup state alone |
| Generate.PlainEntries | pkg/astgen/generator.go:57-69 | plain method entries append their configurations, one each, in entry order |
| Generate.Embedded | pkg/astgen/generator.go:94-116 | the lookup's cache is kept whatever the outcome; a failed lookup adds nothing; a found declaration contributes exactly what `ProcessInterface` does on it, one level deeper |
| Generate.GenerateStub | vendor/github.com/mokiat/gostub/generator/generator.go:37-63 | a failed lookup of the interface in the source package aborts with that error; otherwise outcome and state are exactly `ProcessInterface`'s on the discovery; on success the methods are normalised and resolved against the generated file's imports |
| Generate.FindInterface | vendor/github.com/mokiat/gostub/generator/generator.go:38-45 | the interface is looked up by name in the source package alone, on a fresh cache, exactly as the reference search answers |
| Generate.PlainInterfaceStub | vendor/github.com/mokiat/gostub/generator/generator.go:37-63 | an interface of plain methods gives one method per entry, in declaration order, and registers no import |
| Generate.ExpandOneAgrees | pkg/astgen/generator.go:121-131 | for a field with one name the source's and the corrected expansion agree |
| Generate.SingleNamesAgree | vendor/github.com/mokiat/gostub/generator/generator.go:145-181 | when no field groups names, the source's and the corrected normalisation agree on every input |
| Generate.ExpandField | pkg/astgen/generator.go:121-131 | `count` consecutively numbered entries for one field; in either mode each entry is a resolved rewrite of its type |
| Generate.ExpandFieldReplay | pkg/astgen/generator.go:121-131 | expanding a field again on a grown good state gives the same entries and changes nothing |
| Generate.FieldExpanderFacts | pkg/astgen/generator.go:121-131 | the field expansion keeps good states good, numbers its entries and yields rewrites, in either mode |
| Generate.FieldExpanderReplays | pkg/astgen/generator.go:121-131 | the field expansion replays on grown good states |
| Generate.NormalizeWithGrows | pkg/astgen/generator.go:118-135 | normalisation with any expander that keeps an invariant and only grows the state does too |
| Generate.NormalizeWithNumbered | pkg/astgen/generator.go:118-135 | with a numbering expander, a successful normalisation has one entry per name, numbered across the list |
| Generate.NormalizeWithRewrites | pkg/astgen/generator.go:118-135 | with an expander that yields rewrites, every entry is a rewrite of its field's type and no alias is lost |
| Generate.NormalizeWithReplay | pkg/astgen/generator.go:118-135 | normalising again on a state at or after the first result gives the same entries and changes nothing |
| Generate.NormalizeFieldsCons | pkg/astgen/generator.go:121-133 | a non-empty list expands its first field, then normalises the rest from the next index; a failure of either ends it |
| Generate.NormalizeFieldsReplay | pkg/astgen/generator.go:118-135 | normalising a field list again on a grown good state gives the same entries and changes nothing |
| Generate.NormalizeUntouched | pkg/astgen/generator.go:118-135 | fields whose types need no lookup normalise to those types, renamed, with no lookup and no import |
| Generate.GreetMethod | pkg/astgen/generator.go:72-92 | `Greet(name string) string` becomes `Greet(arg1 string) (result1 string)` with no lookup and no import |
| Generate.GreeterEntries | pkg/astgen/generator.go:57-69 | an interface body holding only `Greet` adds exactly that one method |
| Generate.FirstAlias | pkg/astgen/file.go:39-54 | the first location registered without a name is handed `alias1` |
| Generate.FirstIdentResolution | pkg/resolution/resolver.go:51-64 | the first resolution of a name declared at "L" qualifies it as `alias1.T` |
| Generate.ResolvePointer | pkg/resolution/resolver.go:103-107 | a pointer type resolves to the pointer to its rewritten element, and fails as its element does |
| Generate.FirstResolution | pkg/resolution/resolver.go:103-107 | the first resolution of `*T` yields `*alias1.T` |
| Generate.GreeterStub | vendor/github.com/mokiat/gostub/generator/generator.go:37-63 | `Greeter { Greet(name string) string }` yields one method `Greet(arg1 string) (result1 string)` and registers no import |
| Generate.ForeignQualifierFails | pkg/resolution/resolver.go:66-76 | a qualifier the file does not import has no candidate location, so the lookup fails |
| Generate.SharedExpansionFails | pkg/resolution/resolver.go:103-107 | as written: `(a, b *T)` re-resolves the rewritten `*alias1.T`, and the lookup fails |
| Generate.OnceExpansionSucceeds | pkg/astgen/generator.go:121-131 | corrected: both names of `(a, b *T)` get `*alias1.T` |
| Generate.GroupedPointerParams | pkg/astgen/generator.go:118-135 | the source's normalisation of `M(a, b *T)` fails with `TypeNotFound`; the corrected one gives `arg1, arg2 *alias1.T` |
| Generate.FirstVisit | pkg/astgen/generator.go:72-92 | the first visit of `M(x *T)` succeeds and leaves the state the pointer's resolution left |
| Generate.SecondVisit | pkg/resolution/resolver.go:66-76 | `M(x *alias1.T)`, the node a first visit leaves, fails in the declaring file on any good state |
| Generate.RevisitDropsMethod | pkg/resolution/resolver.go:103-107 | in the source, the second visit of a declaration reached through two embeddings sees the node the first visit rewrote (`*alias1.T`), and its copy of `M` fails, while the first visit's copy is already appended |
| Generate.RevisitKeepsMethod | pkg/astgen/generator.go:94-116 | in the model every visit reads the declaration as written, so a second visit yields the first visit's method again |
| Snake.SnakeLength | pkg/transformation/transformation.go:10-24 | the output is the input length plus one per inserted underscore |
| Snake.SnakeAt | pkg/transformation/transformation.go:15-20 | each rune lands lower-cased at its position, preceded by `_` exactly where a boundary is |
| Snake.ToSnakeCase | pkg/transformation/transformation.go:10-24 | empty exactly for empty input; no upper-case letter; every input rune lower-cased in order, with an underscore before each boundary (i > 0, an upper-case letter or digit, next or previous rune lower-case); the same holds for cmd/mongen/utils.go:8-20 and cmd/mongen/main.go:258-270 |
| Snake.SnakeAtAll | cmd/mongen/utils.go:8-20 | every rune and every boundary underscore, at once |
| Snake.PosOrdered | pkg/transformation/transformation.go:15-21 | output positions strictly increase, and an inserted underscore never lands on an earlier rune |
| Snake.NoUpperUpTo | cmd/mongen/main.go:258-270 | no prefix of the output holds an upper-case letter |
| Snake.PlainTextUnchanged | pkg/transformation/transformation.go:15-20 | text without capitals or digits inserts nothing, at any prefix |
| Snake.PlainTextIsSnakeCase | pkg/transformation/transformation.go:10-24 | text without capitals or digits comes back unchanged |
| Snake.TrailingAcronym | cmd/mongen/utils.go:8-20 | `UserID` becomes `user_id` |
| GostubString.LowerRunEnd | vendor/github.com/mokiat/gostub/util/string.go:10 | the end of a run of lower-case letters: every rune before it is lower-case, the one at it is not |
| GostubString.SplitWordsOnlyInserts | vendor/github.com/mokiat/gostub/util/string.go:10 | the word pass only inserts underscores |
| GostubString.ReplacePairsOnlyInserts | vendor/github.com/mokiat/gostub/util/string.go:11-13 | each pair pass only inserts underscores |
| GostubString.SnakeCase | vendor/github.com/mokiat/gostub/util/string.go:8-15 | the lower-cased marked text: no capitals; only underscores added; every letter/digit, digit/letter and lower/upper boundary of the marked text separated |
| GostubString.Marked | vendor/github.com/mokiat/gostub/util/string.go:10-13 | the four regex passes only add underscores, and leave no letter/digit, digit/letter or lower/upper neighbours |
| GostubString.ReplacePairsSeparates | vendor/github.com/mokiat/gostub/util/string.go:11-13 | after a pair pass no neighbours match its pattern |
| GostubString.ReplacePairsKeepsSeparation | vendor/github.com/mokiat/gostub/util/string.go:11-13 | a pass never brings together neighbours an earlier pass separated |
| GostubString.UnscoredLower | vendor/github.com/mokiat/gostub/util/string.go:14 | lower-casing commutes with ignoring underscores |
| GostubString.PlainUnchanged | vendor/github.com/mokiat/gostub/util/string.go:8-15 | lower snake case without digits comes back unchanged |
| GostubString.LetterDigitSplit | vendor/github.com/mokiat/gostub/util/string.go:11 | the letter-then-digit pass puts one underscore between a letter run and a digit run |
| GostubString.DigitLetterSplit | vendor/github.com/mokiat/gostub/util/string.go:12 | the digit-then-letter pass puts one underscore between a digit run and a letter run |
| GostubString.LowerUpperSplit | vendor/github.com/mokiat/gostub/util/string.go:13 | the lower-then-upper pass puts one underscore between a lower run and an upper run |
| GostubString.CapitalWordSplit | vendor/github.com/mokiat/gostub/util/string.go:10 | the word pass separates a capitals run from a following capitalised word |
| GostubString.LettersThenDigits | vendor/github.com/mokiat/gostub/util/string.go:8-15 | `HELLO1234` and `hello1234` become `hello_1234` |
| GostubString.DigitsThenLetters | vendor/github.com/mokiat/gostub/util/string.go:8-15 | `1234HELLO` and `1234hello` become `1234_hello` |
| GostubString.LowerThenUpper | vendor/github.com/mokiat/gostub/util/string.go:8-15 | `helloWORLD` becomes `hello_world` |
| GostubString.CapitalsThenWord | vendor/github.com/mokiat/gostub/util/string.go:8-15 | `HELLOWorld` becomes `hello_world` |
| GostubString.ToPrivate | vendor/github.com/mokiat/gostub/util/string.go:22-27 | same length; only the first character is lowered, the rest is kept; empty stays empty |
| GostubString.ToPrivateLaws | vendor/github.com/mokiat/gostub/util/string.go:22-27 | an already private name is unchanged, and applying the helper twice changes nothing more |
| GenStrings.WriteBracketed | pkg/gen/gen.go:26-36 | the buffer loop writes `(`, the items separated by `, `, then `)` |
| GenStrings.ArgsString | pkg/gen/gen.go:26-36 | bracketed, and `()` exactly when there are no arguments |
| GenStrings.InvocationString | pkg/gen/gen.go:38-48 | bracketed names only; `()` without arguments |
| GenStrings.NamedString | pkg/gen/gen.go:53-66 | empty exactly without results; otherwise the results printed as `name type` arguments |
| GenStrings.ResultsString | pkg/gen/gen.go:68-81 | empty exactly without results; otherwise bracketed |
| GenStrings.ArgsExample | pkg/gen/gen_test.go:11-26 | `(ctx context.Context, n int)` |
| GenStrings.InvocationExample | pkg/gen/gen_test.go:28-32 | `(ctx, n)` |
| GenStrings.ResultsExample | pkg/gen/gen_test.go:37-52 | `(n int, err error)` named, `(int, error)` types only |
| GenStrings.JoinInjective | pkg/gen/gen.go:38-48 | non-empty comma-free items can be read back from their joined text |
| GenStrings.InvocationDeterminesNames | pkg/gen/gen.go:38-48 | the invocation text determines the forwarded names |
| Receivers.FirstIndex | cmd/mongen/main.go:80-83 | the first occurrence of a character, with none before it |
| Receivers.RemovePackageName | cmd/mongen/main.go:75-78 | a dot-free suffix of the identifier, preceded by a dot unless it is the whole identifier; the same holds for cmd/logen/main.go:78-81 |
| Receivers.PackagePart | cmd/mongen/main.go:80-83 | the dot-free prefix before the first dot |
| Receivers.ConstructorName | cmd/mongen/main.go:152-173 | the constructor's name part is dot-free |
| Receivers.QualifiedNameParts | cmd/mongen/main.go:75-83 | `pkg.Name` splits back into `pkg` and `Name` |
| Receivers.GivenName | cmd/mongen/main.go:122-145 | the reported name when there is one, else `<prefix><position>` from zero; never empty |
| Receivers.NameArgs | cmd/mongen/main.go:122-133 | one argument per parameter; unnamed parameter i becomes `arg<i>` |
| Receivers.NameResults | cmd/logen/main.go:122-133 | one result per result; unnamed result i becomes `ret<i>` |
| Receivers.GivenNamesDistinct | cmd/mongen/main.go:122-145 | when a list is either wholly unnamed or named with distinct names, as Go signatures are, the given names are pairwise distinct |
| Receivers.UnnamedExample | cmd/mongen/main.go:122-145 | `DoWork(int, string) (string, error)` is forwarded as `arg0, arg1` returning `ret0, ret1` |
| Receivers.NamedResultsDeclared | cmd/logen/main.go:198-205 | a signature with named results declares every name the call assigns |
| Receivers.ReturnStatement | cmd/mongen/main.go:210-221 | nothing exactly without results |
| Receivers.TargetsJoinNames | cmd/mongen/main.go:228-238 | no targets without results; otherwise the names joined by `,` and then `=` |
| Receivers.TargetsAreReturned | cmd/mongen/main.go:210-238 | the call assigns exactly the names the return statement returns, in the same order |
| Receivers.LastTargetIsLastResult | cmd/mongen/main.go:247-254 | the last result's name is the last thing assigned before `=` |
| Receivers.Signature | cmd/logen/main.go:198-205 | the signature starts with receiver, name and parameters, and is exactly that without results; in the named form the results print as `name type` pairs; the same holds for cmd/mongen/main.go:201-208 |
| MongenText.WriteMethod | cmd/mongen/main.go:187-256 | the signature is the types-only signature text, declaring only the argument names; the call is the forwarded call; the failure block is present exactly when the last result is an `error` and tests its name; the label is the snake-cased method name; a return exactly when there are results |
| MongenText.Render | cmd/mongen/main.go:187-199 | the signature opens the text, the return and the closing brace end it, and nothing but the pieces and the fixed tokens is printed |
| MongenText.ForwardedCall | cmd/mongen/main.go:228-238 | `<recv>.next.<Name>(<arg names>)`, preceded by the result names joined by `,` and `=` exactly when there are results |
| MongenText.FailureTestsAssignedResult | cmd/mongen/main.go:247-254 | the failure block tests the name the forwarded call assigns last |
| MongenText.AssignsUndeclaredNames | cmd/mongen/main.go:201-238 | as written: with results, the call assigns with `=` to names the types-only signature never declares |
| MongenText.DoWorkAssignsUndeclared | cmd/mongen/main.go:201-238 | the package's own example interface hits it |
| MongenText.WriteMethodNamed | cmd/mongen/main.go:201-208 | corrected: with named results every assigned name is declared, and the rest of the text is unchanged |
| LogenText.LoggedArgs | cmd/logen/main.go:250-256 | exactly the arguments that are not `context.Context`, all of them when there is no context; `LoggedArgsAppend` keeps their order |
| LogenText.LoggedArgsAppend | cmd/logen/main.go:250-256 | dropping contexts distributes over concatenation, so the logged arguments keep their order |
| LogenText.LoggedArgsOfOne | cmd/logen/main.go:250-256 | a single argument is logged exactly when it is not a context |
| LogenText.InEntries | cmd/logen/main.go:250-256 | one `"in_<name>", <name>,` line per logged argument, position by position |
| LogenText.InEntriesAppend | cmd/logen/main.go:250-256 | the argument entries of a concatenation are the parts' entries in order |
| LogenText.EntriesTextAppend | cmd/logen/main.go:250-270 | entries are printed one after another |
| LogenText.ResultEntries | cmd/logen/main.go:258-270 | one entry per result, valued by its name, keyed `"error"` exactly for `error` results; only non-final `error` entries stay on the line |
| LogenText.InEntriesSkipContexts | cmd/logen/main.go:250-256 | the argument entries skip contexts and keep the others' names; position by position through `InEntries` |
| LogenText.ReturnStatementDebug | cmd/logen/main.go:207-212 | the forwarded call, prefixed by `return ` exactly when there are results |
| LogenText.DebugCall | cmd/logen/main.go:241-272 | the deferred log call: the header, the argument entries, the result entries, then `)` and `}()` |
| LogenText.ErrorLog | cmd/logen/main.go:292-302 | the same error value is tested against nil and then logged through its `Error()` |
| LogenText.ErrorCheck | cmd/logen/main.go:290-302 | present exactly when the last result is an `error` |
| LogenText.ErrorCall | cmd/logen/main.go:274-303 | nothing exactly without results; otherwise the assignment, the error check and the return |
| LogenText.LogCall | cmd/logen/main.go:227-239 | written exactly for `debug` and `error`; a panic naming the level otherwise |
| LogenText.WriteMethod | cmd/logen/main.go:186-205 | written exactly for an accepted level, otherwise the `unknown log level` panic; the text is the signature with named results, then `{`, and it ends with `}` and a blank line |
| LogenText.ErrorMethodAssignsDeclared | cmd/logen/main.go:186-225 | at the error level a method with results is its named-results signature, whose results part prints every result, followed by the assignment, the forwarded call, the error check and the return; every name the body assigns is declared by that signature |
| LogenText.ErrorLevelDropsCall | cmd/logen/main.go:274-279 | as written: at the error level a method without results gets the empty body `{}`, which never calls the wrapped method |
| LogenText.ErrorCallForwarding | cmd/logen/main.go:274-289 | corrected `writeErrorCall`: it always contains the forwarded call `l.next.<name>(<args>)`, and with results it is the source's text |
| LogenText.LogCallForwarding | cmd/logen/main.go:227-239 | corrected body: at both accepted levels it contains the forwarded call, and it differs from the source only for a method without results at the error level |
| LogenText.DebugForwards | cmd/logen/main.go:207-212 | the debug body always contains the forwarded call |
| LogenText.ErrorLevelAssignsDeclared | cmd/logen/main.go:214-225 | the error level's assignment targets are the declared result names |
| LogenText.LevelsForwardSameCall | cmd/logen/main.go:207-225 | both levels forward the same call |
| LogenText.OnlyErrorResult | cmd/logen/main.go:258-266 | a lone `error` result is logged under `"error"` and ends its line |
| LogenText.ConcreteName | cmd/logen/main.go:41 | the generated type starts with the level and ends with the interface name, with `Logging` between |
| LogenText.ConcreteNameInjective | cmd/logen/main.go:37-41 | for the two accepted levels, the generated name determines both the level and the interface |
| GoCode.IdentsIds | cmd/mongen/internal/commonbuilders/builders.go:76-92 | a list of identifiers reads exactly those names |
| GoCode.BlockOkAppend | cmd/mongen/internal/opencensus/oc_builders.go:172-262 | a body is well scoped exactly when its first part is and the rest is, in the scope the first part leaves |
| GoCode.BlockDefsAppend | vendor/github.com/mokiat/gostub/generator/stub_method_builder.go:84-130 | the names a body declares add up over concatenation |
| CommonBuilders.NumberedNamed | pkg/astgen/generator.go:129 | normalised entries have exactly one name each, so their first names are all their names |
| CommonBuilders.NormalisedNames | pkg/astgen/generator.go:118-154 | normalised parameters start with `a` and results with `r`, and none is `_` |
| CommonBuilders.Member | cmd/mongen/internal/gokit/gokit_builders.go:120-126 | a field of the generated struct reads only the receiver |
| CommonBuilders.AnyIsLast | cmd/mongen/internal/commonbuilders/builders.go:77-83 | for parameter lists Go accepts, "some parameter is variadic" and "the last one is" agree |
| CommonBuilders.StartName | cmd/mongen/internal/commonbuilders/builders.go:39-42 | `_start` when no name is given, else the given name |
| CommonBuilders.StartTimeRecorder | cmd/mongen/internal/commonbuilders/builders.go:31-50 | `:=` binds exactly the start variable and reads only the time package |
| CommonBuilders.StartTimeOk | cmd/mongen/internal/common/builders.go:20-39 | the recorder is well scoped wherever its variable is new and the time package is in scope |
| CommonBuilders.ForwardCall | cmd/mongen/internal/commonbuilders/builders.go:76-92 | the call reads the receiver and the parameter names, spread exactly as asked |
| CommonBuilders.Invocation | cmd/mongen/internal/commonbuilders/builders.go:94-104 | a `:=` to the result names in order exactly when there are results, else a bare call |
| CommonBuilders.MethodInvocation | cmd/mongen/internal/commonbuilders/builders.go:70-105 | the call forwards the parameter names, spread when some parameter is variadic; with results a `:=` to the result names; it declares exactly the result names but `_` |
| CommonBuilders.PlainInvocation | cmd/mongen/internal/common/builders.go:55-85 | the same call, never spread |
| CommonBuilders.InvocationDeclaresResults | cmd/mongen/internal/commonbuilders/builders.go:94-104 | whatever the spreading, the invocation declares exactly the result names but `_` |
| CommonBuilders.MethodInvocationForwardsVariadic | cmd/mongen/internal/commonbuilders/builders.go:70-105 | corrected: the call is spread exactly when the method is variadic |
| CommonBuilders.PlainInvocationForwardsVariadic | cmd/mongen/internal/common/builders.go:55-85 | the never-spread call forwards correctly exactly when the method is not variadic |
| CommonBuilders.PlainInvocationDropsSpread | cmd/mongen/gokit_builders.go:221-251 | as written: `Sum(xs ...int)` is forwarded without `...` |
| CommonBuilders.InvocationOk | cmd/mongen/internal/common/builders.go:74-84 | the invocation is well scoped when its reads are in scope and the result names are new, and it declares exactly the result names |
| CommonBuilders.ReturnResults | cmd/mongen/internal/commonbuilders/builders.go:116-125 | one value per result, reading exactly the result names; a bare return without results |
| CommonBuilders.InvocationFeedsReturn | cmd/mongen/internal/common/builders.go:74-105 | the names the invocation declares are exactly those the return returns, in order |
| CommonBuilders.FirstErrorIndex | cmd/mongen/internal/opencensus/oc_builders.go:550-566 | the first result typed by the identifier `error`; none exactly when no result is |
| CommonBuilders.ErrorResultName | cmd/mongen/oc_builders.go:428-444 | the name of that first `error` result, present exactly when it exists |
| CommonBuilders.ErrorResultSkipsPrefix | cmd/mongen/internal/opencensus/oc_builders.go:550-566 | results before the first `error` only shift its index |
| CommonBuilders.TrailingErrorResult | cmd/mongen/gokit_builders.go:262-290 | with Go's convention of one trailing `error`, that result is the one tested for failure |
| OcBuilders.ContextParam | cmd/mongen/internal/opencensus/oc_builders.go:276-307 | `ctx :=` binds the first parameter exactly when its type is `<ctxAlias>.Context`, else `<ctxAlias>.Background()` |
| OcBuilders.ContextParamReads | cmd/mongen/oc_builders.go:250-281 | the context comes from the method's own parameter or from the context package, nothing else |
| OcBuilders.ContextParamOk | cmd/mongen/internal/opencensus/oc_builders.go:276-307 | the binding is well scoped wherever `ctx` is new |
| OcBuilders.ContextDecorator | cmd/mongen/internal/opencensus/oc_builders.go:319-345 | an `if` that declares nothing |
| OcBuilders.ContextDecoratorOk | cmd/mongen/internal/opencensus/oc_builders.go:319-345 | well scoped once `ctx` and the receiver are |
| OcBuilders.TagNew | cmd/mongen/internal/opencensus/oc_builders.go:447-481 | the tagging call reads the tag package, `ctx` and `tagKey` |
| OcBuilders.CreateTagKey | cmd/mongen/internal/opencensus/oc_builders.go:356-376 | declares exactly `tagKey`, reading only the tag package |
| OcBuilders.CreateTagKeyDiscarding | cmd/mongen/oc_builders.go:292-313 | declares exactly `tagKey` and discards the error to `_` |
| OcBuilders.InsertTagDiscarding | cmd/mongen/oc_builders.go:324-359 | `ctx, _ = tag.New(...)`: the library's tagging call with its error target replaced by `_`; declares nothing and reads the tag package, `ctx` and `tagKey` |
| OcBuilders.InsertTagInContext | cmd/mongen/internal/opencensus/oc_builders.go:391-443 | exactly two statements: `var err error`, then an `if` with init whose body panics with `err` |
| OcBuilders.TargetIds | cmd/mongen/oc_builders.go:324-359 | `ctx, _` reads `ctx` only |
| OcBuilders.InsertTagOk | cmd/mongen/internal/opencensus/oc_builders.go:391-443 | `err` is declared before the `if` reads it |
| OcBuilders.InsertTagDiscardingOk | cmd/mongen/oc_builders.go:324-359 | the discarding insert is well scoped and declares nothing |
| OcBuilders.StatsRecord | cmd/mongen/oc_builders.go:462-473 | a stats record reads the stats package, `ctx` and its measurement |
| OcBuilders.RecordStat | cmd/mongen/internal/opencensus/oc_builders.go:491-503 | reads only the stats package, `ctx` and the receiver |
| OcBuilders.RecordOpsDurationStats | cmd/mongen/internal/opencensus/oc_builders.go:515-540 | reads the stats and time packages, `ctx`, the receiver and the start variable |
| OcBuilders.IncrementFailedOps | cmd/mongen/internal/opencensus/oc_builders.go:550-580 | an empty statement exactly when no result is an `error`; otherwise an `if` testing the first `error` result; declares nothing |
| OcBuilders.IncrementFailedOpsOk | cmd/mongen/oc_builders.go:428-458 | well scoped once the result names are declared |
| OcBuilders.Measured | cmd/mongen/internal/opencensus/oc_builders.go:172-262 | the six measured statements around the forwarded call |
| OcBuilders.TagSetup | cmd/mongen/internal/opencensus/oc_builders.go:183-200 | the three tag statements |
| OcBuilders.BuildMethod | cmd/mongen/internal/opencensus/oc_builders.go:150-265 | parameters as given, anonymised results, an eleven-statement body |
| OcBuilders.BuildMethodDiscarding | cmd/mongen/oc_builders.go:137-239 | parameters as given, anonymised results, a nine-statement body |
| OcBuilders.TagsOperationName | cmd/mongen/internal/opencensus/oc_builders.go:189 | both versions tag the context with the quoted snake-cased method name |
| OcBuilders.ForwardsVariadicCall | cmd/mongen/oc_builders.go:159-236 | the library version spreads the forwarded call exactly when the method is variadic; the command version never spreads, so it forwards correctly exactly when the method is not variadic |
| OcBuilders.CreateTagKeyOk | cmd/mongen/internal/opencensus/oc_builders.go:356-376 | the tag key is well scoped wherever `tagKey` is new |
| OcBuilders.RecordStatOk | cmd/mongen/internal/opencensus/oc_builders.go:491-503 | well scoped and declares nothing |
| OcBuilders.RecordOpsDurationOk | cmd/mongen/internal/opencensus/oc_builders.go:515-540 | well scoped once the start variable is declared, and declares nothing |
| OcBuilders.Outside | cmd/mongen/internal/opencensus/oc_builders.go:153-160 | a local or result name is never a package alias, predeclared name, receiver or parameter |
| OcBuilders.TopFactsFrom | cmd/mongen/internal/opencensus/oc_builders.go:153-160 | the scope at the top of the body has the facts the statements need |
| OcBuilders.TopScope | cmd/mongen/oc_builders.go:137-160 | the same for the signature the builders emit |
| OcBuilders.MeasuredOk | cmd/mongen/internal/opencensus/oc_builders.go:201-262 | the measured statements read only names declared before them |
| OcBuilders.TagSetupOk | cmd/mongen/internal/opencensus/oc_builders.go:183-200 | the tag statements declare `tagKey` and `err` before reading them |
| OcBuilders.ContextSetupOk | cmd/mongen/internal/opencensus/oc_builders.go:172-182 | `ctx` is declared, then read |
| OcBuilders.BuildMethodBodyOk | cmd/mongen/internal/opencensus/oc_builders.go:172-262 | the body is well scoped in any scope with the top facts |
| OcBuilders.BuildMethodWellScoped | cmd/mongen/internal/opencensus/oc_builders.go:150-265 | for a normalised method whose package aliases differ from its locals, every statement reads only names declared before it |
| OcBuilders.TagDiscardingOk | cmd/mongen/oc_builders.go:159-190 | the command's tag statements declare only `tagKey` |
| OcBuilders.BuildMethodDiscardingBodyOk | cmd/mongen/oc_builders.go:159-236 | the command's body is well scoped in any scope with the top facts |
| OcBuilders.BuildMethodDiscardingWellScoped | cmd/mongen/oc_builders.go:137-239 | the same def-before-use guarantee for the command's version |
| GokitBuilders.WithOperation | cmd/mongen/internal/gokit/gokit_builders.go:183-208 | the labelled metric reads only the receiver |
| GokitBuilders.CounterAdd | cmd/mongen/internal/gokit/gokit_builders.go:183-208 | an expression statement reading only the receiver, labelled `("operation", snake(name))`; the same holds for cmd/mongen/gokit_builders.go:181-206 |
| GokitBuilders.RecordOpDuration | cmd/mongen/internal/gokit/gokit_builders.go:285-321 | reads the receiver, the time package and `_start`, labelled like the counters; the same holds for cmd/mongen/gokit_builders.go:377-413 |
| GokitBuilders.IncreaseFailedOps | cmd/mongen/internal/gokit/gokit_builders.go:219-269 | an empty statement exactly when no result is an `error`; otherwise an `if` with no init and no else, testing the first `error` result and counting a failure; the same holds for cmd/mongen/gokit_builders.go:262-312 |
| GokitBuilders.Body | cmd/mongen/internal/gokit/gokit_builders.go:143-173 | six statements |
| GokitBuilders.BuildMethod | cmd/mongen/internal/gokit/gokit_builders.go:133-176 | parameters as given, anonymised results that declare nothing, a six-statement body |
| GokitBuilders.MetricsLabelled | cmd/mongen/internal/gokit/gokit_builders.go:143-170 | total, duration and failure metrics carry the same operation label |
| GokitBuilders.DurationReadsRecordedStart | cmd/mongen/gokit_builders.go:342-383 | the recorder declares `_start`, the name the duration record hard-codes |
| GokitBuilders.FailureReadsDeclared | cmd/mongen/internal/gokit/gokit_builders.go:219-269 | the failure check tests a name the invocation declares |
| GokitBuilders.FailureTestsFirstError | cmd/mongen/internal/gokit/gokit_builders.go:219-269 | the check is an `if` exactly when some result is an `error`, and it tests a name the invocation declared |
| GokitBuilders.ForwardsVariadicCall | cmd/mongen/internal/gokit/gokit_builders.go:152-159 | as written: the forwarded call is right exactly for non-variadic methods |
| GokitBuilders.CounterAddOk | cmd/mongen/gokit_builders.go:181-206 | well scoped wherever the receiver is |
| GokitBuilders.IncreaseFailedOpsOk | cmd/mongen/gokit_builders.go:262-312 | well scoped once the result names are declared |
| GokitBuilders.BodyOk | cmd/mongen/internal/gokit/gokit_builders.go:143-173 | the body is well scoped in any scope with the body facts |
| GokitBuilders.FactsFrom | cmd/mongen/internal/gokit/gokit_builders.go:133-141 | the scope at the top of the body has those facts |
| GokitBuilders.TopFacts | cmd/mongen/gokit_builders.go:131-139 | the same for the signature the builder emits |
| GokitBuilders.BuildMethodWellScoped | cmd/mongen/internal/gokit/gokit_builders.go:133-176 | for a normalised method, every statement reads only names declared before it |
| StubBuilder.FieldSel | vendor/github.com/mokiat/gostub/generator/stub_method_builder.go:66-74 | a field of the stub reads only the receiver |
| StubBuilder.MutexAction | vendor/github.com/mokiat/gostub/generator/mutex_action_builder.go:36-52 | a deferred call exactly when deferred, else a plain call; declares nothing |
| StubBuilder.ParamSelectors | vendor/github.com/mokiat/gostub/generator/stub_method_builder.go:87-90 | one identifier per parameter, its name, in order |
| StubBuilder.RecordArgs | vendor/github.com/mokiat/gostub/generator/stub_method_builder.go:92-113 | `args = append(args, struct{...}{...})` assigns the args field |
| StubBuilder.CallStub | vendor/github.com/mokiat/gostub/generator/stub_method_builder.go:135-162 | one statement: returned exactly when there are results |
| StubBuilder.ReturnReturns | vendor/github.com/mokiat/gostub/generator/stub_method_builder.go:164-182 | no else exactly without results; otherwise one returned field per result |
| StubBuilder.Dispatch | vendor/github.com/mokiat/gostub/generator/stub_method_builder.go:122-130 | an `if` testing that the stub field is not nil |
| StubBuilder.BuildMethod | vendor/github.com/mokiat/gostub/generator/stub_method_builder.go:66-133 | parameters as given, anonymised results, a four-statement body |
| StubBuilder.LockReleased | vendor/github.com/mokiat/gostub/generator/stub_method_builder.go:84-85 | the lock is taken first and its release deferred next, on the same mutex |
| StubBuilder.RecordsEveryArgument | vendor/github.com/mokiat/gostub/generator/stub_method_builder.go:87-113 | the literal has one element per parameter, its name; its fields are the parameters with variadics as slices; the stub receives the same names |
| StubBuilder.StubCallForwardsVariadic | vendor/github.com/mokiat/gostub/generator/stub_method_builder.go:115-144 | the stub call is spread exactly when the last parameter is variadic |
| StubBuilder.BranchesAgree | vendor/github.com/mokiat/gostub/generator/stub_method_builder.go:135-182 | both branches return exactly when there are results, and the same number of values |
| StubBuilder.DispatchOk | vendor/github.com/mokiat/gostub/generator/stub_method_builder.go:122-130 | the dispatch is well scoped once the receiver and parameters are |
| StubBuilder.ListIdsWithin | vendor/github.com/mokiat/gostub/generator/stub_method_builder.go:164-182 | a list reads within a scope when each element does |
| StubBuilder.RecordArgsOk | vendor/github.com/mokiat/gostub/generator/stub_method_builder.go:92-113 | the append reads only the receiver and the parameters |
| StubBuilder.BodyOk | vendor/github.com/mokiat/gostub/generator/stub_method_builder.go:84-130 | the body is well scoped and declares nothing |
| StubBuilder.DeclaresNothing | vendor/github.com/mokiat/gostub/generator/stub_method_builder.go:84-130 | statements that declare nothing make a block that declares nothing |
| StubBuilder.BuildMethodWellScoped | vendor/github.com/mokiat/gostub/generator/stub_method_builder.go:66-133 | every statement of the stub method reads only the receiver, the parameters and predeclared names |

## Left out

- Loading packages from disk (`ImportToDir`, `parser.ParseDir`, `go/build`, `util/gopath.go`) is an abstract oracle `location -> files`. A missing key stands for a load failure, and discovery order is the oracle's order.
- Command-line parsing, file creation, printing, and the `Save` step of gostub's `Generate` are I/O and are not modelled.
- The `go/types` loader in `buildReceiver` is not modelled. Only its naming rule over reported (name, type) pairs is.
- `imports.Process`, `format.Node` and `util/code.go` are foreign formatting code and are not modelled.
- The `Each*` iterators' goroutines and channels are incidental, so the iterators are plain sequence filters.
- `Build` emits imports in Go map order, which is unspecified. `Imports.ImportLines` is therefore a set: import order is not modelled.
- Fixed-template builders with no decisions are not modelled. This covers:
  - constructor builders;
  - `pkg/astgen/method.go` and `pkg/astgen/struct.go`;
  - the vendored field, struct, count, args, returns and stub-to-interface builders;
  - `pointerExpr` and `buildCtxFuncType`;
  - the `*_model.go` glue.
- Token positions are reduced to a boolean variadic flag on calls.
- The gostub acceptance suite runs generated code and is not modelled.
- Generate.ProcessInterface: embedded interfaces are followed at most `fuel` levels deep. Embedding chains deeper than the fuel are cut short. The source keeps no set of visited interfaces (pkg/astgen/generator.go:94-116), so an interface that embeds itself, directly or through others, makes it recurse without end; the Go compiler rejects such an interface as an invalid recursive type, so only ill-typed input reaches that case. Within the fuel the model follows the source.
- Generate.Embedded: rewrites that persist from one visit of a cached declaration to the next are not modelled, and neither is the nil child a failed rewrite leaves behind. In the source, a declaration reached through two embedding paths is walked twice, and `ProcessInterface` ignores the error of each method (pkg/astgen/generator.go:57-68). On the second walk a method whose types the first walk rewrote fails and is skipped, so it appears once (`RevisitDropsMethod`). A method with no rewritten type, such as `N(y int)`, is appended on both walks and appears twice. The model re-reads the declaration on every walk, so it emits every such method once per path, the rewritten ones included (`RevisitKeepsMethod`).
- Character classes are ASCII. `unicode.IsUpper`/`ToLower` on other scripts and `ToPrivate` on a multi-byte first rune are not modelled.
- `FindSelectorType`'s panic when a qualifier is not an identifier cannot arise: a selector's qualifier is a string here.
- An interface method entry without names (the Go parser never produces one) is named "". The source would index `Names[0]` and panic.
- `ToSnakeCase`, `FieldsAsAnonymous` and the metric-name constants of `cmd/mongen/internal/common` are not part of this model. The model uses the identical copies in `pkg/transformation` and `cmd/mongen/utils.go`.
- The indentation inside the raw-string templates of `mongen` and `logen` is approximated by tabs. The tokens and line breaks follow the templates.
- The scoping semantics of `GoCode` is an approximation: a selector reads only its operand, shadowing is not modelled, and unused variables are not checked.
- StubBuilder.BuildMethod: the mutex, args, returns and stub field selectors, which gostub wires in from the struct builder, are parameters (`StubFields`).
- `isBuiltIn` holds 20 names in the code (`Resolve.BuiltIns`), including `error`; the model follows the code.
- gostub's `Greet(name string)` comes out as `Greet(arg1 string)`: the code renames every parameter, whatever an example in prose shows.
- GokitBuilders.BuildMethodWellScoped: requires that the time package's alias is neither `_start` nor a result name. The source assumes this silently.
- OcBuilders.BuildMethodWellScoped: requires that the package aliases differ from the body's locals and result names (`AliasesApart`). The source assumes this silently.

## Findings

| source | as written | input that shows it | evidently intended | confidence | as-written member | corrected member |
|---|---|---|---|---|---|---|
| cmd/mongen/main.go:201-238 | the signature prints result types only, yet the forwarded call assigns the results with `=` | `DoWork(int, string) (string, error)`: `ret0,ret1=m.next.DoWork(arg0,arg1)` assigns names that were never declared | declare the result names (named results, as `logen` does) | not executed | MongenText.AssignsUndeclaredNames | MongenText.WriteMethodNamed |
| cmd/mongen/internal/common/builders.go:55-85 | the forwarded call is never spread with `...` | `Sum(xs ...int) int` is forwarded as `m.next.Sum(arg1)` with `arg1` a slice | spread the last argument when the method is variadic, as `commonbuilders` does | not executed | CommonBuilders.PlainInvocationDropsSpread | CommonBuilders.MethodInvocationForwardsVariadic |
| pkg/resolution/resolver.go:78-107 | composite type nodes are rewritten in place; normalisation resolves a grouped field's shared node once per name | `M(a, b *T)` with `T` declared in the interface's own file (location "L"): `b` re-resolves `*alias1.T`, `alias1` is unknown to the source file, and the method is silently dropped | every name of a grouped field gets the same rewritten type | not executed | Generate.SharedExpansionFails | Generate.OnceExpansionSucceeds |
| cmd/logen/main.go:274-279 | at the error level, `writeErrorCall` returns before forwarding when the method has no results | `Close()` in interface `Closer` at level `error` becomes `func (l *errorLoggingCloser) Close(){}`, which never calls `l.next.Close()` | forward the call whatever the results, as the debug level does | not executed | LogenText.ErrorLevelDropsCall | LogenText.LogCallForwarding |

=== FILE: ast.dfy ===
/**
 * The slice of Go's syntax tree that the generators read and rewrite:
 * type expressions, field lists, declarations and files, plus the
 * error kinds the lookup and rewriting engine reports.
 */
module Ast {

  datatype Option<T> = None | Some(value: T)

  /** Error kinds reported by the lookup and rewriting engine. */
  datatype Error =
    | TypeNotFound(name: string)             // no candidate location declares the name
    | LoadFailure(location: string)          // the location could not be found or parsed
    | NotAnInterface(name: string, location: string)
    | UnknownEntry                           // an interface entry of an unexpected kind

  datatype Result<T> = Ok(value: T) | Err(error: Error)

  /** A result together with the state an operation leaves behind. */
  datatype Run<T, S> = Run(result: Result<T>, state: S)

  datatype ChanDir = SendOnly | RecvOnly | SendRecv

  /**
   * Type expressions. `Ident` is a bare name (`T`, `string`), `Selector`
   * a package-qualified one (`pkg.T`); `Other` stands for every node the
   * rewriting engine passes through unchanged (parenthesised types,
   * generic instantiations, ...), identified by its printed text.
   */
  datatype TypeExpr =
    | Ident(name: string)
    | Selector(qual: string, sel: string)
    | ArrayType(len: Option<string>, elt: TypeExpr)   // len None: a slice
    | MapType(key: TypeExpr, value: TypeExpr)
    | ChanType(dir: ChanDir, value: TypeExpr)
    | StarExpr(x: TypeExpr)
    | FuncType(params: FieldList, results: FieldList)
    | StructType(fields: FieldList)
    | InterfaceType(methods: FieldList)
    | Ellipsis(elt: TypeExpr)
    | Other(text: string)

  /** A field, parameter, result or interface entry: zero or more names sharing one type. */
  datatype Field = Field(names: seq<string>, typ: TypeExpr)

  /** Go distinguishes an absent field list (nil) from a present one. */
  datatype FieldList = NilList | List(fields: seq<Field>)

  datatype TypeSpec = TypeSpec(name: string, typ: TypeExpr)

  /** An import's local name: absent, `.`, `_` or an identifier. */
  datatype Spec =
    | TypeDecl(spec: TypeSpec)
    | ImportSpec(name: Option<string>, path: string)   // path as written, quotes included
    | ValueSpec(names: seq<string>)

  datatype Decl = GenDecl(specs: seq<Spec>) | FuncDecl(name: string) | BadDecl

  datatype File = File(decls: seq<Decl>)

  /** Size measures used to justify the mutual recursion over type trees. */
  function TypeSize(t: TypeExpr): nat
  {
    match t
    case Ident(_) => 1
    case Selector(_, _) => 1
    case ArrayType(_, e) => 1 + TypeSize(e)
    case MapType(k, v) => 1 + TypeSize(k) + TypeSize(v)
    case ChanType(_, v) => 1 + TypeSize(v)
    case StarExpr(x) => 1 + TypeSize(x)
    case FuncType(p, r) => 1 + ListSize(p) + ListSize(r)
    case StructType(fs) => 1 + ListSize(fs)
    case InterfaceType(ms) => 1 + ListSize(ms)
    case Ellipsis(e) => 1 + TypeSize(e)
    case Other(_) => 1
  }

  function ListSize(l: FieldList): nat
  {
    match l
    case NilList => 1
    case List(fs) => 1 + FieldsSize(fs)
  }

  function FieldsSize(fs: seq<Field>): nat
  {
    if |fs| == 0 then 0 else 1 + TypeSize(fs[0].typ) + FieldsSize(fs[1..])
  }
}

=== FILE: common_builders.dfy ===
/**
 * The statement builders the monitoring generators share: recording the
 * start time, forwarding the call to the wrapped value, returning its
 * results, and finding the result that reports failure. Two copies exist
 * in the source that differ only in whether a variadic method is
 * forwarded with `...`.
 */
module CommonBuilders {
  import opened Ast
  import opened GoCode
  import opened Generate
  import opened Walk
  import opened Text

  // -------------------------------------------------------------- names

  /** Every field has a name: the builders read each field's first name. */
  predicate Named(fs: seq<Field>)
  {
    forall i :: 0 <= i < |fs| ==> |fs[i].names| > 0
  }

  /** The first name of every field, in order. */
  function FirstNames(fs: seq<Field>): (r: seq<string>)
    requires Named(fs)
    ensures |r| == |fs|
    ensures forall i :: 0 <= i < |fs| ==> r[i] == fs[i].names[0]
  {
    seq(|fs|, i requires 0 <= i < |fs| => fs[i].names[0])
  }

  function NameSet(names: seq<string>): set<string>
  {
    set n | n in names
  }

  /** Normalised entries carry exactly one name each, so the first names are all the names. */
  lemma NumberedNamed(fs: seq<Field>, prefix: string, start: nat)
    requires Numbered(fs, prefix, start)
    ensures Named(fs)
    ensures NameSet(FirstNames(fs)) == FieldNames(fs)
  {
    assert Named(fs);
    var r := FirstNames(fs);
    forall n | n in FieldNames(fs) ensures n in NameSet(r) {
      var i, j :| 0 <= i < |fs| && 0 <= j < |fs[i].names| && fs[i].names[j] == n;
      assert r[i] == n;
    }
    forall n | n in NameSet(r) ensures n in FieldNames(fs) {
      var i :| 0 <= i < |r| && r[i] == n;
      assert fs[i].names[0] == n;
    }
  }

  /** Results with their names dropped declare nothing. */
  lemma AnonymousDeclaresNothing(fs: seq<Field>)
    ensures FieldNames(FieldsAsAnonymous(fs)) == {}
  {
  }

  /**
   * The names a normalised method brings: parameters `arg<k>` and results
   * `result<k>`, one per entry, told apart from each other and from any
   * other name by their first letter.
   */
  lemma NormalisedNames(m: MethodConfig)
    requires Normalised(m)
    ensures Named(m.params) && Named(m.results)
    ensures FieldNames(m.params) == NameSet(FirstNames(m.params))
    ensures forall n :: n in FieldNames(m.params) ==> |n| > 0 && n[0] == 'a'
    ensures forall n :: n in FirstNames(m.results) ==> |n| > 0 && n[0] == 'r' && n != Blank
  {
    NumberedNamed(m.params, "arg", 1);
    NumberedNamed(m.results, "result", 1);
    forall n | n in FieldNames(m.params) ensures |n| > 0 && n[0] == 'a' {
      var i :| 0 <= i < |m.params| && m.params[i].names[0] == n;
      assert n == "arg" + NatStr(1 + i);
    }
    forall n | n in FirstNames(m.results) ensures |n| > 0 && n[0] == 'r' && n != Blank {
      var i :| 0 <= i < |m.results| && FirstNames(m.results)[i] == n;
      assert n == "result" + NatStr(1 + i);
    }
  }

  // ----------------------------------------------------------- receiver

  /** Every generated method's receiver. */
  const Receiver := "m"

  /** `m.<field>`: a field of the generated struct. */
  function Member(field: string): (e: Expr)
    ensures ExprIds(e) == {Receiver}
  {
    Sel(Id(Receiver), field)
  }

  // ---------------------------------------------------------- variadics

  /** Some parameter is variadic (`...T`). */
  predicate AnyEllipsis(fs: seq<Field>)
  {
    exists i :: 0 <= i < |fs| && fs[i].typ.Ellipsis?
  }

  /** The last parameter is variadic. */
  predicate LastEllipsis(fs: seq<Field>)
  {
    |fs| > 0 && fs[|fs| - 1].typ.Ellipsis?
  }

  /** Go's grammar: only the final parameter may be variadic. */
  predicate VariadicLast(fs: seq<Field>)
  {
    forall i :: 0 <= i < |fs| - 1 ==> !fs[i].typ.Ellipsis?
  }

  /**
   * A call forwarding the parameters compiles only if it spreads the last
   * argument with `...` exactly when that parameter is variadic: inside
   * the method a variadic parameter is a slice.
   */
  predicate ForwardsVariadic(call: Expr, params: seq<Field>)
  {
    call.Call? && (call.variadic <==> LastEllipsis(params))
  }

  /** For parameter lists Go accepts, looking for any variadic parameter finds the last one. */
  lemma AnyIsLast(fs: seq<Field>)
    requires VariadicLast(fs)
    ensures AnyEllipsis(fs) <==> LastEllipsis(fs)
  {
    if AnyEllipsis(fs) {
      var i :| 0 <= i < |fs| && fs[i].typ.Ellipsis?;
      assert i == |fs| - 1;
    }
  }

  // --------------------------------------------------------- start time

  /** `StartTimeRecorder`'s variable: the given name, `_start` when none is given. */
  function StartName(given: string): (n: string)
    ensures n != ""
    ensures given == "" ==> n == "_start"
    ensures given != "" ==> n == given
  {
    if given == "" then "_start" else given
  }

  /** `StartTimeRecorder.Build`: `<start> := <time>.Now()`. */
  function StartTimeRecorder(timeAlias: string, given: string): (s: Stmt)
    ensures s.AssignStmt? && s.tok == Define && ListIds(s.rhs) == {timeAlias}
    ensures given != Blank ==> StmtDefs(s) == {StartName(given)}
  {
    var now := Call(Sel(Id(timeAlias), "Now"), [], false);
    OneExpr(now);
    OneExpr(Id(StartName(given)));
    assert ExprIds(Sel(Id(timeAlias), "Now")) == {timeAlias};
    assert ExprIds(now) == {timeAlias} by { assert ListIds([]) == {}; }
    AssignStmt([Id(StartName(given))], Define, [now])
  }

  /** The start recorder is accepted wherever its variable is new and the time package is in scope. */
  lemma StartTimeOk(timeAlias: string, given: string, scope: set<string>)
    requires given != Blank && timeAlias in scope && StartName(given) !in scope
    ensures StmtOk(StartTimeRecorder(timeAlias, given), scope)
  {
  }

  // --------------------------------------------------------- invocation

  /** The forwarded call `<receiver>.<Name>(<param names>)`. */
  function ForwardCall(m: MethodConfig, receiver: Expr, variadic: bool): (c: Expr)
    requires Named(m.params)
    ensures c.Call? && c.variadic == variadic
    ensures ExprIds(c) == ExprIds(receiver) + NameSet(FirstNames(m.params))
  {
    var args := Idents(FirstNames(m.params));
    IdentsIds(FirstNames(m.params));
    assert ExprIds(Sel(receiver, m.name)) == ExprIds(receiver);
    Call(Sel(receiver, m.name), args, variadic)
  }

  /**
   * The invocation: with results, `:=` binds the result names in order to
   * the forwarded call; without, the call is a statement of its own.
   */
  function Invocation(m: MethodConfig, receiver: Expr, variadic: bool): (s: Stmt)
    requires Named(m.params) && Named(m.results)
    ensures m.HasResults() <==> s.AssignStmt?
    ensures m.HasResults() ==>
      s.tok == Define && s.lhs == Idents(FirstNames(m.results))
      && s.rhs == [ForwardCall(m, receiver, variadic)]
    ensures !m.HasResults() ==> s == ExprStmt(ForwardCall(m, receiver, variadic))
  {
    var call := ForwardCall(m, receiver, variadic);
    if m.HasResults() then AssignStmt(Idents(FirstNames(m.results)), Define, [call])
    else ExprStmt(call)
  }

  /** `commonbuilders.MethodInvocation.Build`: spread with `...` when some parameter is variadic. */
  function MethodInvocation(m: MethodConfig, receiver: Expr): (s: Stmt)
    requires Named(m.params) && Named(m.results)
    ensures CallOf(s) == Call(Sel(receiver, m.name), Idents(FirstNames(m.params)), AnyEllipsis(m.params))
    ensures m.HasResults() ==> s.AssignStmt? && s.tok == Define && s.lhs == Idents(FirstNames(m.results))
    ensures StmtDefs(s) == NameSet(FirstNames(m.results)) - {Blank}
  {
    InvocationDeclaresResults(m, receiver, AnyEllipsis(m.params));
    Invocation(m, receiver, AnyEllipsis(m.params))
  }

  /** `common.MethodInvocation.Build` and its copy in the `mongen` command: never spread. */
  function PlainInvocation(m: MethodConfig, receiver: Expr): (s: Stmt)
    requires Named(m.params) && Named(m.results)
    ensures CallOf(s) == Call(Sel(receiver, m.name), Idents(FirstNames(m.params)), false)
    ensures m.HasResults() ==> s.AssignStmt? && s.tok == Define && s.lhs == Idents(FirstNames(m.results))
    ensures StmtDefs(s) == NameSet(FirstNames(m.results)) - {Blank}
  {
    InvocationDeclaresResults(m, receiver, false);
    Invocation(m, receiver, false)
  }

  /** Whatever the spreading, the invocation declares exactly the result names but `_`. */
  lemma InvocationDeclaresResults(m: MethodConfig, receiver: Expr, variadic: bool)
    requires Named(m.params) && Named(m.results)
    ensures StmtDefs(Invocation(m, receiver, variadic)) == NameSet(FirstNames(m.results)) - {Blank}
  {
    var s := Invocation(m, receiver, variadic);
    var names := FirstNames(m.results);
    if m.HasResults() {
      forall n | n in NameSet(names) - {Blank} ensures n in DeclaredBy(s.lhs) {
        var i :| 0 <= i < |names| && names[i] == n;
        assert s.lhs[i] == Id(n);
      }
    } else {
      assert names == [];
    }
  }

  /** The call an invocation statement makes. */
  function CallOf(s: Stmt): Expr
  {
    match s
    case AssignStmt(_, _, rhs) => if |rhs| > 0 then rhs[0] else Lit("")
    case ExprStmt(x) => x
    case _ => Lit("")
  }

  /**
   * The spreading invocation forwards a variadic method correctly for
   * every parameter list Go accepts.
   */
  lemma MethodInvocationForwardsVariadic(m: MethodConfig, receiver: Expr)
    requires Named(m.params) && Named(m.results) && VariadicLast(m.params)
    ensures ForwardsVariadic(CallOf(MethodInvocation(m, receiver)), m.params)
  {
    AnyIsLast(m.params);
  }

  /** The plain invocation is correct exactly for methods that are not variadic. */
  lemma PlainInvocationForwardsVariadic(m: MethodConfig, receiver: Expr)
    requires Named(m.params) && Named(m.results)
    ensures ForwardsVariadic(CallOf(PlainInvocation(m, receiver)), m.params) <==> !LastEllipsis(m.params)
  {
  }

  /** `Sum(xs ...int) int`, forwarded by the plain invocation, loses its `...`. */
  lemma PlainInvocationDropsSpread(m: MethodConfig)
    requires m == MethodConfig("Sum", [Field(["arg1"], Ellipsis(Ident("int")))], [Field(["result1"], Ident("int"))])
    ensures !ForwardsVariadic(CallOf(PlainInvocation(m, Sel(Id("m"), "next"))), m.params)
    ensures ForwardsVariadic(CallOf(MethodInvocation(m, Sel(Id("m"), "next"))), m.params)
  {
    assert m.params[0].typ.Ellipsis?;
  }

  /**
   * The invocation reads the receiver and the parameters, and declares
   * exactly the result names; it is accepted when those names are new.
   */
  lemma InvocationOk(m: MethodConfig, receiver: Expr, variadic: bool, scope: set<string>)
    requires Named(m.params) && Named(m.results)
    requires ExprIds(receiver) <= scope && NameSet(FirstNames(m.params)) <= scope
    requires forall n :: n in FirstNames(m.results) ==> n !in scope && n != Blank
    ensures StmtOk(Invocation(m, receiver, variadic), scope)
    ensures StmtDefs(Invocation(m, receiver, variadic)) == NameSet(FirstNames(m.results))
  {
    var s := Invocation(m, receiver, variadic);
    var names := FirstNames(m.results);
    if m.HasResults() {
      assert ListIds(s.rhs) == ExprIds(s.rhs[0]) by {
        assert s.rhs[1..] == [];
      }
      assert DeclaredBy(s.lhs) == NameSet(names) by {
        forall n | n in NameSet(names) ensures n in DeclaredBy(s.lhs) {
          var i :| 0 <= i < |names| && names[i] == n;
          assert s.lhs[i] == Id(n);
        }
      }
      assert names[0] in DeclaredBy(s.lhs) - scope;
    } else {
      assert names == [];
    }
  }

  // ------------------------------------------------------------- return

  /** `ReturnResults.Build`: return the result names in order; a bare `return` without results. */
  function ReturnResults(m: MethodConfig): (s: Stmt)
    requires Named(m.results)
    ensures s.ReturnStmt? && |s.results| == |m.results|
    ensures ListIds(s.results) == NameSet(FirstNames(m.results))
  {
    IdentsIds(FirstNames(m.results));
    ReturnStmt(Idents(FirstNames(m.results)))
  }
  lemma ReturnResultsOk(m: MethodConfig, scope: set<string>)
    requires Named(m.results) && NameSet(FirstNames(m.results)) <= scope
    ensures StmtOk(ReturnResults(m), scope)
  {
  }


  /** What the invocation declares is exactly what the return statement returns, in the same order. */
  lemma InvocationFeedsReturn(m: MethodConfig, receiver: Expr, variadic: bool)
    requires Named(m.params) && Named(m.results) && m.HasResults()
    ensures Invocation(m, receiver, variadic).lhs == ReturnResults(m).results
  {
  }

  // ------------------------------------------------------- error result

  predicate IsErrorType(t: TypeExpr)
  {
    t == Ident("error")
  }

  /**
   * The loop of `incrementFailedOps` and `IncreaseFailedOps`: the index of
   * the first result whose type is the identifier `error`, if any.
   */
  function FirstErrorIndex(rs: seq<Field>): (r: Option<nat>)
    ensures r.Some? ==>
      r.value < |rs| && IsErrorType(rs[r.value].typ)
      && forall j :: 0 <= j < r.value ==> !IsErrorType(rs[j].typ)
    ensures r.None? <==> forall j :: 0 <= j < |rs| ==> !IsErrorType(rs[j].typ)
    decreases |rs|
  {
    if |rs| == 0 then None
    else if IsErrorType(rs[0].typ) then Some(0)
    else
      match FirstErrorIndex(rs[1..])
      case None => None
      case Some(k) => Some(k + 1)
  }

  /** The name the failure check tests, if any result is an `error`. */
  function ErrorResultName(rs: seq<Field>): (r: Option<string>)
    requires Named(rs)
    ensures r.Some? <==> FirstErrorIndex(rs).Some?
    ensures r.Some? ==> r.value in FirstNames(rs) && r.value == rs[FirstErrorIndex(rs).value].names[0]
  {
    match FirstErrorIndex(rs)
    case None => None
    case Some(k) => assert FirstNames(rs)[k] == rs[k].names[0]; Some(rs[k].names[0])
  }

  /** Results before the first `error` never change which result reports failure. */
  lemma {:induction false} ErrorResultSkipsPrefix(ps: seq<Field>, qs: seq<Field>)
    requires forall j :: 0 <= j < |ps| ==> !IsErrorType(ps[j].typ)
    ensures FirstErrorIndex(ps + qs) == match FirstErrorIndex(qs) { case None => None case Some(k) => Some(|ps| + k) }
    decreases |ps|
  {
    if |ps| > 0 {
      assert (ps + qs)[0] == ps[0] && (ps + qs)[1..] == ps[1..] + qs;
      ErrorResultSkipsPrefix(ps[1..], qs);
    } else {
      assert ps + qs == qs;
    }
  }

  /** Go's convention, a trailing `error` after results of other types: that result reports failure. */
  lemma TrailingErrorResult(ps: seq<Field>, e: Field)
    requires Named(ps) && |e.names| > 0 && IsErrorType(e.typ)
    requires forall j :: 0 <= j < |ps| ==> !IsErrorType(ps[j].typ)
    ensures Named(ps + [e]) && ErrorResultName(ps + [e]) == Some(e.names[0])
  {
    ErrorResultSkipsPrefix(ps, [e]);
    assert (ps + [e])[|ps|] == e;
  }
}

=== FILE: context.dfy ===
/**
 * The locator context: the list of (alias, location) import entries that
 * decides where a possibly-qualified type name may be declared. Alias "."
 * marks a location searched for unqualified names (the file's own package
 * and dot-imports); alias "" marks an import without a local name.
 */
module Context {
  import opened Ast
  import opened Text
  import opened Walk

  datatype ImportEntry = ImportEntry(alias: string, location: string)

  datatype LocatorContext = LocatorContext(imports: seq<ImportEntry>)

  /** A context holding only `location`, searched for unqualified names. */
  function SingleLocationContext(location: string): (c: LocatorContext)
    ensures CandidateLocations(c, ".") == [location]
    ensures forall q :: q != "." ==> CandidateLocations(c, q) == []
  {
    var c := LocatorContext([ImportEntry(".", location)]);
    assert c.imports[1..] == [];
    assert LocalIn(c.imports) == [location];
    assert forall q :: q != "." ==> AliasedLocation(c, q) == None && SuffixIn(c.imports, q) == [];
    c
  }

  /** The entry an import specification contributes: its local name (or "") and its unquoted path. */
  function EntryOf(name: Option<string>, path: string): ImportEntry
  {
    ImportEntry(if name.Some? then name.value else "", TrimQuotes(path))
  }

  /** Import specifications of `specs`, in order, as context entries. */
  function SpecEntries(specs: seq<Spec>): (r: seq<ImportEntry>)
    ensures forall e :: e in r <==>
      exists s :: s in specs && s.ImportSpec? && e == EntryOf(s.name, s.path)
  {
    if |specs| == 0 then []
    else
      var here := if specs[0].ImportSpec? then [EntryOf(specs[0].name, specs[0].path)] else [];
      assert forall s :: s in specs <==> s == specs[0] || s in specs[1..];
      here + SpecEntries(specs[1..])
  }

  /** Import entries of every general declaration of `ds`, in order. */
  function DeclEntries(ds: seq<Decl>): (r: seq<ImportEntry>)
    ensures forall e :: e in r <==>
      exists d :: d in ds && d.GenDecl? && e in SpecEntries(d.specs)
  {
    if |ds| == 0 then []
    else
      var here := if ds[0].GenDecl? then SpecEntries(ds[0].specs) else [];
      assert forall d :: d in ds <==> d == ds[0] || d in ds[1..];
      here + DeclEntries(ds[1..])
  }

  /** Import entries keep specification order: the filter distributes over concatenation. */
  lemma {:induction false} SpecEntriesAppend(a: seq<Spec>, b: seq<Spec>)
    ensures SpecEntries(a + b) == SpecEntries(a) + SpecEntries(b)
  {
    if |a| == 0 {
      assert a + b == b;
    } else {
      assert (a + b)[0] == a[0];
      assert (a + b)[1..] == a[1..] + b;
      SpecEntriesAppend(a[1..], b);
    }
  }

  /** One specification yields one entry when it is an import, and none otherwise. */
  lemma SpecEntriesOfOne(sp: Spec)
    ensures SpecEntries([sp]) == if sp.ImportSpec? then [EntryOf(sp.name, sp.path)] else []
  {
    assert [sp][1..] == [];
  }

  /** Import entries keep declaration order across declarations. */
  lemma {:induction false} DeclEntriesAppend(a: seq<Decl>, b: seq<Decl>)
    ensures DeclEntries(a + b) == DeclEntries(a) + DeclEntries(b)
  {
    if |a| == 0 {
      assert a + b == b;
    } else {
      assert (a + b)[0] == a[0];
      assert (a + b)[1..] == a[1..] + b;
      DeclEntriesAppend(a[1..], b);
    }
  }

  /** One declaration contributes the entries of its specifications when it is a general declaration. */
  lemma DeclEntriesOfOne(d: Decl)
    ensures DeclEntries([d]) == if d.GenDecl? then SpecEntries(d.specs) else []
  {
    assert [d][1..] == [];
  }

  /** Number of import specifications in the general declarations of `ds`. */
  function ImportCount(ds: seq<Decl>): nat
  {
    if |ds| == 0 then 0
    else (if ds[0].GenDecl? then |SpecEntries(ds[0].specs)| else 0) + ImportCount(ds[1..])
  }

  /**
   * The context of a parsed file at `location`: the file's own package
   * first, searched for unqualified names, then one entry per import in
   * declaration order.
   */
  function FileContext(f: File, location: string): (c: LocatorContext)
    ensures |c.imports| == 1 + ImportCount(f.decls)
    ensures c.imports[0] == ImportEntry(".", location)
    ensures c.imports[1..] == DeclEntries(f.decls)
    ensures forall e :: e in c.imports[1..] <==>
      exists d :: d in f.decls && d.GenDecl? && e in SpecEntries(d.specs)
  {
    CountEntries(f.decls);
    LocatorContext([ImportEntry(".", location)] + DeclEntries(f.decls))
  }

  lemma {:induction false} CountEntries(ds: seq<Decl>)
    ensures |DeclEntries(ds)| == ImportCount(ds)
  {
    if |ds| > 0 {
      CountEntries(ds[1..]);
    }
  }

  /** Locations searched for unqualified names, in context order. */
  function LocalLocations(c: LocatorContext): (r: seq<string>)
    ensures forall l :: l in r <==> ImportEntry(".", l) in c.imports
  {
    LocalIn(c.imports)
  }

  function LocalIn(es: seq<ImportEntry>): (r: seq<string>)
    ensures forall l :: l in r <==> ImportEntry(".", l) in es
  {
    if |es| == 0 then []
    else
      assert forall e :: e in es <==> e == es[0] || e in es[1..];
      (if es[0].alias == "." then [es[0].location] else []) + LocalIn(es[1..])
  }

  /** The local filter keeps context order: it distributes over concatenation. */
  lemma {:induction false} LocalInAppend(a: seq<ImportEntry>, b: seq<ImportEntry>)
    ensures LocalIn(a + b) == LocalIn(a) + LocalIn(b)
  {
    if |a| == 0 {
      assert a + b == b;
    } else {
      assert (a + b)[0] == a[0];
      assert (a + b)[1..] == a[1..] + b;
      LocalInAppend(a[1..], b);
    }
  }

  /** Imports without a local name whose path ends in `q`, in context order. */
  function NonLocalNonAliasedLocations(c: LocatorContext, q: string): (r: seq<string>)
    ensures forall l :: l in r <==> ImportEntry("", l) in c.imports && HasSuffix(l, q)
  {
    SuffixIn(c.imports, q)
  }

  function SuffixIn(es: seq<ImportEntry>, q: string): (r: seq<string>)
    ensures forall l :: l in r <==> ImportEntry("", l) in es && HasSuffix(l, q)
  {
    if |es| == 0 then []
    else
      assert forall e :: e in es <==> e == es[0] || e in es[1..];
      (if es[0].alias == "" && HasSuffix(es[0].location, q) then [es[0].location] else [])
      + SuffixIn(es[1..], q)
  }

  /** The suffix filter keeps context order: it distributes over concatenation. */
  lemma {:induction false} SuffixInAppend(a: seq<ImportEntry>, b: seq<ImportEntry>, q: string)
    ensures SuffixIn(a + b, q) == SuffixIn(a, q) + SuffixIn(b, q)
  {
    if |a| == 0 {
      assert a + b == b;
    } else {
      assert (a + b)[0] == a[0];
      assert (a + b)[1..] == a[1..] + b;
      SuffixInAppend(a[1..], b, q);
    }
  }

  /** The location of the first entry whose alias is `alias`. */
  function AliasedLocation(c: LocatorContext, alias: string): (r: Option<string>)
    ensures r.None? <==> forall i :: 0 <= i < |c.imports| ==> c.imports[i].alias != alias
    ensures r.Some? ==> exists i :: 0 <= i < |c.imports| && c.imports[i] == ImportEntry(alias, r.value)
                           && forall j :: 0 <= j < i ==> c.imports[j].alias != alias
  {
    FirstAliased(c.imports, alias)
  }

  function FirstAliased(es: seq<ImportEntry>, alias: string): (r: Option<string>)
    ensures r.None? <==> forall i :: 0 <= i < |es| ==> es[i].alias != alias
    ensures r.Some? ==> exists i :: 0 <= i < |es| && es[i] == ImportEntry(alias, r.value)
                           && forall j :: 0 <= j < i ==> es[j].alias != alias
  {
    if |es| == 0 then None
    else if es[0].alias == alias then
      assert es[0] == ImportEntry(alias, es[0].location);
      Some(es[0].location)
    else
      var r := FirstAliased(es[1..], alias);
      if r.Some? then
        var i :| 0 <= i < |es[1..]| && es[1..][i] == ImportEntry(alias, r.value)
                 && forall j :: 0 <= j < i ==> es[1..][j].alias != alias;
        assert es[i + 1] == ImportEntry(alias, r.value);
        assert forall j :: 0 <= j < i + 1 ==> es[j].alias != alias by {
          forall j | 0 <= j < i + 1 ensures es[j].alias != alias {
            if j > 0 { assert es[j] == es[1..][j - 1]; }
          }
        }
        r
      else
        assert forall i :: 1 <= i < |es| ==> es[i] == es[1..][i - 1];
        r
  }

  /**
   * Where a name qualified by `q` may be declared: for "." every location
   * searched for unqualified names; otherwise the location of the first
   * import named `q`, if any; otherwise every unnamed import whose path
   * ends in `q` (a plain suffix test, not a path-segment match).
   */
  function CandidateLocations(c: LocatorContext, q: string): (r: seq<string>)
    ensures q == "." ==> forall l :: l in r <==> ImportEntry(".", l) in c.imports
    ensures q != "." && (exists i :: 0 <= i < |c.imports| && c.imports[i].alias == q) ==>
      |r| == 1 && exists i :: 0 <= i < |c.imports| && c.imports[i] == ImportEntry(q, r[0])
                   && forall j :: 0 <= j < i ==> c.imports[j].alias != q
    ensures q != "." && (forall i :: 0 <= i < |c.imports| ==> c.imports[i].alias != q) ==>
      forall l :: l in r <==> ImportEntry("", l) in c.imports && HasSuffix(l, q)
  {
    if q == "." then LocalLocations(c)
    else
      match AliasedLocation(c, q)
      case Some(l) => [l]
      case None => NonLocalNonAliasedLocations(c, q)
  }

  /** In a file's context, unqualified names are looked up in the file's own package first. */
  lemma FileContextLocalFirst(f: File, location: string)
    ensures |CandidateLocations(FileContext(f, location), ".")| >= 1
    ensures CandidateLocations(FileContext(f, location), ".")[0] == location
  {
    var c := FileContext(f, location);
    assert c.imports == [c.imports[0]] + c.imports[1..];
    assert LocalIn(c.imports) == [location] + LocalIn(c.imports[1..]);
  }

  /** A dot-import makes its package a place to look for unqualified names. */
  lemma {:induction false} DotImportIsLocal(f: File, location: string, d: Decl, path: string)
    requires d in f.decls && d.GenDecl? && ImportSpec(Some("."), path) in d.specs
    ensures TrimQuotes(path) in CandidateLocations(FileContext(f, location), ".")
  {
    var c := FileContext(f, location);
    var e := EntryOf(Some("."), path);
    assert e in SpecEntries(d.specs);
    assert e in c.imports[1..];
    assert e in c.imports;
  }

  /** Qualifier matching by plain suffix: `io` also selects an unnamed import of `example.com/radio`. */
  lemma SuffixMatchIsNotSegmentMatch()
    ensures CandidateLocations(
              LocatorContext([ImportEntry(".", "here"), ImportEntry("", "example.com/radio"), ImportEntry("", "io")]),
              "io")
            == ["example.com/radio", "io"]
  {
    var c := LocatorContext([ImportEntry(".", "here"), ImportEntry("", "example.com/radio"), ImportEntry("", "io")]);
    assert AliasedLocation(c, "io") == None;
    assert HasSuffix("example.com/radio", "io");
    assert HasSuffix("io", "io");
    assert c.imports[1..][1..] == [ImportEntry("", "io")];
  }
}

=== FILE: gen_strings.dfy ===
/**
 * The text printers of `pkg/gen`: the parameter list of a method
 * signature, the argument list of a call forwarding those parameters,
 * and the two forms of a result list. The text-template generators
 * splice these strings into the Go source they emit.
 */
module GenStrings {
  import opened Text

  /** A named, typed parameter; the type is already rendered as text. */
  datatype Arg = Arg(name: string, typ: string)

  /** A named, typed result. */
  datatype Result = Result(name: string, typ: string)

  /** A method of the interface being wrapped. */
  datatype Method = Method(name: string, args: seq<Arg>, results: seq<Result>)

  /** The list shape all four printers write: `(`, items separated by `, `, `)`. */
  function Bracketed(items: seq<string>): string
  {
    "(" + Join(items, ", ") + ")"
  }

  function ArgDecls(args: seq<Arg>): seq<string>
  {
    seq(|args|, i requires 0 <= i < |args| => args[i].name + " " + args[i].typ)
  }

  function ArgNames(args: seq<Arg>): seq<string>
  {
    seq(|args|, i requires 0 <= i < |args| => args[i].name)
  }

  function ResultNames(rs: seq<Result>): seq<string>
  {
    seq(|rs|, i requires 0 <= i < |rs| => rs[i].name)
  }

  function ResultTypes(rs: seq<Result>): seq<string>
  {
    seq(|rs|, i requires 0 <= i < |rs| => rs[i].typ)
  }

  /** The results read as parameters: same names, same types. */
  function AsArgs(rs: seq<Result>): seq<Arg>
  {
    seq(|rs|, i requires 0 <= i < |rs| => Arg(rs[i].name, rs[i].typ))
  }

  /**
   * The buffer loop every printer runs: an opening bracket, then each
   * item with `, ` before all but the first, then the closing bracket.
   */
  method WriteBracketed(items: seq<string>) returns (w: string)
    ensures w == Bracketed(items)
  {
    w := "(";
    for i := 0 to |items|
      invariant w == "(" + Join(items[..i], ", ")
    {
      if i > 0 {
        w := w + ", ";
      }
      w := w + items[i];
      if i > 0 {
        assert items[..i + 1] == items[..i] + [items[i]];
        JoinSnoc(items[..i], items[i], ", ");
      } else {
        assert items[..1] == [items[0]];
      }
    }
    assert items[..|items|] == items;
    w := w + ")";
  }

  /** `Args.String`: each argument as `name type`; `()` exactly when there are none. */
  function ArgsString(args: seq<Arg>): (s: string)
    ensures |s| >= 2 && s[0] == '(' && s[|s| - 1] == ')'
    ensures s == "()" <==> |args| == 0
  {
    var decls := ArgDecls(args);
    assert |args| > 0 ==> |Join(decls, ", ")| >= |decls[0]| by {
      if |args| > 0 { JoinEnds(decls, ", "); }
    }
    Bracketed(ArgDecls(args))
  }

  /** `Args.InvocationString`: the argument names only, as a call forwards them. */
  function InvocationString(args: seq<Arg>): (s: string)
    ensures |s| >= 2 && s[0] == '(' && s[|s| - 1] == ')'
    ensures |args| == 0 ==> s == "()"
  {
    Bracketed(ArgNames(args))
  }

  /**
   * `Results.NamedString`: empty for no results, otherwise printed exactly
   * as `Args.String` prints parameters with the same names and types.
   */
  function NamedString(rs: seq<Result>): (s: string)
    ensures s == "" <==> |rs| == 0
    ensures |rs| > 0 ==> s == ArgsString(AsArgs(rs))
  {
    assert ArgDecls(AsArgs(rs)) == seq(|rs|, i requires 0 <= i < |rs| => rs[i].name + " " + rs[i].typ);
    if |rs| == 0 then ""
    else Bracketed(seq(|rs|, i requires 0 <= i < |rs| => rs[i].name + " " + rs[i].typ))
  }

  /** `Results.String`: empty for no results, otherwise the types only. */
  function ResultsString(rs: seq<Result>): (s: string)
    ensures s == "" <==> |rs| == 0
    ensures |rs| > 0 ==> s[0] == '(' && s[|s| - 1] == ')'
  {
    if |rs| == 0 then "" else Bracketed(ResultTypes(rs))
  }

  /** A two-item list: the first item, the separator, the second item. */
  lemma JoinTwo(xs: seq<string>, sep: string)
    requires |xs| == 2
    ensures Join(xs, sep) == xs[0] + sep + xs[1]
  {
    assert xs[1..] == [xs[1]];
  }

  /** The examples of the package's own tests. */
  lemma ArgsExample(args: seq<Arg>)
    requires args == [Arg("ctx", "context.Context"), Arg("n", "int")]
    ensures ArgsString(args) == "(ctx context.Context, n int)"
  {
    var d := ArgDecls(args);
    assert d[0] == "ctx context.Context" && d[1] == "n int";
    JoinTwo(d, ", ");
    ArgsLiteral();
  }

  lemma ArgsLiteral()
    ensures "ctx context.Context" + ", " + "n int" == "ctx context.Context, n int"
    ensures "(" + "ctx context.Context, n int" + ")" == "(ctx context.Context, n int)"
  {
  }

  lemma InvocationExample(args: seq<Arg>)
    requires args == [Arg("ctx", "context.Context"), Arg("n", "int")]
    ensures InvocationString(args) == "(ctx, n)"
  {
    var n := ArgNames(args);
    assert n[0] == "ctx" && n[1] == "n";
    assert Join(n, ", ") == "ctx, n" by { JoinTwo(n, ", "); }
  }

  lemma ResultsExample(rs: seq<Result>)
    requires rs == [Result("n", "int"), Result("err", "error")]
    ensures NamedString(rs) == "(n int, err error)"
    ensures ResultsString(rs) == "(int, error)"
  {
    var d := ArgDecls(AsArgs(rs));
    assert d[0] == "n int" && d[1] == "err error";
    JoinTwo(d, ", ");
    var t := ResultTypes(rs);
    assert t[0] == "int" && t[1] == "error";
    JoinTwo(t, ", ");
  }

  // ----------------------------------------------------------- read-back

  predicate NoComma(s: string) { forall i :: 0 <= i < |s| ==> s[i] != ',' }

  /** Items that can be told apart after joining: non-empty and comma-free. */
  predicate Separable(xs: seq<string>)
  {
    forall i :: 0 <= i < |xs| ==> |xs[i]| > 0 && NoComma(xs[i])
  }

  lemma {:induction false} JoinNoComma(xs: seq<string>)
    requires |xs| == 1 && NoComma(xs[0])
    ensures NoComma(Join(xs, ", "))
  {
  }

  /** With two or more items, the first comma of the joined text ends the first item. */
  lemma JoinSplitsAtFirst(xs: seq<string>)
    requires |xs| >= 2
    ensures var j := Join(xs, ", ");
      |j| > |xs[0]| + 1 && j[..|xs[0]|] == xs[0] && j[|xs[0]|] == ','
      && j[|xs[0]| + 2..] == Join(xs[1..], ", ")
  {
    var j := Join(xs, ", ");
    assert j == xs[0] + ", " + Join(xs[1..], ", ");
    assert j[|xs[0]| + 2..] == Join(xs[1..], ", ");
  }

  lemma {:induction false} JoinInjective(xs: seq<string>, ys: seq<string>)
    requires Separable(xs) && Separable(ys)
    requires Join(xs, ", ") == Join(ys, ", ")
    ensures xs == ys
    decreases |xs|
  {
    var j := Join(xs, ", ");
    if |xs| == 0 || |ys| == 0 {
      if |xs| > 0 { JoinEnds(xs, ", "); }
      if |ys| > 0 { JoinEnds(ys, ", "); }
    } else if |xs| == 1 && |ys| == 1 {
    } else if |xs| == 1 {
      JoinNoComma(xs);
      JoinSplitsAtFirst(ys);
      assert false;
    } else if |ys| == 1 {
      JoinNoComma(ys);
      JoinSplitsAtFirst(xs);
      assert false;
    } else {
      JoinSplitsAtFirst(xs);
      JoinSplitsAtFirst(ys);
      if |xs[0]| < |ys[0]| {
        assert false;
      } else if |ys[0]| < |xs[0]| {
        assert false;
      }
      assert xs[0] == ys[0];
      JoinInjective(xs[1..], ys[1..]);
      assert xs == [xs[0]] + xs[1..];
      assert ys == [ys[0]] + ys[1..];
    }
  }

  /**
   * A call site names its arguments unambiguously: for non-empty,
   * comma-free argument names (every Go identifier is), equal invocation
   * strings mean equal name lists.
   */
  lemma InvocationDeterminesNames(a: seq<Arg>, b: seq<Arg>)
    requires Separable(ArgNames(a)) && Separable(ArgNames(b))
    requires InvocationString(a) == InvocationString(b)
    ensures ArgNames(a) == ArgNames(b)
  {
    var ja, jb := Join(ArgNames(a), ", "), Join(ArgNames(b), ", ");
    assert ja == InvocationString(a)[1..|InvocationString(a)| - 1];
    assert jb == InvocationString(b)[1..|InvocationString(b)| - 1];
    JoinInjective(ArgNames(a), ArgNames(b));
  }
}

=== FILE: generator.dfy ===
/**
 * The interface walker: turns an interface declaration into the list of
 * method configurations handed to the emission model. Each method's
 * parameters and results are normalised (one name per field, `argN` /
 * `resultN` numbered from 1) and their types rewritten by the resolver;
 * embedded interfaces are looked up and walked in turn.
 */
module Generate {
  import opened Ast
  import opened Text
  import opened Walk
  import opened Context
  import Locate
  import Imports
  import opened Resolve

  /** A method as handed to the emission model. */
  datatype MethodConfig = MethodConfig(name: string, params: seq<Field>, results: seq<Field>)
  {
    predicate HasParams() { |params| > 0 }
    predicate HasResults() { |results| > 0 }
  }

  /** The walker's state: the resolver's state and the methods added so far. */
  datatype GState = GState(rs: RState, methods: seq<MethodConfig>)

  // ------------------------------------------------------- normalisation

  /**
   * How a field with several names gets its entries. The source resolves
   * the field's one type node once per name, and the resolver rewrites
   * composite nodes in place, so from the second name on it resolves the
   * already rewritten node (`SharedNode`). `ResolveOnce` rewrites the
   * field's type once and gives every name the rewritten type.
   */
  datatype Sharing = SharedNode | ResolveOnce

  /**
   * The node a shared type expression holds after a successful rewrite.
   * Bare and qualified names are replaced by new nodes, so the original
   * node is unchanged; every composite node has its components assigned
   * in place, so it now reads as the rewritten type.
   */
  function NodeAfter(t: TypeExpr, rewritten: TypeExpr): TypeExpr
  {
    if t.Ident? || t.Selector? || t.Other? then t else rewritten
  }

  /** The field's type repeated once per normalised entry, as the source text reads it. */
  function ExpandedTypes(fs: seq<Field>): (r: seq<TypeExpr>)
    ensures |r| == TotalReuse(fs)
  {
    if |fs| == 0 then [] else seq(ReuseCount(fs[0]), _ => fs[0].typ) + ExpandedTypes(fs[1..])
  }

  /** Entry names `prefix<start>`, `prefix<start+1>`, ... */
  predicate Numbered(out: seq<Field>, prefix: string, start: nat)
  {
    forall j :: 0 <= j < |out| ==> out[j].names == [prefix + NatStr(start + j)]
  }

  lemma NumberedAppend(o1: seq<Field>, o2: seq<Field>, prefix: string, start: nat)
    requires Numbered(o1, prefix, start) && Numbered(o2, prefix, start + |o1|)
    ensures Numbered(o1 + o2, prefix, start)
  {
    var o := o1 + o2;
    forall j | |o1| <= j < |o| ensures o[j].names == [prefix + NatStr(start + j)] {
      assert o[j] == o2[j - |o1|];
    }
  }

  /**
   * Entry `j` of `out` is a rewrite of `types[j]`: resolved against
   * `aliases` and equal to it once qualifiers are dropped.
   */
  predicate RewritesOf(out: seq<Field>, types: seq<TypeExpr>, aliases: set<string>)
  {
    |out| == |types|
    && forall j :: 0 <= j < |out| ==> Resolved(out[j].typ, aliases) && Erase(out[j].typ) == Erase(types[j])
  }

  lemma RewritesOfMonotone(out: seq<Field>, types: seq<TypeExpr>, a: set<string>, b: set<string>)
    requires RewritesOf(out, types, a) && a <= b
    ensures RewritesOf(out, types, b)
  {
    forall j | 0 <= j < |out| ensures Resolved(out[j].typ, b) {
      ResolvedMonotone(out[j].typ, a, b);
    }
  }

  lemma RewritesOfAppend(o1: seq<Field>, t1: seq<TypeExpr>, o2: seq<Field>, t2: seq<TypeExpr>, a: set<string>)
    requires RewritesOf(o1, t1, a) && RewritesOf(o2, t2, a)
    ensures RewritesOf(o1 + o2, t1 + t2, a)
  {
    var o, t := o1 + o2, t1 + t2;
    forall j | |o1| <= j < |o| ensures o[j] == o2[j - |o1|] && t[j] == t2[j - |o1|] { }
  }

  /** `count` entries of type `t`, named `prefix<index>`, `prefix<index+1>`, ... */
  function Copies(t: TypeExpr, prefix: string, index: nat, count: nat): (out: seq<Field>)
    ensures |out| == count && Numbered(out, prefix, index)
    ensures forall j :: 0 <= j < count ==> out[j].typ == t
    decreases count
  {
    if count == 0 then []
    else
      var rest := Copies(t, prefix, index + 1, count - 1);
      var out := [CreateField(prefix + NatStr(index), t)] + rest;
      NumberedAppend([CreateField(prefix + NatStr(index), t)], rest, prefix, index);
      assert forall j :: 1 <= j < |out| ==> out[j] == rest[j - 1];
      out
  }

  // ------------------------------------------- expansion for any resolver

  /** A resolver: from a type and a state, the rewritten type and the next state. */
  type Resolver = (TypeExpr, RState) -> Run<TypeExpr, RState>

  /** The source's resolver as a function value. */
  function TypeResolver(c: LocatorContext): Resolver
  {
    (t: TypeExpr, s: RState) => ResolveType(c, t, s)
  }

  /*
   * The facts the expansions need about states are stated for any state
   * invariant `ok` and any order `le` between states: a proof about an
   * expansion then never unfolds `Good` and `Grows`, the pair they are
   * used with.
   */

  /** `le` is reflexive and transitive. */
  ghost predicate Preorder(le: (RState, RState) -> bool)
  {
    (forall a :: le(a, a))
    && (forall a, b, c {:trigger le(a, b), le(b, c)} :: le(a, b) && le(b, c) ==> le(a, c))
  }

  lemma GrowsIsPreorder()
    ensures Preorder(Grows)
  {
    forall a ensures Grows(a, a) {
      GrowsReflexive(a);
    }
    forall a, b, c | Grows(a, b) && Grows(b, c) ensures Grows(a, c) {
      GrowsTransitive(a, b, c);
    }
  }

  /** `res` keeps an `ok` state `ok` and only moves it forward in `le`. */
  ghost predicate ResolverKeeps(res: Resolver, ok: RState -> bool, le: (RState, RState) -> bool)
  {
    forall t, s :: ok(s) ==> ok(res(t, s).state) && le(s, res(t, s).state)
  }

  /** `res`, applied again on an `ok` state at or after its first result, gives the same answer and changes nothing. */
  ghost predicate ResolverReplays(res: Resolver, ok: RState -> bool, le: (RState, RState) -> bool)
  {
    forall t, s, s2 :: ok(s) && ok(s2) && le(res(t, s).state, s2) ==> res(t, s2) == Run(res(t, s).result, s2)
  }

  /** The source's resolver keeps a good state good and only lets it grow. */
  lemma TypeResolverKeeps(c: LocatorContext)
    ensures ResolverKeeps(TypeResolver(c), Good, Grows)
  {
    forall t, s | Good(s) ensures Good(TypeResolver(c)(t, s).state) && Grows(s, TypeResolver(c)(t, s).state) {
      assert TypeResolver(c)(t, s) == ResolveType(c, t, s);
    }
  }

  /** The source's resolver replays, by `ResolveTypeReplay`. */
  lemma TypeResolverReplays(c: LocatorContext)
    ensures ResolverReplays(TypeResolver(c), Good, Grows)
  {
    forall t, s, s2 | Good(s) && Good(s2) && Grows(TypeResolver(c)(t, s).state, s2)
      ensures TypeResolver(c)(t, s2) == Run(TypeResolver(c)(t, s).result, s2)
    {
      ResolveTypeReplay(c, t, s, s2);
    }
  }

  /**
   * The expansion with the resolver as a parameter: the first name gets
   * the type `res` resolves, and each later name is resolved from the node
   * that resolution left behind.
   */
  function ExpandWith(res: Resolver, t: TypeExpr, prefix: string, index: nat, count: nat, s: RState)
    : (r: Run<seq<Field>, RState>)
    decreases count
    ensures r.result.Ok? ==> |r.result.value| == count && Numbered(r.result.value, prefix, index)
  {
    if count == 0 then Run(Ok([]), s)
    else
      var rt := res(t, s);
      if rt.result.Err? then Run(Err(rt.result.error), rt.state)
      else
        var rest := ExpandWith(res, NodeAfter(t, rt.result.value), prefix, index + 1, count - 1, rt.state);
        if rest.result.Err? then Run(Err(rest.result.error), rest.state)
        else
          var first := [CreateField(prefix + NatStr(index), rt.result.value)];
          NumberedAppend(first, rest.result.value, prefix, index);
          Run(Ok(first + rest.result.value), rest.state)
  }

  /** One entry named `prefix<index>` with type `head`, in front of the rest of an expansion. */
  function ExpandCons(prefix: string, index: nat, head: TypeExpr, rest: Run<seq<Field>, RState>): Run<seq<Field>, RState>
  {
    if rest.result.Err? then Run(Err(rest.result.error), rest.state)
    else Run(Ok([CreateField(prefix + NatStr(index), head)] + rest.result.value), rest.state)
  }

  lemma ExpandWithUnfold(res: Resolver, t: TypeExpr, prefix: string, index: nat, count: nat, s: RState, rt: Run<TypeExpr, RState>, rest: Run<seq<Field>, RState>)
    requires count > 0 && rt == res(t, s) && rt.result.Ok?
    requires rest == ExpandWith(res, NodeAfter(t, rt.result.value), prefix, index + 1, count - 1, rt.state)
    ensures ExpandWith(res, t, prefix, index, count, s) == ExpandCons(prefix, index, rt.result.value, rest)
  {
  }

  lemma {:induction false} ExpandWithGrows(res: Resolver, ok: RState -> bool, le: (RState, RState) -> bool,
                                           t: TypeExpr, prefix: string, index: nat, count: nat, s: RState)
    requires ResolverKeeps(res, ok, le) && Preorder(le) && ok(s)
    ensures ok(ExpandWith(res, t, prefix, index, count, s).state)
    ensures le(s, ExpandWith(res, t, prefix, index, count, s).state)
    decreases count
  {
    if count > 0 {
      var rt := res(t, s);
      if rt.result.Ok? {
        ExpandWithGrows(res, ok, le, NodeAfter(t, rt.result.value), prefix, index + 1, count - 1, rt.state);
      }
    }
  }

  /**
   * The source's expansion: the field's type node is resolved once per
   * name, and each resolution after a composite rewrite sees the rewritten
   * node.
   */
  function ExpandShared(c: LocatorContext, t: TypeExpr, prefix: string, index: nat, count: nat,
                        s: RState): (r: Run<seq<Field>, RState>)
    ensures Good(s) ==> Good(r.state) && Grows(s, r.state)
    ensures r.result.Ok? ==> |r.result.value| == count && Numbered(r.result.value, prefix, index)
  {
    var r := ExpandWith(TypeResolver(c), t, prefix, index, count, s);
    assert Good(s) ==> Good(r.state) && Grows(s, r.state) by {
      if Good(s) {
        TypeResolverKeeps(c);
        GrowsIsPreorder();
        ExpandWithGrows(TypeResolver(c), Good, Grows, t, prefix, index, count, s);
      }
    }
    r
  }

  /** Every entry of `out` is resolved against `aliases` and reads as `t` once qualifiers are dropped. */
  predicate AllRewrite(out: seq<Field>, t: TypeExpr, aliases: set<string>)
  {
    forall j :: 0 <= j < |out| ==> RewriteAt(out, j, t, aliases)
  }

  predicate RewriteAt(out: seq<Field>, j: nat, t: TypeExpr, aliases: set<string>)
    requires j < |out|
  {
    Resolved(out[j].typ, aliases) && Erase(out[j].typ) == Erase(t)
  }

  lemma AllRewriteIsRewritesOf(out: seq<Field>, t: TypeExpr, count: nat, aliases: set<string>)
    requires |out| == count && AllRewrite(out, t, aliases)
    ensures RewritesOf(out, seq(count, _ => t), aliases)
  {
    forall j | 0 <= j < |out| ensures Resolved(out[j].typ, aliases) && Erase(out[j].typ) == Erase(t) {
      assert RewriteAt(out, j, t, aliases);
    }
  }

  /**
   * A node rewritten in place still reads as the declared type once
   * qualifiers are dropped, so a rewrite of it is a rewrite of the
   * declared type.
   */
  lemma RewriteCons(x: Field, rest: seq<Field>, t: TypeExpr, node: TypeExpr, a: set<string>)
    requires Resolved(x.typ, a) && Erase(x.typ) == Erase(t)
    requires node == NodeAfter(t, x.typ)
    requires AllRewrite(rest, node, a)
    ensures AllRewrite([x] + rest, t, a)
  {
    assert Erase(node) == Erase(t);
    var out := [x] + rest;
    forall j | 0 <= j < |out| ensures RewriteAt(out, j, t, a) {
      if j > 0 { assert out[j] == rest[j - 1] && RewriteAt(rest, j - 1, node, a); }
    }
  }

  /** A successful shared expansion of `t` from `s` yields only rewrites of `t`. */
  predicate ExpansionRewrites(c: LocatorContext, t: TypeExpr, prefix: string, index: nat, count: nat, s: RState)
  {
    ExpandShared(c, t, prefix, index, count, s).result.Ok? ==>
      AllRewrite(ExpandShared(c, t, prefix, index, count, s).result.value, t,
                 Aliases(ExpandShared(c, t, prefix, index, count, s).state))
  }

  /**
   * `res` keeps states that satisfy `ok` in `ok`, and only adds aliases.
   * The rewriting argument is stated with the state invariant as a
   * parameter; `Good` is the one it is used with.
   */
  ghost predicate KeepsAliases(res: Resolver, ok: RState -> bool)
  {
    forall t, s :: ok(s) ==> ok(res(t, s).state) && Aliases(s) <= Aliases(res(t, s).state)
  }

  /** `res` yields, from an `ok` state, a resolved type that reads as its input once qualifiers are dropped. */
  ghost predicate RewritesUnder(res: Resolver, ok: RState -> bool)
  {
    forall t, s :: ok(s) && res(t, s).result.Ok? ==>
      Resolved(res(t, s).result.value, Aliases(res(t, s).state)) && Erase(res(t, s).result.value) == Erase(t)
  }

  lemma TypeResolverRewrites(c: LocatorContext)
    ensures KeepsAliases(TypeResolver(c), Good) && RewritesUnder(TypeResolver(c), Good)
  {
    forall t, s | Good(s)
      ensures Good(TypeResolver(c)(t, s).state) && Aliases(s) <= Aliases(TypeResolver(c)(t, s).state)
    {
      assert TypeResolver(c)(t, s) == ResolveType(c, t, s);
      GrowsAliases(s, ResolveType(c, t, s).state);
    }
    forall t, s | Good(s) && TypeResolver(c)(t, s).result.Ok?
      ensures Resolved(TypeResolver(c)(t, s).result.value, Aliases(TypeResolver(c)(t, s).state))
           && Erase(TypeResolver(c)(t, s).result.value) == Erase(t)
    {
      assert TypeResolver(c)(t, s) == ResolveType(c, t, s);
    }
  }

  lemma {:induction false} ExpandWithAliases(res: Resolver, ok: RState -> bool,
                                             t: TypeExpr, prefix: string, index: nat, count: nat, s: RState)
    requires KeepsAliases(res, ok) && ok(s)
    ensures ok(ExpandWith(res, t, prefix, index, count, s).state)
    ensures Aliases(s) <= Aliases(ExpandWith(res, t, prefix, index, count, s).state)
    decreases count
  {
    if count > 0 {
      var rt := res(t, s);
      if rt.result.Ok? {
        ExpandWithAliases(res, ok, NodeAfter(t, rt.result.value), prefix, index + 1, count - 1, rt.state);
      }
    }
  }

  /** The first entry is a rewrite of `t`, and so is every later one, being a rewrite of the node the first left. */
  lemma {:induction false} ExpandWithRewrites(res: Resolver, ok: RState -> bool,
                                              t: TypeExpr, prefix: string, index: nat, count: nat, s: RState)
    requires KeepsAliases(res, ok) && RewritesUnder(res, ok) && ok(s)
    ensures ExpandWith(res, t, prefix, index, count, s).result.Ok? ==>
      AllRewrite(ExpandWith(res, t, prefix, index, count, s).result.value, t,
                 Aliases(ExpandWith(res, t, prefix, index, count, s).state))
    decreases count
  {
    if count > 0 {
      var rt := res(t, s);
      if rt.result.Ok? {
        var node := NodeAfter(t, rt.result.value);
        var rest := ExpandWith(res, node, prefix, index + 1, count - 1, rt.state);
        ExpandWithRewrites(res, ok, node, prefix, index + 1, count - 1, rt.state);
        ExpandWithAliases(res, ok, node, prefix, index + 1, count - 1, rt.state);
        ExpandWithUnfold(res, t, prefix, index, count, s, rt, rest);
        RewriteStep(t, rt, rest, prefix, index);
      }
    }
  }

  /**
   * Every entry of a successful shared expansion is a rewrite of the
   * declared type, although later names resolve the node as the earlier
   * rewrites left it.
   */
  lemma ExpandSharedRewrites(c: LocatorContext, t: TypeExpr, prefix: string, index: nat, count: nat, s: RState)
    requires Good(s)
    ensures ExpansionRewrites(c, t, prefix, index, count, s)
  {
    TypeResolverRewrites(c);
    ExpandWithRewrites(TypeResolver(c), Good, t, prefix, index, count, s);
  }

  lemma RewriteStep(t: TypeExpr, rt: Run<TypeExpr, RState>, rest: Run<seq<Field>, RState>, prefix: string, index: nat)
    requires rt.result.Ok? && Resolved(rt.result.value, Aliases(rt.state)) && Erase(rt.result.value) == Erase(t)
    requires Aliases(rt.state) <= Aliases(rest.state)
    requires rest.result.Ok? ==> AllRewrite(rest.result.value, NodeAfter(t, rt.result.value), Aliases(rest.state))
    ensures ExpandCons(prefix, index, rt.result.value, rest).result.Ok? ==>
      AllRewrite(ExpandCons(prefix, index, rt.result.value, rest).result.value, t, Aliases(rest.state))
  {
    if rest.result.Ok? {
      ResolvedMonotone(rt.result.value, Aliases(rt.state), Aliases(rest.state));
      RewriteCons(CreateField(prefix + NatStr(index), rt.result.value), rest.result.value, t,
                  NodeAfter(t, rt.result.value), Aliases(rest.state));
    }
  }

  /** The corrected expansion: one rewrite, shared by every name. */
  function ExpandOnce(c: LocatorContext, t: TypeExpr, prefix: string, index: nat, count: nat,
                      s: RState): (r: Run<seq<Field>, RState>)
    ensures Good(s) ==> Good(r.state) && Grows(s, r.state)
    ensures r.result.Ok? ==> |r.result.value| == count && Numbered(r.result.value, prefix, index)
    ensures Good(s) && r.result.Ok? ==>
      RewritesOf(r.result.value, seq(count, _ => t), r.state.imports.aliasToImport.Keys)
  {
    if count == 0 then Run(Ok([]), s)
    else
      var rt := ResolveType(c, t, s);
      if rt.result.Err? then Run(Err(rt.result.error), rt.state)
      else
        var out := Copies(rt.result.value, prefix, index, count);
        assert Good(s) ==> RewritesOf(out, seq(count, _ => t), rt.state.imports.aliasToImport.Keys) by {
          if Good(s) { CopiesRewrite(rt.result.value, t, prefix, index, count, rt.state.imports.aliasToImport.Keys); }
        }
        Run(Ok(out), rt.state)
  }

  /** Copies of one rewrite of `t` are rewrites of as many copies of `t`. */
  lemma {:induction false} CopiesRewrite(u: TypeExpr, t: TypeExpr, prefix: string, index: nat, count: nat, aliases: set<string>)
    requires Resolved(u, aliases) && Erase(u) == Erase(t)
    ensures RewritesOf(Copies(u, prefix, index, count), seq(count, _ => t), aliases)
  {
    var out := Copies(u, prefix, index, count);
    forall j | 0 <= j < |out| ensures Resolved(out[j].typ, aliases) && Erase(out[j].typ) == Erase(seq(count, _ => t)[j]) {
      assert out[j].typ == u;
    }
  }

  /** `count` entries for one field, numbered from `index`. */
  function ExpandField(c: LocatorContext, t: TypeExpr, prefix: string, index: nat, count: nat,
                       sharing: Sharing, s: RState): (r: Run<seq<Field>, RState>)
    ensures Good(s) ==> Good(r.state) && Grows(s, r.state)
    ensures r.result.Ok? ==> |r.result.value| == count && Numbered(r.result.value, prefix, index)
    ensures Good(s) && r.result.Ok? ==>
      RewritesOf(r.result.value, seq(count, _ => t), r.state.imports.aliasToImport.Keys)
  {
    match sharing
    case SharedNode =>
      var r := ExpandShared(c, t, prefix, index, count, s);
      assert Good(s) && r.result.Ok? ==> RewritesOf(r.result.value, seq(count, _ => t), Aliases(r.state)) by {
        if Good(s) && r.result.Ok? {
          ExpandSharedRewrites(c, t, prefix, index, count, s);
          AllRewriteIsRewritesOf(r.result.value, t, count, Aliases(r.state));
        }
      }
      r
    case ResolveOnce => ExpandOnce(c, t, prefix, index, count, s)
  }

  // ------------------------------------------ normalisation for any expander

  /** An expander: from a type, an entry prefix, a first index, a count and a state, the entries and the next state. */
  type Expander = (TypeExpr, string, nat, nat, RState) -> Run<seq<Field>, RState>

  /** The source's field expansion as a function value. */
  function FieldExpander(c: LocatorContext, sharing: Sharing): Expander
  {
    (t: TypeExpr, prefix: string, index: nat, count: nat, s: RState) => ExpandField(c, t, prefix, index, count, sharing, s)
  }

  /** `exp` keeps an `ok` state `ok` and only moves it forward in `le`. */
  ghost predicate ExpanderKeeps(exp: Expander, ok: RState -> bool, le: (RState, RState) -> bool)
  {
    forall t: TypeExpr, prefix: string, index: nat, count: nat, s: RState ::
      ok(s) ==> ok(exp(t, prefix, index, count, s).state) && le(s, exp(t, prefix, index, count, s).state)
  }

  /** `exp`, applied again on an `ok` state at or after its first result, gives the same answer and changes nothing. */
  ghost predicate ExpanderReplays(exp: Expander, ok: RState -> bool, le: (RState, RState) -> bool)
  {
    forall t: TypeExpr, prefix: string, index: nat, count: nat, s: RState, s2: RState ::
      ok(s) && ok(s2) && le(exp(t, prefix, index, count, s).state, s2) ==>
        exp(t, prefix, index, count, s2) == Run(exp(t, prefix, index, count, s).result, s2)
  }

  /** A successful expansion has `count` entries, numbered from the first index. */
  ghost predicate ExpanderNumbers(exp: Expander)
  {
    forall t: TypeExpr, prefix: string, index: nat, count: nat, s: RState :: exp(t, prefix, index, count, s).result.Ok? ==>
      |exp(t, prefix, index, count, s).result.value| == count
      && Numbered(exp(t, prefix, index, count, s).result.value, prefix, index)
  }

  /** From an `ok` state, `exp` keeps the state `ok`, only adds aliases, and yields rewrites of the type. */
  ghost predicate ExpanderRewrites(exp: Expander, ok: RState -> bool)
  {
    forall t: TypeExpr, prefix: string, index: nat, count: nat, s: RState :: ok(s) ==>
      ok(exp(t, prefix, index, count, s).state)
      && Aliases(s) <= Aliases(exp(t, prefix, index, count, s).state)
      && (exp(t, prefix, index, count, s).result.Ok? ==>
            RewritesOf(exp(t, prefix, index, count, s).result.value, seq(count, _ => t),
                       Aliases(exp(t, prefix, index, count, s).state)))
  }

  /** The source's field expansion keeps good states good, numbers its entries and yields rewrites. */
  lemma FieldExpanderFacts(c: LocatorContext, sharing: Sharing)
    ensures ExpanderKeeps(FieldExpander(c, sharing), Good, Grows)
    ensures ExpanderNumbers(FieldExpander(c, sharing))
    ensures ExpanderRewrites(FieldExpander(c, sharing), Good)
  {
    var exp := FieldExpander(c, sharing);
    forall t: TypeExpr, prefix: string, index: nat, count: nat, s: RState
      ensures Good(s) ==> Good(exp(t, prefix, index, count, s).state) && Grows(s, exp(t, prefix, index, count, s).state)
      ensures exp(t, prefix, index, count, s).result.Ok? ==>
        |exp(t, prefix, index, count, s).result.value| == count
        && Numbered(exp(t, prefix, index, count, s).result.value, prefix, index)
      ensures Good(s) ==>
        Aliases(s) <= Aliases(exp(t, prefix, index, count, s).state)
        && (exp(t, prefix, index, count, s).result.Ok? ==>
              RewritesOf(exp(t, prefix, index, count, s).result.value, seq(count, _ => t),
                         Aliases(exp(t, prefix, index, count, s).state)))
    {
      var r := ExpandField(c, t, prefix, index, count, sharing, s);
      assert exp(t, prefix, index, count, s) == r;
      if Good(s) { GrowsAliases(s, r.state); }
    }
  }

  /** Normalisation with the field expander as a parameter: each field's entries, in order, numbered on. */
  function NormalizeWith(exp: Expander, fs: seq<Field>, prefix: string, index: nat, s: RState)
    : Run<seq<Field>, RState>
    decreases |fs|
  {
    if |fs| == 0 then Run(Ok([]), s)
    else
      var head := exp(fs[0].typ, prefix, index, ReuseCount(fs[0]), s);
      if head.result.Err? then Run(Err(head.result.error), head.state)
      else
        var rest := NormalizeWith(exp, fs[1..], prefix, index + ReuseCount(fs[0]), head.state);
        if rest.result.Err? then Run(Err(rest.result.error), rest.state)
        else Run(Ok(head.result.value + rest.result.value), rest.state)
  }

  lemma {:induction false} NormalizeWithGrows(exp: Expander, ok: RState -> bool, le: (RState, RState) -> bool,
                                              fs: seq<Field>, prefix: string, index: nat, s: RState)
    requires ExpanderKeeps(exp, ok, le) && Preorder(le) && ok(s)
    ensures ok(NormalizeWith(exp, fs, prefix, index, s).state)
    ensures le(s, NormalizeWith(exp, fs, prefix, index, s).state)
    decreases |fs|
  {
    if |fs| > 0 {
      var head := exp(fs[0].typ, prefix, index, ReuseCount(fs[0]), s);
      if head.result.Ok? {
        NormalizeWithGrows(exp, ok, le, fs[1..], prefix, index + ReuseCount(fs[0]), head.state);
      }
    }
  }

  lemma {:induction false} NormalizeWithNumbered(exp: Expander, fs: seq<Field>, prefix: string, index: nat, s: RState)
    requires ExpanderNumbers(exp)
    ensures NormalizeWith(exp, fs, prefix, index, s).result.Ok? ==>
      |NormalizeWith(exp, fs, prefix, index, s).result.value| == TotalReuse(fs)
      && Numbered(NormalizeWith(exp, fs, prefix, index, s).result.value, prefix, index)
    decreases |fs|
  {
    if |fs| > 0 {
      var head := exp(fs[0].typ, prefix, index, ReuseCount(fs[0]), s);
      if head.result.Ok? {
        var rest := NormalizeWith(exp, fs[1..], prefix, index + ReuseCount(fs[0]), head.state);
        NormalizeWithNumbered(exp, fs[1..], prefix, index + ReuseCount(fs[0]), head.state);
        if rest.result.Ok? {
          NumberedAppend(head.result.value, rest.result.value, prefix, index);
        }
      }
    }
  }

  lemma {:induction false} NormalizeWithRewrites(exp: Expander, ok: RState -> bool, fs: seq<Field>, prefix: string,
                                                 index: nat, s: RState)
    requires ExpanderRewrites(exp, ok) && ok(s)
    ensures ok(NormalizeWith(exp, fs, prefix, index, s).state)
    ensures Aliases(s) <= Aliases(NormalizeWith(exp, fs, prefix, index, s).state)
    ensures NormalizeWith(exp, fs, prefix, index, s).result.Ok? ==>
      RewritesOf(NormalizeWith(exp, fs, prefix, index, s).result.value, ExpandedTypes(fs),
                 Aliases(NormalizeWith(exp, fs, prefix, index, s).state))
    decreases |fs|
  {
    if |fs| > 0 {
      var k := ReuseCount(fs[0]);
      var head := exp(fs[0].typ, prefix, index, k, s);
      if head.result.Ok? {
        var rest := NormalizeWith(exp, fs[1..], prefix, index + k, head.state);
        NormalizeWithRewrites(exp, ok, fs[1..], prefix, index + k, head.state);
        if rest.result.Ok? {
          var ht := seq(k, _ => fs[0].typ);
          RewritesOfMonotone(head.result.value, ht, Aliases(head.state), Aliases(rest.state));
          RewritesOfAppend(head.result.value, ht, rest.result.value, ExpandedTypes(fs[1..]), Aliases(rest.state));
        }
      }
    }
  }

  /**
   * Normalise a field sequence: one entry per name (one for an unnamed
   * field), numbered from `index`, each with its type rewritten; the first
   * failure ends normalisation.
   */
  function NormalizeFields(c: LocatorContext, fs: seq<Field>, prefix: string, index: nat,
                           sharing: Sharing, s: RState): (r: Run<seq<Field>, RState>)
    ensures Good(s) ==> Good(r.state) && Grows(s, r.state)
    ensures r.result.Ok? ==>
      |r.result.value| == TotalReuse(fs) && Numbered(r.result.value, prefix, index)
    ensures Good(s) && r.result.Ok? ==> RewritesOf(r.result.value, ExpandedTypes(fs), Aliases(r.state))
  {
    var r := NormalizeWith(FieldExpander(c, sharing), fs, prefix, index, s);
    FieldExpanderFacts(c, sharing);
    NormalizeWithNumbered(FieldExpander(c, sharing), fs, prefix, index, s);
    assert Good(s) ==> Good(r.state) && Grows(s, r.state) && (r.result.Ok? ==> RewritesOf(r.result.value, ExpandedTypes(fs), Aliases(r.state))) by {
      if Good(s) {
        GrowsIsPreorder();
        NormalizeWithGrows(FieldExpander(c, sharing), Good, Grows, fs, prefix, index, s);
        NormalizeWithRewrites(FieldExpander(c, sharing), Good, fs, prefix, index, s);
      }
    }
    r
  }

  /** Normalising a non-empty list expands its first field, then normalises the rest from the next index. */
  lemma NormalizeFieldsCons(c: LocatorContext, fs: seq<Field>, prefix: string, index: nat, sharing: Sharing, s: RState)
    requires |fs| > 0
    ensures NormalizeFields(c, fs, prefix, index, sharing, s)
         == var head := ExpandField(c, fs[0].typ, prefix, index, ReuseCount(fs[0]), sharing, s);
            if head.result.Err? then Run(Err(head.result.error), head.state)
            else
              var rest := NormalizeFields(c, fs[1..], prefix, index + ReuseCount(fs[0]), sharing, head.state);
              if rest.result.Err? then Run(Err(rest.result.error), rest.state)
              else Run(Ok(head.result.value + rest.result.value), rest.state)
  {
    assert FieldExpander(c, sharing)(fs[0].typ, prefix, index, ReuseCount(fs[0]), s)
        == ExpandField(c, fs[0].typ, prefix, index, ReuseCount(fs[0]), sharing, s);
  }

  /** Normalised entries carry distinct names. */
  lemma NumberedNamesDistinct(out: seq<Field>, prefix: string, start: nat, i: nat, j: nat)
    requires Numbered(out, prefix, start) && i < j < |out|
    ensures out[i].names != out[j].names
  {
    if out[i].names == out[j].names {
      assert (prefix + NatStr(start + i))[|prefix|..] == NatStr(start + i);
      assert (prefix + NatStr(start + j))[|prefix|..] == NatStr(start + j);
      NatStrInjective(start + i, start + j);
    }
  }

  /** Parameters as `arg1`, `arg2`, ... */
  function NormalizedParams(c: LocatorContext, ft: TypeExpr, sharing: Sharing, s: RState): (r: Run<seq<Field>, RState>)
    requires ft.FuncType?
    ensures Good(s) ==> Good(r.state) && Grows(s, r.state)
    ensures r.result.Ok? ==>
      |r.result.value| == TotalReuse(FieldsOf(ft.params)) && Numbered(r.result.value, "arg", 1)
  {
    NormalizeFields(c, FieldsOf(ft.params), "arg", 1, sharing, s)
  }

  /** Results as `result1`, `result2`, ... */
  function NormalizedResults(c: LocatorContext, ft: TypeExpr, sharing: Sharing, s: RState): (r: Run<seq<Field>, RState>)
    requires ft.FuncType?
    ensures Good(s) ==> Good(r.state) && Grows(s, r.state)
    ensures r.result.Ok? ==>
      |r.result.value| == TotalReuse(FieldsOf(ft.results)) && Numbered(r.result.value, "result", 1)
  {
    NormalizeFields(c, FieldsOf(ft.results), "result", 1, sharing, s)
  }

  // ------------------------------------------------------------ methods

  /** Every entry of a method carries the generated name for its position. */
  predicate Normalised(m: MethodConfig)
  {
    Numbered(m.params, "arg", 1) && Numbered(m.results, "result", 1)
  }

  /** Every parameter and result type of `m` is resolved against `aliases`. */
  predicate MethodResolved(m: MethodConfig, aliases: set<string>)
  {
    (forall j :: 0 <= j < |m.params| ==> Resolved(m.params[j].typ, aliases))
    && (forall j :: 0 <= j < |m.results| ==> Resolved(m.results[j].typ, aliases))
  }

  predicate AllNormalised(ms: seq<MethodConfig>)
  {
    forall i :: 0 <= i < |ms| ==> Normalised(ms[i])
  }

  predicate AllResolved(ms: seq<MethodConfig>, aliases: set<string>)
  {
    forall i :: 0 <= i < |ms| ==> MethodResolved(ms[i], aliases)
  }

  lemma AllResolvedMonotone(ms: seq<MethodConfig>, a: set<string>, b: set<string>)
    requires AllResolved(ms, a) && a <= b
    ensures AllResolved(ms, b)
  {
    forall i, j | 0 <= i < |ms| && 0 <= j < |ms[i].params|
      ensures Resolved(ms[i].params[j].typ, b)
    {
      ResolvedMonotone(ms[i].params[j].typ, a, b);
    }
    forall i, j | 0 <= i < |ms| && 0 <= j < |ms[i].results|
      ensures Resolved(ms[i].results[j].typ, b)
    {
      ResolvedMonotone(ms[i].results[j].typ, a, b);
    }
  }

  /** The aliases registered in the generated file so far. */
  function Aliases(s: RState): set<string>
  {
    s.imports.aliasToImport.Keys
  }

  lemma GrowsAliases(s: RState, s2: RState)
    requires Grows(s, s2)
    ensures Aliases(s) <= Aliases(s2)
  {
  }

  /**
   * One method: its parameters, then its results, normalised and
   * rewritten; a failure in either means no method.
   */
  function ProcessMethod(c: LocatorContext, name: string, ft: TypeExpr, sharing: Sharing, s: RState)
    : (r: Run<MethodConfig, RState>)
    requires ft.FuncType?
    ensures Good(s) ==> Good(r.state) && Grows(s, r.state)
    ensures r.result.Ok? ==>
      r.result.value.name == name && Normalised(r.result.value)
      && |r.result.value.params| == TotalReuse(FieldsOf(ft.params))
      && |r.result.value.results| == TotalReuse(FieldsOf(ft.results))
    ensures Good(s) && r.result.Ok? ==>
      RewritesOf(r.result.value.params, ExpandedTypes(FieldsOf(ft.params)), Aliases(r.state))
      && RewritesOf(r.result.value.results, ExpandedTypes(FieldsOf(ft.results)), Aliases(r.state))
    ensures r.result.Ok? <==>
      NormalizedParams(c, ft, sharing, s).result.Ok?
      && NormalizedResults(c, ft, sharing, NormalizedParams(c, ft, sharing, s).state).result.Ok?
  {
    var ps := NormalizedParams(c, ft, sharing, s);
    if ps.result.Err? then Run(Err(ps.result.error), ps.state)
    else
      var rs := NormalizedResults(c, ft, sharing, ps.state);
      assert Good(s) ==> Grows(s, rs.state) by {
        if Good(s) { GrowsTransitive(s, ps.state, rs.state); }
      }
      if rs.result.Err? then Run(Err(rs.result.error), rs.state)
      else
        assert Good(s) ==>
          RewritesOf(ps.result.value, ExpandedTypes(FieldsOf(ft.params)), Aliases(rs.state)) by {
          if Good(s) {
            RewritesOfMonotone(ps.result.value, ExpandedTypes(FieldsOf(ft.params)), Aliases(ps.state),
                               Aliases(rs.state));
          }
        }
        Run(Ok(MethodConfig(name, ps.result.value, rs.result.value)), rs.state)
  }

  /** A method entry is named by its first name (an entry without names reads as ""). */
  function FirstName(f: Field): string
  {
    if |f.names| > 0 then f.names[0] else ""
  }

  /** The method of a method entry is added when it can be processed, and dropped otherwise. */
  function AddMethodOf(c: LocatorContext, f: Field, sharing: Sharing, g: GState): (g2: GState)
    requires f.typ.FuncType?
    ensures Good(g.rs) ==> Good(g2.rs) && Grows(g.rs, g2.rs)
    ensures g2.methods == g.methods
         || (|g2.methods| == |g.methods| + 1 && g2.methods[..|g.methods|] == g.methods
             && g2.methods[|g.methods|].name == FirstName(f))
    ensures AllNormalised(g.methods) ==> AllNormalised(g2.methods)
    ensures Good(g.rs) && AllResolved(g.methods, Aliases(g.rs)) ==>
      AllResolved(g2.methods, Aliases(g2.rs))
    ensures g2.rs == ProcessMethod(c, FirstName(f), f.typ, sharing, g.rs).state
    ensures ProcessMethod(c, FirstName(f), f.typ, sharing, g.rs).result.Ok? ==>
      g2.methods == g.methods + [ProcessMethod(c, FirstName(f), f.typ, sharing, g.rs).result.value]
    ensures ProcessMethod(c, FirstName(f), f.typ, sharing, g.rs).result.Err? ==> g2.methods == g.methods
  {
    var m := ProcessMethod(c, FirstName(f), f.typ, sharing, g.rs);
    if m.result.Err? then
      assert Good(g.rs) && AllResolved(g.methods, Aliases(g.rs)) ==> AllResolved(g.methods, Aliases(m.state)) by {
        if Good(g.rs) && AllResolved(g.methods, Aliases(g.rs)) {
          AllResolvedMonotone(g.methods, Aliases(g.rs), Aliases(m.state));
        }
      }
      GState(m.state, g.methods)
    else
      var ms := g.methods + [m.result.value];
      assert ms[..|g.methods|] == g.methods;
      assert Good(g.rs) && AllResolved(g.methods, Aliases(g.rs)) ==>
        AllResolved(ms, Aliases(m.state)) by {
        if Good(g.rs) && AllResolved(g.methods, Aliases(g.rs)) {
          AllResolvedMonotone(g.methods, Aliases(g.rs), Aliases(m.state));
          assert MethodResolved(m.result.value, Aliases(m.state));
        }
      }
      GState(m.state, ms)
  }

  // ---------------------------------------------------------- interfaces

  /** The entry kinds an interface body may hold: methods and embedded interfaces. */
  predicate KnownEntry(t: TypeExpr)
  {
    t.FuncType? || t.Ident? || t.Selector?
  }

  /**
   * Walk the interface a discovery declares, in the context of the file
   * that declares it. Embedded interfaces are followed at most `fuel`
   * levels deep.
   */
  function ProcessInterface(d: Locate.Discovery, sharing: Sharing, fuel: nat, g: GState): (r: Run<(), GState>)
    decreases fuel, 1, 0
    ensures Good(g.rs) ==> Good(r.state.rs) && Grows(g.rs, r.state.rs)
    ensures g.methods <= r.state.methods
    ensures !d.spec.typ.InterfaceType? <==> r.result == Err(NotAnInterface(d.spec.name, d.location))
    ensures !d.spec.typ.InterfaceType? ==> r.state == g
    ensures d.spec.typ.InterfaceType? ==>
      (r.result.Err? <==> exists i :: 0 <= i < |FieldsOf(d.spec.typ.methods)|
                                     && !KnownEntry(FieldsOf(d.spec.typ.methods)[i].typ))
    ensures r.result.Err? ==> r.result.error == NotAnInterface(d.spec.name, d.location) || r.result.error == UnknownEntry
    ensures AllNormalised(g.methods) ==> AllNormalised(r.state.methods)
    ensures Good(g.rs) && AllResolved(g.methods, Aliases(g.rs)) ==>
      AllResolved(r.state.methods, Aliases(r.state.rs))
  {
    if !d.spec.typ.InterfaceType? then Run(Err(NotAnInterface(d.spec.name, d.location)), g)
    else ProcessEntries(FileContext(d.file, d.location), FieldsOf(d.spec.typ.methods), sharing, fuel, g)
  }

  /**
   * The entries of an interface body, in order. Methods that cannot be
   * processed and embedded interfaces that cannot be found or walked are
   * skipped; an entry of any other kind ends the walk with an error.
   */
  function ProcessEntries(c: LocatorContext, es: seq<Field>, sharing: Sharing, fuel: nat, g: GState)
    : (r: Run<(), GState>)
    decreases fuel, 0, |es| + 1
    ensures Good(g.rs) ==> Good(r.state.rs) && Grows(g.rs, r.state.rs)
    ensures g.methods <= r.state.methods
    ensures r.result.Err? <==> exists i :: 0 <= i < |es| && !KnownEntry(es[i].typ)
    ensures r.result.Err? ==> r.result.error == UnknownEntry
    ensures AllNormalised(g.methods) ==> AllNormalised(r.state.methods)
    ensures Good(g.rs) && AllResolved(g.methods, Aliases(g.rs)) ==>
      AllResolved(r.state.methods, Aliases(r.state.rs))
  {
    if |es| == 0 then Run(Ok(()), g)
    else if !KnownEntry(es[0].typ) then Run(Err(UnknownEntry), g)
    else
      var g2 := ProcessEntry(c, es[0], sharing, fuel, g);
      var r := ProcessEntries(c, es[1..], sharing, fuel, g2);
      assert Good(g.rs) ==> Grows(g.rs, r.state.rs) by {
        if Good(g.rs) { GrowsTransitive(g.rs, g2.rs, r.state.rs); }
      }
      UnknownAfterFirst(es);
      r
  }

  /** One entry: a method is added, an embedded interface is looked up and walked, anything else is passed over. */
  function ProcessEntry(c: LocatorContext, e: Field, sharing: Sharing, fuel: nat, g: GState): (g2: GState)
    decreases fuel, 0, 1
    ensures Good(g.rs) ==> Good(g2.rs) && Grows(g.rs, g2.rs)
    ensures g.methods <= g2.methods
    ensures AllNormalised(g.methods) ==> AllNormalised(g2.methods)
    ensures Good(g.rs) && AllResolved(g.methods, Aliases(g.rs)) ==>
      AllResolved(g2.methods, Aliases(g2.rs))
    ensures e.typ.FuncType? ==> g2 == AddMethodOf(c, e, sharing, g)
    ensures !KnownEntry(e.typ) ==> g2 == g
  {
    match e.typ
    case FuncType(_, _) => AddMethodOf(c, e, sharing, g)
    case Ident(n) => Embedded(Locate.FindIdentType(g.rs.locator, c, n), sharing, fuel, g)
    case Selector(q, sel) => Embedded(Locate.FindSelectorType(g.rs.locator, c, q, sel), sharing, fuel, g)
    case _ => g
  }

  /** When the first entry is known, an unknown entry is one among the rest. */
  lemma UnknownAfterFirst(es: seq<Field>)
    requires |es| > 0 && KnownEntry(es[0].typ)
    ensures (exists i :: 0 <= i < |es| && !KnownEntry(es[i].typ))
        <==> exists i :: 0 <= i < |es[1..]| && !KnownEntry(es[1..][i].typ)
  {
    if i :| 0 <= i < |es| && !KnownEntry(es[i].typ) {
      assert i > 0 && es[1..][i - 1] == es[i];
    }
  }

  /**
   * An embedded interface: the lookup's cache is kept whatever its
   * outcome; a found declaration is walked one level deeper, and any error
   * is dropped.
   */
  function Embedded(found: Run<Locate.Discovery, Locate.Locator>, sharing: Sharing, fuel: nat, g: GState)
    : (g2: GState)
    decreases fuel, 0, 0
    ensures Good(g.rs) && Locate.Coherent(found.state) && Locate.Extends(g.rs.locator, found.state) ==>
      Good(g2.rs) && Grows(g.rs, g2.rs)
    ensures g.methods <= g2.methods
    ensures AllNormalised(g.methods) ==> AllNormalised(g2.methods)
    ensures Good(g.rs) && Locate.Coherent(found.state)
            && AllResolved(g.methods, Aliases(g.rs)) ==>
      AllResolved(g2.methods, Aliases(g2.rs))
    ensures found.result.Err? || fuel == 0 ==> g2 == g.(rs := g.rs.(locator := found.state))
    ensures found.result.Ok? && fuel > 0 ==>
      g2 == ProcessInterface(found.result.value, sharing, fuel - 1, g.(rs := g.rs.(locator := found.state))).state
  {
    var g1 := g.(rs := g.rs.(locator := found.state));
    if found.result.Err? || fuel == 0 then g1
    else
      var r := ProcessInterface(found.result.value, sharing, fuel - 1, g1);
      assert Good(g.rs) && Locate.Coherent(found.state) && Locate.Extends(g.rs.locator, found.state) ==>
        Grows(g.rs, r.state.rs) by {
        if Good(g.rs) && Locate.Coherent(found.state) && Locate.Extends(g.rs.locator, found.state) {
          assert Grows(g.rs, g1.rs);
          GrowsTransitive(g.rs, g1.rs, r.state.rs);
        }
      }
      r.state
  }

  // ------------------------------------------------------------ top level

  /**
   * Generate the method list of a stub: the interface is looked up by name
   * in the source package alone, then walked; the import table is the
   * generated file's, as the stub model prepared it.
   */
  function GenerateStub(src: Locate.Source, pkgLocation: string, ifaceName: string,
                        imports: Imports.ImportTable, sharing: Sharing, fuel: nat)
    : (r: Run<seq<MethodConfig>, GState>)
    ensures r.result.Err? && Locate.Search(src, ifaceName, [pkgLocation]).Err? ==>
      r.result.error == Locate.Search(src, ifaceName, [pkgLocation]).error
    ensures r.result.Err? ==>
      r.result.error == TypeNotFound(ifaceName) || r.result.error == LoadFailure(pkgLocation)
      || r.result.error.NotAnInterface? || r.result.error == UnknownEntry
    ensures Locate.Search(src, ifaceName, [pkgLocation]).Err? ==> r.result.Err?
    ensures r.result.Ok? ==> r.result.value == r.state.methods && AllNormalised(r.result.value)
    ensures Imports.Valid(imports) ==> Imports.Valid(r.state.rs.imports) && Imports.Extends(imports, r.state.rs.imports)
    ensures Imports.Valid(imports) && r.result.Ok? ==>
      AllResolved(r.result.value, r.state.rs.imports.aliasToImport.Keys)
    ensures Locate.Search(src, ifaceName, [pkgLocation]).Ok? ==>
      r.state == ProcessInterface(Locate.Search(src, ifaceName, [pkgLocation]).value, sharing, fuel,
                                  StubStart(src, pkgLocation, ifaceName, imports)).state
      && (r.result.Ok? <==>
          ProcessInterface(Locate.Search(src, ifaceName, [pkgLocation]).value, sharing, fuel,
                           StubStart(src, pkgLocation, ifaceName, imports)).result.Ok?)
  {
    var found := FindInterface(src, pkgLocation, ifaceName);
    var g := StubStart(src, pkgLocation, ifaceName, imports);
    match found.result
    case Err(e) => Run(Err(e), g)
    case Ok(d) =>
      var r := ProcessInterface(d, sharing, fuel, g);
      if r.result.Err? then Run(Err(r.result.error), r.state)
      else Run(Ok(r.state.methods), r.state)
  }

  /** The interface is looked up by name in the source package alone, on a fresh cache. */
  function FindInterface(src: Locate.Source, pkgLocation: string, ifaceName: string): (r: Run<Locate.Discovery, Locate.Locator>)
    ensures r.result == Locate.Search(src, ifaceName, [pkgLocation])
    ensures Locate.Coherent(r.state) && r.state.source == src
  {
    Locate.FindIdentType(Locate.NewLocator(src), SingleLocationContext(pkgLocation), ifaceName)
  }

  /** The walk starts with no methods, the lookup's cache and the generated file's imports. */
  function StubStart(src: Locate.Source, pkgLocation: string, ifaceName: string, imports: Imports.ImportTable): GState
  {
    GState(RState(FindInterface(src, pkgLocation, ifaceName).state, imports), [])
  }

  // ------------------------------------------------- entries one by one

  /** Walking a list of known entries and then more is walking the rest from where the first part left off. */
  lemma {:induction false} ProcessEntriesAppend(c: LocatorContext, a: seq<Field>, b: seq<Field>, sharing: Sharing,
                                                fuel: nat, g: GState)
    requires forall i :: 0 <= i < |a| ==> KnownEntry(a[i].typ)
    ensures ProcessEntries(c, a, sharing, fuel, g).result == Ok(())
    ensures ProcessEntries(c, a + b, sharing, fuel, g)
         == ProcessEntries(c, b, sharing, fuel, ProcessEntries(c, a, sharing, fuel, g).state)
    decreases |a|
  {
    if |a| == 0 {
      assert a + b == b;
    } else {
      assert (a + b)[0] == a[0] && (a + b)[1..] == a[1..] + b;
      ProcessEntriesAppend(c, a[1..], b, sharing, fuel, ProcessEntry(c, a[0], sharing, fuel, g));
    }
  }

  /** A single entry: a known one is processed and the walk goes on; any other ends it with nothing added. */
  lemma ProcessOneEntry(c: LocatorContext, e: Field, sharing: Sharing, fuel: nat, g: GState)
    ensures ProcessEntries(c, [e], sharing, fuel, g)
         == if KnownEntry(e.typ) then Run(Ok(()), ProcessEntry(c, e, sharing, fuel, g)) else Run(Err(UnknownEntry), g)
  {
    assert [e][1..] == [];
  }

  // ------------------------------------------------- the reference walk

  /** A type the resolver leaves as written: a builtin name or an expression it does not inspect. */
  predicate Untouched(t: TypeExpr)
  {
    (t.Ident? && IsBuiltIn(t.name)) || t.Other?
  }

  predicate AllUntouched(fs: seq<Field>)
  {
    forall i :: 0 <= i < |fs| ==> Untouched(fs[i].typ)
  }

  /** The reference naming: entry `j` is `prefix<index + j>` with the `j`-th type. */
  function Renamed(types: seq<TypeExpr>, prefix: string, index: nat): (out: seq<Field>)
  {
    seq(|types|, j requires 0 <= j < |types| => CreateField(prefix + NatStr(index + j), types[j]))
  }

  lemma RenamedAppend(a: seq<TypeExpr>, b: seq<TypeExpr>, prefix: string, index: nat)
    ensures Renamed(a + b, prefix, index) == Renamed(a, prefix, index) + Renamed(b, prefix, index + |a|)
  {
    var l, r := Renamed(a + b, prefix, index), Renamed(a, prefix, index) + Renamed(b, prefix, index + |a|);
    forall j | 0 <= j < |l| ensures l[j] == r[j] {
      if j >= |a| { assert index + j == index + |a| + (j - |a|); }
    }
  }

  lemma CopiesRenamed(t: TypeExpr, prefix: string, index: nat, count: nat)
    ensures Copies(t, prefix, index, count) == Renamed(seq(count, _ => t), prefix, index)
  {
    var l, r := Copies(t, prefix, index, count), Renamed(seq(count, _ => t), prefix, index);
    forall j | 0 <= j < count ensures l[j] == r[j] {
      assert l[j].names == [prefix + NatStr(index + j)];
    }
  }

  /** A type the resolver leaves alone is never rewritten in place, so every name gets it as written. */
  lemma {:induction false} ExpandSharedUntouched(c: LocatorContext, t: TypeExpr, prefix: string, index: nat,
                                                 count: nat, s: RState)
    requires Untouched(t)
    ensures ExpandShared(c, t, prefix, index, count, s) == Run(Ok(Copies(t, prefix, index, count)), s)
    decreases count
  {
    if count > 0 {
      UntouchedTypes(c, t, s);
      ExpandSharedUntouched(c, t, prefix, index + 1, count - 1, s);
    }
  }

  lemma {:induction false} NormalizeUntouched(c: LocatorContext, fs: seq<Field>, prefix: string, index: nat,
                                              sharing: Sharing, s: RState)
    requires AllUntouched(fs)
    ensures NormalizeFields(c, fs, prefix, index, sharing, s) == Run(Ok(Renamed(ExpandedTypes(fs), prefix, index)), s)
    decreases |fs|
  {
    if |fs| == 0 {
      assert Renamed([], prefix, index) == [];
    } else {
      var k := ReuseCount(fs[0]);
      assert AllUntouched(fs[1..]) by {
        forall i | 0 <= i < |fs[1..]| ensures Untouched(fs[1..][i].typ) { assert fs[1..][i] == fs[i + 1]; }
      }
      var rest := Renamed(ExpandedTypes(fs[1..]), prefix, index + k);
      NormalizeUntouched(c, fs[1..], prefix, index + k, sharing, s);
      NormalizeUntouchedStep(c, fs, prefix, index, sharing, s, rest);
      RenamedCons(fs, prefix, index);
    }
  }

  /** Renaming the expanded types names the first entry's copies, then the rest from where they stop. */
  lemma RenamedCons(fs: seq<Field>, prefix: string, index: nat)
    requires |fs| > 0
    ensures Renamed(ExpandedTypes(fs), prefix, index)
         == Copies(fs[0].typ, prefix, index, ReuseCount(fs[0]))
          + Renamed(ExpandedTypes(fs[1..]), prefix, index + ReuseCount(fs[0]))
  {
    var k := ReuseCount(fs[0]);
    CopiesRenamed(fs[0].typ, prefix, index, k);
    RenamedAppend(seq(k, _ => fs[0].typ), ExpandedTypes(fs[1..]), prefix, index);
  }

  /** The first untouched entry contributes its copies, and the rest goes on from the same state. */
  lemma NormalizeUntouchedStep(c: LocatorContext, fs: seq<Field>, prefix: string, index: nat, sharing: Sharing,
                               s: RState, rest: seq<Field>)
    requires |fs| > 0 && Untouched(fs[0].typ)
    requires NormalizeFields(c, fs[1..], prefix, index + ReuseCount(fs[0]), sharing, s) == Run(Ok(rest), s)
    ensures NormalizeFields(c, fs, prefix, index, sharing, s)
         == Run(Ok(Copies(fs[0].typ, prefix, index, ReuseCount(fs[0])) + rest), s)
  {
    NormalizeFieldsCons(c, fs, prefix, index, sharing, s);
    ExpandSharedUntouched(c, fs[0].typ, prefix, index, ReuseCount(fs[0]), s);
    UntouchedTypes(c, fs[0].typ, s);
  }

  /** A method entry whose parameter and result types all stay as written. */
  predicate PlainMethod(e: Field)
  {
    e.typ.FuncType? && AllUntouched(FieldsOf(e.typ.params)) && AllUntouched(FieldsOf(e.typ.results))
  }

  /** The reference configuration of a plain method: its name, and its entries renamed with the declared types. */
  function PlainConfig(e: Field): MethodConfig
    requires e.typ.FuncType?
  {
    MethodConfig(FirstName(e), Renamed(ExpandedTypes(FieldsOf(e.typ.params)), "arg", 1),
                 Renamed(ExpandedTypes(FieldsOf(e.typ.results)), "result", 1))
  }

  lemma ProcessPlainMethod(c: LocatorContext, e: Field, sharing: Sharing, s: RState)
    requires PlainMethod(e)
    ensures ProcessMethod(c, FirstName(e), e.typ, sharing, s) == Run(Ok(PlainConfig(e)), s)
  {
    NormalizeUntouched(c, FieldsOf(e.typ.params), "arg", 1, sharing, s);
    NormalizeUntouched(c, FieldsOf(e.typ.results), "result", 1, sharing, s);
  }

  predicate AllPlain(es: seq<Field>)
  {
    forall i :: 0 <= i < |es| ==> PlainMethod(es[i])
  }

  function PlainConfigs(es: seq<Field>): seq<MethodConfig>
    requires AllPlain(es)
  {
    seq(|es|, i requires 0 <= i < |es| => PlainConfig(es[i]))
  }

  lemma PlainConfigsCons(es: seq<Field>)
    requires |es| > 0 && AllPlain(es)
    ensures AllPlain(es[1..]) && PlainConfigs(es) == [PlainConfig(es[0])] + PlainConfigs(es[1..])
  {
    assert AllPlain(es[1..]) by {
      forall i | 0 <= i < |es[1..]| ensures PlainMethod(es[1..][i]) { assert es[1..][i] == es[i + 1]; }
    }
    var l, r := PlainConfigs(es), [PlainConfig(es[0])] + PlainConfigs(es[1..]);
    forall i | 0 <= i < |l| ensures l[i] == r[i] {
      if i > 0 { assert es[1..][i - 1] == es[i]; }
    }
  }

  lemma MethodsAppend(ms: seq<MethodConfig>, m: MethodConfig, rest: seq<MethodConfig>)
    ensures ms + [m] + rest == ms + ([m] + rest)
  {
  }

  /** A plain method entry adds its reference configuration and leaves the lookup state alone. */
  lemma PlainEntry(c: LocatorContext, e: Field, sharing: Sharing, fuel: nat, g: GState)
    requires PlainMethod(e)
    ensures ProcessEntry(c, e, sharing, fuel, g) == g.(methods := g.methods + [PlainConfig(e)])
  {
    ProcessPlainMethod(c, e, sharing, g.rs);
  }

  /** Plain method entries each add their reference configuration, in order, with no lookup and no import. */
  lemma {:induction false} PlainEntries(c: LocatorContext, es: seq<Field>, sharing: Sharing, fuel: nat, g: GState)
    requires AllPlain(es)
    ensures ProcessEntries(c, es, sharing, fuel, g) == Run(Ok(()), g.(methods := g.methods + PlainConfigs(es)))
    decreases |es|
  {
    if |es| == 0 {
      assert PlainConfigs(es) == [] && g.methods + [] == g.methods;
    } else {
      var g1 := g.(methods := g.methods + [PlainConfig(es[0])]);
      PlainConfigsCons(es);
      PlainEntries(c, es[1..], sharing, fuel, g1);
      MethodsAppend(g.methods, PlainConfig(es[0]), PlainConfigs(es[1..]));
      PlainEntriesStep(c, es, sharing, fuel, g, ProcessEntries(c, es[1..], sharing, fuel, g1));
    }
  }

  lemma PlainEntriesStep(c: LocatorContext, es: seq<Field>, sharing: Sharing, fuel: nat, g: GState,
                         rest: Run<(), GState>)
    requires |es| > 0 && PlainMethod(es[0])
    requires rest == ProcessEntries(c, es[1..], sharing, fuel, g.(methods := g.methods + [PlainConfig(es[0])]))
    ensures ProcessEntries(c, es, sharing, fuel, g) == rest
  {
    PlainEntry(c, es[0], sharing, fuel, g);
  }

  /**
   * Stubbing an interface whose entries are all plain methods gives one
   * method per entry, in declaration order, and imports nothing.
   */
  lemma PlainInterfaceStub(src: Locate.Source, pkgLocation: string, ifaceName: string,
                           imports: Imports.ImportTable, sharing: Sharing, fuel: nat)
    requires Locate.Search(src, ifaceName, [pkgLocation]).Ok?
    requires Locate.Search(src, ifaceName, [pkgLocation]).value.spec.typ.InterfaceType?
    requires AllPlain(FieldsOf(Locate.Search(src, ifaceName, [pkgLocation]).value.spec.typ.methods))
    ensures GenerateStub(src, pkgLocation, ifaceName, imports, sharing, fuel).result
         == Ok(PlainConfigs(FieldsOf(Locate.Search(src, ifaceName, [pkgLocation]).value.spec.typ.methods)))
    ensures GenerateStub(src, pkgLocation, ifaceName, imports, sharing, fuel).state.rs.imports == imports
  {
    var d := Locate.Search(src, ifaceName, [pkgLocation]).value;
    var g := StubStart(src, pkgLocation, ifaceName, imports);
    PlainEntries(FileContext(d.file, d.location), FieldsOf(d.spec.typ.methods), sharing, fuel, g);
    assert [] + PlainConfigs(FieldsOf(d.spec.typ.methods)) == PlainConfigs(FieldsOf(d.spec.typ.methods));
  }

  // ------------------------------------------------------------ agreement

  lemma ExpandOneAgrees(c: LocatorContext, t: TypeExpr, prefix: string, index: nat, s: RState)
    ensures ExpandShared(c, t, prefix, index, 1, s) == ExpandOnce(c, t, prefix, index, 1, s)
  {
    var rt := ResolveType(c, t, s);
    if rt.result.Ok? {
      assert ExpandShared(c, NodeAfter(t, rt.result.value), prefix, index + 1, 0, rt.state) == Run(Ok([]), rt.state);
      assert Copies(rt.result.value, prefix, index + 1, 0) == [];
    }
  }

  /**
   * The shared node only matters for grouped names: when no field has
   * more than one name, the source's expansion and the corrected one
   * agree on every input.
   */
  lemma {:induction false} SingleNamesAgree(c: LocatorContext, fs: seq<Field>, prefix: string, index: nat, s: RState)
    requires forall i :: 0 <= i < |fs| ==> |fs[i].names| <= 1
    ensures NormalizeFields(c, fs, prefix, index, SharedNode, s) == NormalizeFields(c, fs, prefix, index, ResolveOnce, s)
    decreases |fs|
  {
    if |fs| > 0 {
      assert ReuseCount(fs[0]) == 1;
      ExpandOneAgrees(c, fs[0].typ, prefix, index, s);
      var head := ExpandField(c, fs[0].typ, prefix, index, 1, ResolveOnce, s);
      if head.result.Ok? {
        SingleNamesAgree(c, fs[1..], prefix, index + 1, head.state);
      }
    }
  }

  // ------------------------------------------------------------ an example

  /** `Greet(name string) string`. */
  function GreetType(): TypeExpr
  {
    FuncType(List([Field(["name"], Ident("string"))]), List([Field([], Ident("string"))]))
  }

  /** `type Greeter interface { Greet(name string) string }`, alone in package "example". */
  function GreeterSource(): Locate.Source
  {
    map["example" := [File([GenDecl([TypeDecl(TypeSpec("Greeter", InterfaceType(List([Field(["Greet"], GreetType())]))))])])]]
  }

  function GreetConfig(): MethodConfig
  {
    MethodConfig("Greet", [Field(["arg1"], Ident("string"))], [Field(["result1"], Ident("string"))])
  }

  /** A single-name field of builtin type is renamed and kept, with no lookup and no import. */
  lemma BuiltinField(c: LocatorContext, f: Field, prefix: string, index: nat, sharing: Sharing, s: RState)
    requires |f.names| <= 1 && f.typ.Ident? && IsBuiltIn(f.typ.name)
    ensures NormalizeFields(c, [f], prefix, index, sharing, s)
         == Run(Ok([CreateField(prefix + NatStr(index), f.typ)]), s)
  {
    UntouchedTypes(c, f.typ, s);
    assert ReuseCount(f) == 1;
    ExpandOneAgrees(c, f.typ, prefix, index, s);
    var one := [CreateField(prefix + NatStr(index), f.typ)];
    assert Copies(f.typ, prefix, index + 1, 0) == [];
    assert Copies(f.typ, prefix, index, 1) == one + [] == one;
    assert ResolveType(c, f.typ, s).result == Ok(f.typ);
    assert ExpandOnce(c, f.typ, prefix, index, 1, s) == Run(Ok(one), s);
    assert ExpandField(c, f.typ, prefix, index, 1, sharing, s) == Run(Ok(one), s);
    assert [f][1..] == [];
    assert NormalizeFields(c, [], prefix, index + 1, sharing, s) == Run(Ok([]), s);
    assert one + [] == one;
  }

  lemma GreetMethod(c: LocatorContext, sharing: Sharing, s: RState)
    ensures ProcessMethod(c, "Greet", GreetType(), sharing, s) == Run(Ok(GreetConfig()), s)
  {
    assert IsBuiltIn("string");
    assert NatStr(1) == "1";
    var ft := GreetType();
    assert FieldsOf(ft.params) == [Field(["name"], Ident("string"))];
    assert FieldsOf(ft.results) == [Field([], Ident("string"))];
    assert "arg" + NatStr(1) == "arg1" && "result" + NatStr(1) == "result1";
    BuiltinField(c, Field(["name"], Ident("string")), "arg", 1, sharing, s);
    assert NormalizedParams(c, ft, sharing, s) == Run(Ok([Field(["arg1"], Ident("string"))]), s);
    BuiltinField(c, Field([], Ident("string")), "result", 1, sharing, s);
    assert NormalizedResults(c, ft, sharing, s) == Run(Ok([Field(["result1"], Ident("string"))]), s);
  }

  lemma GreeterEntries(c: LocatorContext, sharing: Sharing, fuel: nat, s: RState)
    ensures ProcessEntries(c, [Field(["Greet"], GreetType())], sharing, fuel, GState(s, []))
         == Run(Ok(()), GState(s, [GreetConfig()]))
  {
    GreetMethod(c, sharing, s);
    var es := [Field(["Greet"], GreetType())];
    assert AddMethodOf(c, es[0], sharing, GState(s, [])) == GState(s, [GreetConfig()]);
    assert es[1..] == [];
  }

  /**
   * Stubbing `Greeter`: one method, its parameter renamed `arg1`, its
   * unnamed result named `result1`, builtin types kept, nothing imported.
   */
  lemma GreeterStub(src: Locate.Source, imports: Imports.ImportTable, sharing: Sharing, fuel: nat)
    requires src == GreeterSource()
    ensures GenerateStub(src, "example", "Greeter", imports, sharing, fuel).result == Ok([GreetConfig()])
    ensures GenerateStub(src, "example", "Greeter", imports, sharing, fuel).state.rs.imports == imports
  {
    var d := GreeterFound(src);
    var g := StubStart(src, "example", "Greeter", imports);
    GreeterEntries(FileContext(d.file, "example"), sharing, fuel, g.rs);
    assert FieldsOf(d.spec.typ.methods) == [Field(["Greet"], GreetType())];
  }

  /** Looking `Greeter` up in its own package finds its one declaration. */
  lemma GreeterFound(src: Locate.Source) returns (d: Locate.Discovery)
    requires src == GreeterSource()
    ensures FindInterface(src, "example", "Greeter").result == Ok(d)
    ensures d.location == "example" && d.file == src["example"][0]
    ensures d.spec == TypeSpec("Greeter", InterfaceType(List([Field(["Greet"], GreetType())])))
  {
    var f := src["example"][0];
    var spec := TypeSpec("Greeter", InterfaceType(List([Field(["Greet"], GreetType())])));
    assert TypeSpecsInFile(f) == [spec];
    assert Locate.Declares([f], "Greeter");
    Locate.FirstNamedDeclares("example", [f], "Greeter");
    var found := Locate.FindIdentType(Locate.NewLocator(src), SingleLocationContext("example"), "Greeter");
    assert found.result.Ok?;
    d := found.result.value;
    assert d.file == f && d.spec == spec && d.location == "example";
  }

  // -------------------------------------------------------- the finding

  /** A package at location "L" whose one file declares `type T struct{}`. */
  function ExampleSource(): Locate.Source
  {
    map["L" := [File([GenDecl([TypeDecl(TypeSpec("T", StructType(List([]))))])])]]
  }

  /** A fresh resolver state over the example package. */
  predicate ExampleStart(s: RState)
  {
    s.locator == Locate.NewLocator(ExampleSource()) && s.imports == Imports.EmptyTable()
  }

  function ExampleContext(): LocatorContext
  {
    SingleLocationContext("L")
  }

  /** The parameter list `(a, b *T)` of the example method. */
  function GroupedParams(): TypeExpr
  {
    FuncType(List([Field(["a", "b"], StarExpr(Ident("T")))]), NilList)
  }

  lemma ExampleSearch()
    ensures Locate.Search(ExampleSource(), "T", ["L"]).Ok?
    ensures Locate.Search(ExampleSource(), "T", ["L"]).value.location == "L"
  {
    var f := ExampleSource()["L"][0];
    assert TypeSpecsInFile(f) == [TypeSpec("T", StructType(List([])))];
    assert Locate.Declares([f], "T");
    Locate.FirstNamedDeclares("L", [f], "T");
  }

  /** The first registration into an empty table is handed `alias1`. */
  lemma FirstAlias(location: string)
    ensures Imports.AddImport(Imports.EmptyTable(), "", location).alias == "alias1"
  {
    assert NatStr(1) == "1";
  }

  /** The first resolution of `T` registers "L" as `alias1` and qualifies `T` with it. */
  lemma FirstIdentResolution(s: RState)
    requires ExampleStart(s)
    ensures Good(s)
    ensures ResolveIdent(ExampleContext(), "T", s).result == Ok(Selector("alias1", "T"))
  {
    ExampleSearch();
    FirstAlias("L");
    ShortNamesAreNotBuiltIn("T");
  }

  /** A pointer type is the pointer to its rewritten element type. */
  lemma ResolvePointer(c: LocatorContext, x: TypeExpr, s: RState)
    ensures var r := ResolveType(c, x, s);
            ResolveType(c, StarExpr(x), s)
            == if r.result.Ok? then Run(Ok(StarExpr(r.result.value)), r.state) else r
  {
  }

  /** The first resolution of `*T` yields `*alias1.T`. */
  lemma FirstResolution(s: RState)
    requires ExampleStart(s)
    ensures var r := ResolveType(ExampleContext(), StarExpr(Ident("T")), s);
            r.result == Ok(StarExpr(Selector("alias1", "T"))) && Good(r.state)
  {
    FirstIdentResolution(s);
    ResolvePointer(ExampleContext(), Ident("T"), s);
    assert ResolveType(ExampleContext(), Ident("T"), s) == ResolveIdent(ExampleContext(), "T", s);
  }

  /** `alias1.T` means nothing in the source file: its qualifier has no candidate location. */
  lemma ForeignQualifierFails(s: RState)
    requires Good(s)
    ensures ResolveType(ExampleContext(), StarExpr(Selector("alias1", "T")), s).result == Err(TypeNotFound("T"))
  {
    assert CandidateLocations(ExampleContext(), "alias1") == [];
    assert Locate.Search(s.locator.source, "T", []) == Err(TypeNotFound("T"));
  }

  lemma SharedExpansionFails(s: RState)
    requires ExampleStart(s)
    ensures ExpandShared(ExampleContext(), StarExpr(Ident("T")), "arg", 1, 2, s).result
            == Err(TypeNotFound("T"))
  {
    var rt := ResolveType(ExampleContext(), StarExpr(Ident("T")), s);
    FirstResolution(s);
    ForeignQualifierFails(rt.state);
    var rest := ExpandShared(ExampleContext(), StarExpr(Selector("alias1", "T")), "arg", 2, 1, rt.state);
    assert rest.result == Err(TypeNotFound("T"));
  }

  lemma TwoCopies(u: TypeExpr)
    ensures Copies(u, "arg", 1, 2) == [Field(["arg1"], u), Field(["arg2"], u)]
  {
    assert NatStr(1) == "1" && NatStr(2) == "2";
    assert "arg" + NatStr(1) == "arg1" && "arg" + NatStr(2) == "arg2";
    assert Copies(u, "arg", 3, 0) == [];
    assert Copies(u, "arg", 2, 1) == [Field(["arg2"], u)];
  }

  lemma OnceExpansionSucceeds(s: RState)
    requires ExampleStart(s)
    ensures ExpandOnce(ExampleContext(), StarExpr(Ident("T")), "arg", 1, 2, s).result
            == Ok([Field(["arg1"], StarExpr(Selector("alias1", "T"))),
                   Field(["arg2"], StarExpr(Selector("alias1", "T")))])
  {
    FirstResolution(s);
    TwoCopies(StarExpr(Selector("alias1", "T")));
  }

  /**
   * A method `M(a, b *T)` in the file at "L" that declares `T`: with the
   * shared node, `b` re-resolves `*alias1.T`, whose qualifier the source
   * file does not know, and normalisation fails with TypeNotFound; with
   * one rewrite per field both parameters become `*alias1.T`.
   */
  lemma GroupedPointerParams(s: RState)
    requires ExampleStart(s)
    ensures NormalizedParams(ExampleContext(), GroupedParams(), SharedNode, s).result
            == Err(TypeNotFound("T"))
    ensures NormalizedParams(ExampleContext(), GroupedParams(), ResolveOnce, s).result
            == Ok([Field(["arg1"], StarExpr(Selector("alias1", "T"))),
                   Field(["arg2"], StarExpr(Selector("alias1", "T")))])
  {
    var fs := FieldsOf(GroupedParams().params);
    assert fs == [Field(["a", "b"], StarExpr(Ident("T")))];
    assert ReuseCount(fs[0]) == 2;
    assert fs[1..] == [];
    SharedExpansionFails(s);
    OnceExpansionSucceeds(s);
    var head := ExpandField(ExampleContext(), StarExpr(Ident("T")), "arg", 1, 2, ResolveOnce, s);
    assert head.result.Ok?;
    NormalizeFieldsCons(ExampleContext(), fs, "arg", 1, SharedNode, s);
    NormalizeFieldsCons(ExampleContext(), fs, "arg", 1, ResolveOnce, s);
    var rest := NormalizeFields(ExampleContext(), [], "arg", 3, ResolveOnce, head.state);
    assert rest == Run(Ok([]), head.state);
    assert head.result.value + rest.result.value == head.result.value;
  }

  // ------------------------------------------------ revisiting a method

  /** A state grows into itself. */
  lemma GrowsReflexive(s: RState)
    ensures Grows(s, s)
  {
  }

  /*
   * The replay argument is made once for an expansion whose resolver, and
   * once for a normalisation whose field expander, is a parameter: the
   * argument needs only that the parameter keeps states good and replays,
   * so it never looks inside a resolution.
   */

  /** Expanding again on an `ok` state at or after the first expansion's result gives the same entries and changes nothing. */
  lemma {:induction false} ExpandWithReplay(res: Resolver, ok: RState -> bool, le: (RState, RState) -> bool,
                                            t: TypeExpr, prefix: string, index: nat, count: nat, s: RState, s2: RState)
    requires ResolverKeeps(res, ok, le) && ResolverReplays(res, ok, le) && Preorder(le)
    requires ok(s) && ok(s2) && le(ExpandWith(res, t, prefix, index, count, s).state, s2)
    ensures ExpandWith(res, t, prefix, index, count, s2) == Run(ExpandWith(res, t, prefix, index, count, s).result, s2)
    decreases count
  {
    if count > 0 {
      var rt := res(t, s);
      if rt.result.Ok? {
        var node := NodeAfter(t, rt.result.value);
        var rest := ExpandWith(res, node, prefix, index + 1, count - 1, rt.state);
        ExpandWithUnfold(res, t, prefix, index, count, s, rt, rest);
        ExpandWithGrows(res, ok, le, node, prefix, index + 1, count - 1, rt.state);
        assert le(rt.state, s2);
        assert res(t, s2) == Run(rt.result, s2);
        ExpandWithReplay(res, ok, le, node, prefix, index + 1, count - 1, rt.state, s2);
        ExpandWithUnfold(res, t, prefix, index, count, s2, Run(rt.result, s2), Run(rest.result, s2));
      }
    }
  }

  /**
   * Expanding a field again, on any good state that grew from the first
   * expansion's result, gives the same entries and changes nothing.
   */
  lemma ExpandSharedReplay(c: LocatorContext, t: TypeExpr, prefix: string, index: nat, count: nat,
                           s: RState, s2: RState)
    requires Good(s) && Good(s2) && Grows(ExpandShared(c, t, prefix, index, count, s).state, s2)
    ensures ExpandShared(c, t, prefix, index, count, s2) == Run(ExpandShared(c, t, prefix, index, count, s).result, s2)
  {
    TypeResolverKeeps(c);
    TypeResolverReplays(c);
    GrowsIsPreorder();
    ExpandWithReplay(TypeResolver(c), Good, Grows, t, prefix, index, count, s, s2);
  }

  lemma ExpandFieldReplay(c: LocatorContext, t: TypeExpr, prefix: string, index: nat, count: nat,
                          sharing: Sharing, s: RState, s2: RState)
    requires Good(s) && Good(s2) && Grows(ExpandField(c, t, prefix, index, count, sharing, s).state, s2)
    ensures ExpandField(c, t, prefix, index, count, sharing, s2)
         == Run(ExpandField(c, t, prefix, index, count, sharing, s).result, s2)
  {
    match sharing
    case SharedNode => ExpandSharedReplay(c, t, prefix, index, count, s, s2);
    case ResolveOnce => if count > 0 { ResolveTypeReplay(c, t, s, s2); }
  }

  lemma {:induction false} NormalizeWithReplay(exp: Expander, ok: RState -> bool, le: (RState, RState) -> bool,
                                               fs: seq<Field>, prefix: string, index: nat, s: RState, s2: RState)
    requires ExpanderKeeps(exp, ok, le) && ExpanderReplays(exp, ok, le) && Preorder(le)
    requires ok(s) && ok(s2) && le(NormalizeWith(exp, fs, prefix, index, s).state, s2)
    ensures NormalizeWith(exp, fs, prefix, index, s2) == Run(NormalizeWith(exp, fs, prefix, index, s).result, s2)
    decreases |fs|
  {
    if |fs| > 0 {
      var head := exp(fs[0].typ, prefix, index, ReuseCount(fs[0]), s);
      if head.result.Ok? {
        var rest := NormalizeWith(exp, fs[1..], prefix, index + ReuseCount(fs[0]), head.state);
        NormalizeWithGrows(exp, ok, le, fs[1..], prefix, index + ReuseCount(fs[0]), head.state);
        assert le(head.state, s2);
        NormalizeWithReplay(exp, ok, le, fs[1..], prefix, index + ReuseCount(fs[0]), head.state, s2);
      }
    }
  }

  /** The field expander replays, by `ExpandFieldReplay`. */
  lemma FieldExpanderReplays(c: LocatorContext, sharing: Sharing)
    ensures ExpanderReplays(FieldExpander(c, sharing), Good, Grows)
  {
    forall t: TypeExpr, prefix: string, index: nat, count: nat, s: RState, s2: RState |
      Good(s) && Good(s2) && Grows(FieldExpander(c, sharing)(t, prefix, index, count, s).state, s2)
      ensures FieldExpander(c, sharing)(t, prefix, index, count, s2)
           == Run(FieldExpander(c, sharing)(t, prefix, index, count, s).result, s2)
    {
      ExpandFieldReplay(c, t, prefix, index, count, sharing, s, s2);
    }
  }

  /** Normalising a field list again on a grown good state gives the same entries and changes nothing. */
  lemma NormalizeFieldsReplay(c: LocatorContext, fs: seq<Field>, prefix: string, index: nat,
                              sharing: Sharing, s: RState, s2: RState)
    requires Good(s) && Good(s2) && Grows(NormalizeFields(c, fs, prefix, index, sharing, s).state, s2)
    ensures NormalizeFields(c, fs, prefix, index, sharing, s2)
         == Run(NormalizeFields(c, fs, prefix, index, sharing, s).result, s2)
  {
    FieldExpanderFacts(c, sharing);
    FieldExpanderReplays(c, sharing);
    GrowsIsPreorder();
    NormalizeWithReplay(FieldExpander(c, sharing), Good, Grows, fs, prefix, index, s, s2);
  }

  /**
   * Processing a method again, from the original declaration, on any good
   * state that grew from the first run gives the same method (or the same
   * error): nothing the first run did can change what the method means.
   */
  lemma ProcessMethodReplay(c: LocatorContext, name: string, ft: TypeExpr, sharing: Sharing, s: RState, s2: RState)
    requires ft.FuncType?
    requires Good(s) && Good(s2) && Grows(ProcessMethod(c, name, ft, sharing, s).state, s2)
    ensures ProcessMethod(c, name, ft, sharing, s2) == Run(ProcessMethod(c, name, ft, sharing, s).result, s2)
  {
    var ps := NormalizedParams(c, ft, sharing, s);
    if ps.result.Err? {
      NormalizeFieldsReplay(c, FieldsOf(ft.params), "arg", 1, sharing, s, s2);
    } else {
      var rs := NormalizedResults(c, ft, sharing, ps.state);
      GrowsTransitive(ps.state, rs.state, s2);
      NormalizeFieldsReplay(c, FieldsOf(ft.params), "arg", 1, sharing, s, s2);
      NormalizeFieldsReplay(c, FieldsOf(ft.results), "result", 1, sharing, ps.state, s2);
    }
  }

  /** The method `M(x *T)` as declared. */
  function PointerMethod(): TypeExpr
  {
    FuncType(List([Field(["x"], StarExpr(Ident("T")))]), NilList)
  }

  /** The same method after a first visit rewrote its pointer node in place. */
  function VisitedPointerMethod(): TypeExpr
  {
    FuncType(List([Field(["x"], NodeAfter(StarExpr(Ident("T")), StarExpr(Selector("alias1", "T"))))]), NilList)
  }

  /**
   * An interface reached twice through embedding, in the source: the first
   * visit yields `M(arg1 *alias1.T)`, the second sees the node the first
   * rewrote, `*alias1.T`, whose qualifier the declaring file does not know,
   * so that visit's copy fails; the first visit's copy stays.
   */
  lemma RevisitDropsMethod(s: RState, sharing: Sharing)
    requires ExampleStart(s)
    ensures ProcessMethod(ExampleContext(), "M", PointerMethod(), sharing, s).result.Ok?
    ensures ProcessMethod(ExampleContext(), "M", VisitedPointerMethod(), sharing,
                          ProcessMethod(ExampleContext(), "M", PointerMethod(), sharing, s).state).result
         == Err(TypeNotFound("T"))
  {
    FirstVisit(s, sharing);
    FirstResolution(s);
    SecondVisit(ProcessMethod(ExampleContext(), "M", PointerMethod(), sharing, s).state, sharing);
  }

  /** The first visit resolves the pointer and leaves the state that resolution left. */
  lemma FirstVisit(s: RState, sharing: Sharing)
    requires ExampleStart(s)
    ensures ProcessMethod(ExampleContext(), "M", PointerMethod(), sharing, s).result.Ok?
    ensures ProcessMethod(ExampleContext(), "M", PointerMethod(), sharing, s).state
         == ResolveType(ExampleContext(), StarExpr(Ident("T")), s).state
  {
    FirstParams(s, sharing);
  }

  lemma FirstParams(s: RState, sharing: Sharing)
    requires ExampleStart(s)
    ensures NormalizedParams(ExampleContext(), PointerMethod(), sharing, s).result.Ok?
    ensures NormalizedParams(ExampleContext(), PointerMethod(), sharing, s).state
         == ResolveType(ExampleContext(), StarExpr(Ident("T")), s).state
  {
    FirstResolution(s);
    NormalizeSingle(ExampleContext(), Field(["x"], StarExpr(Ident("T"))), "arg", 1, sharing, s);
  }

  /** A list of one single-named entry expands like that one entry resolved once, whatever the sharing. */
  lemma NormalizeSingle(c: LocatorContext, f: Field, prefix: string, index: nat, sharing: Sharing, s: RState)
    requires ReuseCount(f) == 1
    ensures NormalizeFields(c, [f], prefix, index, sharing, s) == ExpandOnce(c, f.typ, prefix, index, 1, s)
  {
    ExpandOneAgrees(c, f.typ, prefix, index, s);
    var head := ExpandField(c, f.typ, prefix, index, 1, sharing, s);
    NormalizeFieldsCons(c, [f], prefix, index, sharing, s);
    assert [f][1..] == [];
    if head.result.Ok? {
      var rest := NormalizeFields(c, [], prefix, index + 1, sharing, head.state);
      assert rest == Run(Ok([]), head.state);
      assert head.result.value + [] == head.result.value;
    }
  }

  /** The rewritten node names a qualifier the declaring file does not import, whatever the state. */
  lemma SecondVisit(s: RState, sharing: Sharing)
    requires Good(s)
    ensures ProcessMethod(ExampleContext(), "M", VisitedPointerMethod(), sharing, s).result == Err(TypeNotFound("T"))
  {
    ForeignQualifierFails(s);
  }

  /** In the model the second visit reads the declaration, and yields the first visit's method again. */
  lemma RevisitKeepsMethod(s: RState, sharing: Sharing)
    requires ExampleStart(s)
    ensures ProcessMethod(ExampleContext(), "M", PointerMethod(), sharing,
                          ProcessMethod(ExampleContext(), "M", PointerMethod(), sharing, s).state).result
         == ProcessMethod(ExampleContext(), "M", PointerMethod(), sharing, s).result
  {
    FirstResolution(s);
    var first := ProcessMethod(ExampleContext(), "M", PointerMethod(), sharing, s);
    GrowsReflexive(first.state);
    ProcessMethodReplay(ExampleContext(), "M", PointerMethod(), sharing, s, first.state);
  }
}

=== FILE: go_code.dfy ===
/**
 * The slice of Go's statement syntax the monitoring and stub builders
 * emit, together with a small static semantics: which identifiers an
 * expression reads, which names a statement declares, and whether a
 * block only reads names that are in scope where it reads them.
 */
module GoCode {
  import opened Ast

  /** Expressions. `Call`'s flag says whether the last argument is spread with `...`. */
  datatype Expr =
    | Id(name: string)
    | Sel(x: Expr, sel: string)
    | Call(fun: Expr, args: seq<Expr>, variadic: bool)
    | Lit(text: string)                          // a basic literal as written
    | NotNil(x: Expr)                            // x != nil
    | StructLit(fields: seq<Field>, elts: seq<Expr>)   // struct{<fields>}{<elts>}

  /** `:=` declares, `=` assigns. */
  datatype Tok = Define | Assign

  datatype Stmt =
    | AssignStmt(lhs: seq<Expr>, tok: Tok, rhs: seq<Expr>)
    | ExprStmt(x: Expr)
    | ReturnStmt(results: seq<Expr>)
    | EmptyStmt
    | VarDecl(name: string, typ: string)         // var <name> <typ>
    | IfStmt(init: Option<Stmt>, cond: Expr, body: seq<Stmt>, els: Else)
    | DeferStmt(call: Expr)

  /** An `if` without an `else` (a nil `Else` in the syntax tree), or with an else block. */
  datatype Else = NoElse | ElseBlock(stmts: seq<Stmt>)

  /** A method with a pointer receiver, as the method builders hand it to the file. */
  datatype MethodDecl = MethodDecl(
    recv: string, recvType: string, name: string,
    params: seq<Field>, results: seq<Field>, body: seq<Stmt>)

  /** Identifiers of the universe block the emitted code reads. */
  const Predeclared: set<string> := {"nil", "panic", "append"}

  /** The blank identifier: it may be assigned to, never read. */
  const Blank := "_"

  function Idents(names: seq<string>): (es: seq<Expr>)
    ensures |es| == |names|
    ensures forall i :: 0 <= i < |es| ==> es[i] == Id(names[i])
  {
    seq(|names|, i requires 0 <= i < |names| => Id(names[i]))
  }

  // ------------------------------------------------------------ reading

  /** The identifiers an expression reads; selectors read only their operand. */
  function ExprIds(e: Expr): set<string>
    decreases e
  {
    match e
    case Id(n) => {n}
    case Sel(x, _) => ExprIds(x)
    case Call(f, args, _) => ExprIds(f) + ListIds(args)
    case Lit(_) => {}
    case NotNil(x) => ExprIds(x)
    case StructLit(_, elts) => ListIds(elts)
  }

  function ListIds(es: seq<Expr>): set<string>
    decreases es
  {
    if |es| == 0 then {} else ExprIds(es[0]) + ListIds(es[1..])
  }

  lemma {:induction false} IdentsIds(names: seq<string>)
    ensures ListIds(Idents(names)) == set n | n in names
  {
    if |names| > 0 {
      assert Idents(names)[1..] == Idents(names[1..]);
      IdentsIds(names[1..]);
    }
  }

  /** The names a left-hand side of `:=` declares: its identifiers other than `_`. */
  function DeclaredBy(lhs: seq<Expr>): set<string>
  {
    set i | 0 <= i < |lhs| && lhs[i].Id? && lhs[i].name != Blank :: lhs[i].name
  }

  /** A one-element list reads what its element reads; a lone identifier declares itself. */
  lemma OneExpr(e: Expr)
    ensures ListIds([e]) == ExprIds(e)
    ensures e.Id? && e.name != Blank ==> DeclaredBy([e]) == {e.name}
  {
    assert [e][1..] == [];
    if e.Id? && e.name != Blank {
      assert [e][0].name == e.name;
    }
  }

  lemma TwoExprs(a: Expr, b: Expr)
    ensures ListIds([a, b]) == ExprIds(a) + ExprIds(b)
  {
    assert [a, b][1..] == [b];
    OneExpr(b);
  }

  /** The names a statement brings into the enclosing block's scope. */
  function StmtDefs(s: Stmt): set<string>
  {
    match s
    case AssignStmt(lhs, Define, _) => DeclaredBy(lhs)
    case VarDecl(n, _) => {n}
    case _ => {}
  }

  function BlockDefs(ss: seq<Stmt>): set<string>
  {
    if |ss| == 0 then {} else StmtDefs(ss[0]) + BlockDefs(ss[1..])
  }

  // ------------------------------------------------------------ scoping

  /**
   * A statement reads only names in `scope`, and declares only where Go
   * lets it: `:=` has identifiers on its left and at least one of them is
   * new, `var` does not redeclare. An `if`'s init declares into the `if`
   * alone.
   */
  predicate StmtOk(s: Stmt, scope: set<string>)
    decreases s
  {
    match s
    case AssignStmt(lhs, tok, rhs) =>
      ListIds(rhs) <= scope
      && (if tok == Define
          then (forall i :: 0 <= i < |lhs| ==> lhs[i].Id?) && DeclaredBy(lhs) - scope != {}
          else ListIds(lhs) - {Blank} <= scope)
    case ExprStmt(x) => ExprIds(x) <= scope
    case ReturnStmt(rs) => ListIds(rs) <= scope
    case EmptyStmt => true
    case VarDecl(n, _) => n !in scope
    case IfStmt(init, cond, body, els) =>
      var inner := scope + (if init.Some? then StmtDefs(init.value) else {});
      (init.Some? ==> StmtOk(init.value, scope))
      && ExprIds(cond) <= inner
      && BlockOk(body, inner)
      && (els.ElseBlock? ==> BlockOk(els.stmts, inner))
    case DeferStmt(c) => ExprIds(c) <= scope
  }

  /** Each statement is fine in the scope its predecessors leave behind. */
  predicate BlockOk(ss: seq<Stmt>, scope: set<string>)
    decreases ss
  {
    |ss| == 0 || (StmtOk(ss[0], scope) && BlockOk(ss[1..], scope + StmtDefs(ss[0])))
  }

  /** Blocks are checked piecewise: the second part in the scope the first leaves. */
  lemma {:induction false} BlockOkAppend(a: seq<Stmt>, b: seq<Stmt>, scope: set<string>)
    ensures BlockOk(a + b, scope) <==> BlockOk(a, scope) && BlockOk(b, scope + BlockDefs(a))
    decreases |a|
  {
    if |a| == 0 {
      assert a + b == b;
      assert scope + BlockDefs(a) == scope;
    } else {
      assert (a + b)[0] == a[0];
      assert (a + b)[1..] == a[1..] + b;
      BlockOkAppend(a[1..], b, scope + StmtDefs(a[0]));
      assert scope + StmtDefs(a[0]) + BlockDefs(a[1..]) == scope + BlockDefs(a);
    }
  }

  lemma {:induction false} BlockDefsAppend(a: seq<Stmt>, b: seq<Stmt>)
    ensures BlockDefs(a + b) == BlockDefs(a) + BlockDefs(b)
    decreases |a|
  {
    if |a| == 0 {
      assert a + b == b;
    } else {
      assert (a + b)[1..] == a[1..] + b;
      BlockDefsAppend(a[1..], b);
    }
  }

  /** Checking a block from position `k`: statement `k`, then the rest in the scope it leaves. */
  lemma Step(ss: seq<Stmt>, k: nat, scope: set<string>)
    requires k < |ss|
    ensures BlockOk(ss[k..], scope) <==> StmtOk(ss[k], scope) && BlockOk(ss[k + 1..], scope + StmtDefs(ss[k]))
  {
    assert ss[k..][0] == ss[k];
    assert ss[k..][1..] == ss[k + 1..];
  }

  /** A block headed by `s` is fine when `s` is and the rest is fine in the scope `s` leaves. */
  lemma Cons(s: Stmt, rest: seq<Stmt>, scope: set<string>)
    ensures BlockOk([s] + rest, scope) <==> StmtOk(s, scope) && BlockOk(rest, scope + StmtDefs(s))
  {
    assert ([s] + rest)[1..] == rest;
  }

  /** Two statements ahead of `rest`, each in the scope its predecessors leave. */
  lemma Chain2(x0: Stmt, x1: Stmt, rest: seq<Stmt>, s0: set<string>)
    requires StmtOk(x0, s0) && StmtOk(x1, s0 + StmtDefs(x0))
    requires BlockOk(rest, s0 + StmtDefs(x0) + StmtDefs(x1))
    ensures BlockOk([x0, x1] + rest, s0)
  {
    Cons(x1, rest, s0 + StmtDefs(x0));
    Cons(x0, [x1] + rest, s0);
    assert [x0] + ([x1] + rest) == [x0, x1] + rest;
  }

  /** Three statements ahead of `rest`, each in the scope its predecessors leave. */
  lemma Chain3(x0: Stmt, x1: Stmt, x2: Stmt, rest: seq<Stmt>, s0: set<string>)
    requires StmtOk(x0, s0) && StmtOk(x1, s0 + StmtDefs(x0))
    requires StmtOk(x2, s0 + StmtDefs(x0) + StmtDefs(x1))
    requires BlockOk(rest, s0 + StmtDefs(x0) + StmtDefs(x1) + StmtDefs(x2))
    ensures BlockOk([x0, x1, x2] + rest, s0)
  {
    Chain2(x1, x2, rest, s0 + StmtDefs(x0));
    Cons(x0, [x1, x2] + rest, s0);
    assert [x0] + ([x1, x2] + rest) == [x0, x1, x2] + rest;
  }

  /** A one-statement block is fine exactly when its statement is. */
  lemma Single(s: Stmt, scope: set<string>)
    ensures BlockOk([s], scope) <==> StmtOk(s, scope)
    ensures BlockDefs([s]) == StmtDefs(s)
  {
    assert [s][1..] == [];
  }

  /** Every name a field list declares. */
  function FieldNames(fs: seq<Field>): set<string>
  {
    set i, j | 0 <= i < |fs| && 0 <= j < |fs[i].names| :: fs[i].names[j]
  }

  /** The names in scope at the top of a method body. */
  function SignatureScope(d: MethodDecl): set<string>
  {
    {d.recv} + FieldNames(d.params) + FieldNames(d.results)
  }

  /**
   * The body reads only the receiver, the declared parameters and results,
   * the universe names and `outer` (the file's package aliases), each after
   * its declaration.
   */
  predicate WellScoped(d: MethodDecl, outer: set<string>)
  {
    BlockOk(d.body, outer + Predeclared + SignatureScope(d))
  }
}

=== FILE: gokit_builders.dfy ===
/**
 * The go-kit monitoring method of `mongen`, built the same way by the
 * library package and by the command's own copy: count the call under
 * the snake-cased operation name, start the clock, forward the call to
 * `next`, observe the duration, count a failure when the first `error`
 * result is not nil, and return the results.
 */
module GokitBuilders {
  import opened Ast
  import opened Walk
  import opened Snake
  import opened GoCode
  import opened Generate
  import opened CommonBuilders

  /** The struct fields holding the three metrics. */
  const TotalOps := "totalOps"
  const FailedOps := "failedOps"
  const OpsDuration := "opsDuration"

  /** The variable the duration record reads: a fixed name, not the recorder's. */
  const DurationStart := "_start"

  /** The label value every metric statement carries: the quoted snake-cased method name. */
  function OperationLabel(name: string): string
  {
    "\"" + ToSnakeCase(name) + "\""
  }

  /** `m.<field>.With("operation", "<op>")`. */
  function WithOperation(field: string, name: string): (e: Expr)
    ensures ExprIds(e) == {Receiver}
  {
    TwoExprs(Lit("\"operation\""), Lit(OperationLabel(name)));
    Call(Sel(Member(field), "With"), [Lit("\"operation\""), Lit(OperationLabel(name))], false)
  }

  /**
   * The operation label of a metric call `<x>.With("operation", <v>).<f>(...)`,
   * if the expression is one.
   */
  function LabelOf(e: Expr): Option<string>
  {
    match e
    case Call(Sel(Call(Sel(_, "With"), args, _), _), _, _) =>
      if |args| == 2 && args[0] == Lit("\"operation\"") && args[1].Lit? then Some(args[1].text) else None
    case _ => None
  }

  /** `CounterAddAction.Build`: `m.<field>.With("operation", "<op>").Add(1)`. */
  function CounterAdd(field: string, name: string): (s: Stmt)
    ensures s.ExprStmt? && ExprIds(s.x) == {Receiver} && StmtDefs(s) == {}
    ensures LabelOf(s.x) == Some(OperationLabel(name))
  {
    OneExpr(Lit("1"));
    ExprStmt(Call(Sel(WithOperation(field, name), "Add"), [Lit("1")], false))
  }

  /**
   * `RecordOpDuration.Build`:
   * `m.opsDuration.With("operation", "<op>").Observe(<time>.Since(_start).Seconds())`,
   * reading the fixed start variable.
   */
  function RecordOpDuration(timeAlias: string, name: string): (s: Stmt)
    ensures s.ExprStmt? && StmtDefs(s) == {}
    ensures ExprIds(s.x) == {Receiver, timeAlias, DurationStart}
    ensures LabelOf(s.x) == Some(OperationLabel(name))
  {
    var since := Call(Sel(Id(timeAlias), "Since"), [Id(DurationStart)], false);
    var seconds := Call(Sel(since, "Seconds"), [], false);
    OneExpr(Id(DurationStart));
    OneExpr(seconds);
    assert ListIds([]) == {};
    assert ExprIds(Sel(Id(timeAlias), "Since")) == {timeAlias};
    assert ExprIds(since) == {timeAlias, DurationStart};
    assert ExprIds(seconds) == ExprIds(since);
    ExprStmt(Call(Sel(WithOperation(OpsDuration, name), "Observe"), [seconds], false))
  }

  /**
   * `IncreaseFailedOps.Build`: nothing when no result is an `error`;
   * otherwise `if <first error result> != nil { <count failedOps> }`.
   */
  function IncreaseFailedOps(m: MethodConfig): (s: Stmt)
    requires Named(m.results)
    ensures s.EmptyStmt? <==> FirstErrorIndex(m.results).None?
    ensures s.IfStmt? ==>
      s.init.None? && s.els == NoElse
      && s.cond == NotNil(Id(m.results[FirstErrorIndex(m.results).value].names[0]))
      && s.body == [CounterAdd(FailedOps, m.name)]
    ensures StmtDefs(s) == {}
  {
    match ErrorResultName(m.results)
    case None => EmptyStmt
    case Some(n) => IfStmt(None, NotNil(Id(n)), [CounterAdd(FailedOps, m.name)], NoElse)
  }

  /** The statements of the method, in the order `Build` adds them. */
  function Body(timeAlias: string, m: MethodConfig): (ss: seq<Stmt>)
    requires Named(m.params) && Named(m.results)
    ensures |ss| == 6
  {
    [CounterAdd(TotalOps, m.name), StartTimeRecorder(timeAlias, ""), PlainInvocation(m, Member("next"))]
    + [RecordOpDuration(timeAlias, m.name), IncreaseFailedOps(m), ReturnResults(m)]
  }

  /**
   * `monitoringMethodBuilder.Build` and `MonitoringMethodBuilder.Build`:
   * parameters as given, results anonymised, six statements.
   */
  function BuildMethod(structName: string, timeAlias: string, m: MethodConfig): (d: MethodDecl)
    requires Named(m.params) && Named(m.results)
    ensures d.recv == Receiver && d.recvType == structName && d.name == m.name && d.params == m.params
    ensures d.results == FieldsAsAnonymous(m.results)
    ensures FieldNames(d.results) == {}
    ensures |d.body| == 6
  {
    AnonymousDeclaresNothing(m.results);
    MethodDecl(Receiver, structName, m.name, m.params, FieldsAsAnonymous(m.results), Body(timeAlias, m))
  }

  // --------------------------------------------------------- properties

  /** The total count, the duration and the failure count all carry the same operation label. */
  lemma {:induction false} MetricsLabelled(structName: string, timeAlias: string, m: MethodConfig)
    requires Named(m.params) && Named(m.results)
    ensures var b := BuildMethod(structName, timeAlias, m).body;
      b[0].ExprStmt? && LabelOf(b[0].x) == Some(OperationLabel(m.name))
      && b[3].ExprStmt? && LabelOf(b[3].x) == Some(OperationLabel(m.name))
      && (b[4].IfStmt? ==> |b[4].body| == 1 && b[4].body[0].ExprStmt?
                           && LabelOf(b[4].body[0].x) == Some(OperationLabel(m.name)))
  {
  }

  /**
   * The duration is measured from the variable the start recorder
   * declares: the recorder, given no name, falls back to exactly the name
   * the duration record reads.
   */
  lemma {:induction false} DurationReadsRecordedStart(structName: string, timeAlias: string, m: MethodConfig)
    requires Named(m.params) && Named(m.results)
    ensures var b := BuildMethod(structName, timeAlias, m).body;
      StmtDefs(b[1]) == {DurationStart} && DurationStart in ExprIds(b[3].x)
  {
  }

  /** The failure test reads the first error result, which the forwarded call declares. */
  lemma {:induction false} FailureReadsDeclared(m: MethodConfig)
    requires Named(m.params) && Named(m.results)
    requires forall n :: n in FirstNames(m.results) ==> n != Blank
    ensures var failure := IncreaseFailedOps(m);
      (failure.IfStmt? <==> exists i :: 0 <= i < |m.results| && IsErrorType(m.results[i].typ))
      && (failure.IfStmt? ==> failure.cond.x.Id?
                              && failure.cond.x.name in StmtDefs(PlainInvocation(m, Member("next"))))
  {
    var call, failure := PlainInvocation(m, Member("next")), IncreaseFailedOps(m);
    if failure.IfStmt? {
      var k := FirstErrorIndex(m.results).value;
      var n := FirstNames(m.results)[k];
      assert failure.cond.x == Id(n);
      assert call.lhs[k] == Id(n);
    }
  }

  /**
   * A failure is counted exactly when some result is an `error`, and the
   * test reads the first such result, which the forwarded call declares.
   */
  lemma {:induction false} FailureTestsFirstError(structName: string, timeAlias: string, m: MethodConfig)
    requires Named(m.params) && Named(m.results)
    requires forall n :: n in FirstNames(m.results) ==> n != Blank
    ensures var b := BuildMethod(structName, timeAlias, m).body;
      (b[4].IfStmt? <==> exists i :: 0 <= i < |m.results| && IsErrorType(m.results[i].typ))
      && (b[4].IfStmt? ==> b[4].cond.x.Id? && b[4].cond.x.name in StmtDefs(b[2]))
  {
    FailureReadsDeclared(m);
  }

  /** Like the command's OpenCensus method, the go-kit method never spreads a variadic call. */
  lemma {:induction false} ForwardsVariadicCall(structName: string, timeAlias: string, m: MethodConfig)
    requires Named(m.params) && Named(m.results)
    ensures ForwardsVariadic(CallOf(BuildMethod(structName, timeAlias, m).body[2]), m.params)
            <==> !LastEllipsis(m.params)
  {
    PlainInvocationForwardsVariadic(m, Member("next"));
  }

  // ------------------------------------------------------------ scoping

  /** What the body may take for granted about the scope `s` it starts in. */
  predicate BodyFacts(timeAlias: string, m: MethodConfig, s: set<string>)
    requires Named(m.params) && Named(m.results)
  {
    timeAlias in s && Receiver in s && DurationStart !in s
    && NameSet(FirstNames(m.params)) <= s
    && (forall n :: n in FirstNames(m.results) ==> n != Blank && n !in s && n != DurationStart)
  }

  lemma CounterAddOk(field: string, name: string, scope: set<string>)
    requires Receiver in scope
    ensures StmtOk(CounterAdd(field, name), scope)
  {
  }

  lemma IncreaseFailedOpsOk(m: MethodConfig, scope: set<string>)
    requires Named(m.results) && Receiver in scope
    requires NameSet(FirstNames(m.results)) <= scope
    ensures StmtOk(IncreaseFailedOps(m), scope)
  {
    var s := IncreaseFailedOps(m);
    if s.IfStmt? {
      Single(CounterAdd(FailedOps, m.name), scope);
    }
  }

  /**
   * The body declares `_start` and then the results, and reads each name
   * only after its declaration.
   */
  lemma {:induction false} BodyOk(timeAlias: string, m: MethodConfig, s: set<string>)
    requires Named(m.params) && Named(m.results) && BodyFacts(timeAlias, m, s)
    ensures BlockOk(Body(timeAlias, m), s)
  {
    var x0, x1 := CounterAdd(TotalOps, m.name), StartTimeRecorder(timeAlias, "");
    var x2, x3 := PlainInvocation(m, Member("next")), RecordOpDuration(timeAlias, m.name);
    var x4, x5 := IncreaseFailedOps(m), ReturnResults(m);
    var s1 := s + StmtDefs(x0);
    var s2 := s1 + StmtDefs(x1);
    var s3 := s2 + StmtDefs(x2);
    var s4 := s3 + StmtDefs(x3);
    var s5 := s4 + StmtDefs(x4);
    CounterAddOk(TotalOps, m.name, s);
    StartTimeOk(timeAlias, "", s1);
    InvocationOk(m, Member("next"), false, s2);
    assert StmtOk(x3, s3);
    IncreaseFailedOpsOk(m, s4);
    ReturnResultsOk(m, s5);
    Chain3(x3, x4, x5, [], s3);
    Chain3(x0, x1, x2, [x3, x4, x5] + [], s);
    assert [x3, x4, x5] + [] == [x3, x4, x5];
  }

  /**
   * The body facts hold in the scope of the time alias, the universe, the
   * receiver and parameters `ps` that all start with `a`, when the results
   * start with `r` and the alias is neither `_start` nor a result name.
   */
  lemma {:induction false} FactsFrom(timeAlias: string, m: MethodConfig, ps: set<string>)
    requires Named(m.params) && Named(m.results)
    requires NameSet(FirstNames(m.params)) <= ps
    requires forall n :: n in ps ==> |n| > 0 && n[0] == 'a'
    requires forall n :: n in FirstNames(m.results) ==> |n| > 0 && n[0] == 'r' && n != Blank && n != timeAlias
    requires timeAlias != DurationStart
    ensures BodyFacts(timeAlias, m, {timeAlias} + Predeclared + ({Receiver} + ps))
  {
    var s := {timeAlias} + Predeclared + ({Receiver} + ps);
    assert "nil"[0] == 'n' && "panic"[0] == 'p' && "append"[0] == 'a' && Receiver[0] == 'm';
    assert DurationStart[0] == '_';
    assert DurationStart !in ps;
    forall n | n in FirstNames(m.results) ensures n != Blank && n !in s && n != DurationStart {
      assert n !in ps;
    }
  }

  /** The body facts hold at the top of the method for a normalised method. */
  lemma {:induction false} TopFacts(timeAlias: string, m: MethodConfig, d: MethodDecl)
    requires Normalised(m)
    requires timeAlias != DurationStart && timeAlias !in FieldNames(m.results)
    requires d.recv == Receiver && d.params == m.params && FieldNames(d.results) == {}
    ensures Named(m.params) && Named(m.results)
    ensures BodyFacts(timeAlias, m, {timeAlias} + Predeclared + SignatureScope(d))
  {
    NormalisedNames(m);
    NumberedNamed(m.results, "result", 1);
    assert SignatureScope(d) == {Receiver} + FieldNames(m.params);
    forall n | n in FirstNames(m.results) ensures n != timeAlias {
      assert n in FieldNames(m.results);
    }
    FactsFrom(timeAlias, m, FieldNames(m.params));
  }

  /**
   * Every name the go-kit method reads is declared before it is read and
   * every `:=` declares something new: `_start`, then the results, which
   * the anonymised signature leaves undeclared.
   */
  lemma {:induction false} BuildMethodWellScoped(structName: string, timeAlias: string, m: MethodConfig)
    requires Normalised(m)
    requires timeAlias != DurationStart && timeAlias !in FieldNames(m.results)
    ensures Named(m.params) && Named(m.results)
    ensures WellScoped(BuildMethod(structName, timeAlias, m), {timeAlias})
  {
    NormalisedNames(m);
    var d := BuildMethod(structName, timeAlias, m);
    TopFacts(timeAlias, m, d);
    BodyOk(timeAlias, m, {timeAlias} + Predeclared + SignatureScope(d));
  }
}

=== FILE: gostub_string.dfy ===
/**
 * The stub generator's own name helpers: snake case by four regular
 * expression replacements followed by lower-casing, and the lower-casing
 * of a name's first character. Each `ReplaceAllString` pass is modelled as
 * a left-to-right scan that rewrites the leftmost match and resumes after
 * it, which is how non-overlapping leftmost matches of these fixed-width
 * (or, for the first pattern, greedy) expressions are found. Character
 * classes are ASCII.
 */
module GostubString {
  import opened Text

  // ------------------------------------------------------------ passes

  /** End of the run of lower-case letters starting at `k`. */
  function LowerRunEnd(s: string, k: nat): (e: nat)
    requires k <= |s|
    ensures k <= e <= |s|
    ensures forall j :: k <= j < e ==> IsLower(s[j])
    ensures e < |s| ==> !IsLower(s[e])
    decreases |s| - k
  {
    if k < |s| && IsLower(s[k]) then LowerRunEnd(s, k + 1) else k
  }

  /**
   * `(.)([A-Z][a-z]+)` replaced by `${1}_${2}`: any rune but a newline,
   * followed by a capitalised word, gets an underscore before the word.
   */
  function SplitWords(s: string): string
    decreases |s|
  {
    if |s| < 3 then s
    else if s[0] != '\n' && IsUpper(s[1]) && IsLower(s[2]) then
      var e := LowerRunEnd(s, 3);
      [s[0], '_'] + s[1..e] + SplitWords(s[e..])
    else [s[0]] + SplitWords(s[1..])
  }

  /** The three two-rune patterns, each replaced by its runes with an underscore between. */
  datatype PairRule =
    | LetterDigit   // ([a-zA-Z])([0-9])
    | DigitLetter   // ([0-9])([a-zA-Z])
    | LowerUpper    // ([a-z])([A-Z])

  predicate PairMatch(rule: PairRule, a: char, b: char)
  {
    match rule
    case LetterDigit => IsLetter(a) && IsDigit(b)
    case DigitLetter => IsDigit(a) && IsLetter(b)
    case LowerUpper => IsLower(a) && IsUpper(b)
  }

  function ReplacePairs(rule: PairRule, s: string): string
    decreases |s|
  {
    if |s| < 2 then s
    else if PairMatch(rule, s[0], s[1]) then [s[0], '_', s[1]] + ReplacePairs(rule, s[2..])
    else [s[0]] + ReplacePairs(rule, s[1..])
  }

  // ------------------------------------------------- underscores only

  /** `s` with every underscore removed. */
  function Unscored(s: string): (r: string)
    ensures |r| <= |s|
  {
    if |s| == 0 then ""
    else (if s[0] == '_' then "" else [s[0]]) + Unscored(s[1..])
  }

  lemma {:induction false} UnscoredAppend(a: string, b: string)
    ensures Unscored(a + b) == Unscored(a) + Unscored(b)
  {
    if |a| > 0 {
      assert (a + b)[0] == a[0];
      assert (a + b)[1..] == a[1..] + b;
      UnscoredAppend(a[1..], b);
    } else {
      assert a + b == b;
    }
  }

  lemma {:induction false} UnscoredLower(s: string)
    ensures Unscored(LowerStr(s)) == LowerStr(Unscored(s))
  {
    if |s| > 0 {
      UnscoredLower(s[1..]);
      assert LowerStr(s)[1..] == LowerStr(s[1..]);
      var rest := Unscored(s[1..]);
      if s[0] != '_' {
        assert LowerStr([s[0]] + rest) == [Lower(s[0])] + LowerStr(rest);
      }
    }
  }

  /** The word pass only inserts underscores. */
  lemma {:induction false} SplitWordsOnlyInserts(s: string)
    ensures Unscored(SplitWords(s)) == Unscored(s)
    decreases |s|
  {
    if |s| >= 3 {
      if s[0] != '\n' && IsUpper(s[1]) && IsLower(s[2]) {
        var e := LowerRunEnd(s, 3);
        SplitWordsOnlyInserts(s[e..]);
        assert [s[0]] + s[1..e] + s[e..] == s;
        InsertedBeforeWord(s[0], s[1..e], s[e..], SplitWords(s[e..]));
      } else {
        SplitWordsOnlyInserts(s[1..]);
        UnscoredAppend([s[0]], SplitWords(s[1..]));
        UnscoredAppend([s[0]], s[1..]);
        assert [s[0]] + s[1..] == s;
      }
    }
  }

  /** An underscore put after the first rune, with the tail replaced by one of the same letters, loses nothing. */
  lemma {:induction false} InsertedBeforeWord(a: char, word: string, tail: string, tail2: string)
    requires Unscored(tail2) == Unscored(tail)
    ensures Unscored([a, '_'] + word + tail2) == Unscored([a] + word + tail)
  {
    UnscoredAppend([a, '_'] + word, tail2);
    UnscoredAppend([a, '_'], word);
    UnscoredAppend([a], word);
    UnscoredAppend([a] + word, tail);
    assert Unscored([a, '_']) == Unscored([a]) by {
      assert [a, '_'][1..] == ['_'];
      assert Unscored(['_']) == "" by { assert ['_'][1..] == []; }
    }
  }

  /** Each pair pass only inserts underscores. */
  lemma {:induction false} ReplacePairsOnlyInserts(rule: PairRule, s: string)
    ensures Unscored(ReplacePairs(rule, s)) == Unscored(s)
    decreases |s|
  {
    if |s| >= 2 {
      if PairMatch(rule, s[0], s[1]) {
        ReplacePairsOnlyInserts(rule, s[2..]);
        UnscoredAppend([s[0], '_', s[1]], ReplacePairs(rule, s[2..]));
        UnscoredAppend([s[0], s[1]], s[2..]);
        assert [s[0], s[1]] + s[2..] == s;
        assert Unscored([s[0], '_', s[1]]) == Unscored([s[0], s[1]]);
      } else {
        ReplacePairsOnlyInserts(rule, s[1..]);
        UnscoredAppend([s[0]], ReplacePairs(rule, s[1..]));
        UnscoredAppend([s[0]], s[1..]);
        assert [s[0]] + s[1..] == s;
      }
    }
  }

  // ------------------------------------------------------- unchanged text

  /** No capital letter and no digit: nothing any pass can match. */
  predicate Plain(s: string)
  {
    forall i :: 0 <= i < |s| ==> !IsUpper(s[i]) && !IsDigit(s[i])
  }

  lemma {:induction false} SplitWordsPlain(s: string)
    requires Plain(s)
    ensures SplitWords(s) == s
    decreases |s|
  {
    if |s| >= 3 {
      SplitWordsPlain(s[1..]);
      assert [s[0]] + s[1..] == s;
    }
  }

  lemma {:induction false} ReplacePairsPlain(rule: PairRule, s: string)
    requires Plain(s)
    ensures ReplacePairs(rule, s) == s
    decreases |s|
  {
    if |s| >= 2 {
      ReplacePairsPlain(rule, s[1..]);
      assert [s[0]] + s[1..] == s;
    }
  }

  // ------------------------------------------------------------ snake case

  /**
   * Snake case: lower case throughout, and the same text as the input
   * once underscores are ignored and letters lowered; only underscores
   * are ever added.
   */
  function SnakeCase(text: string): (r: string)
    ensures NoUpper(r)
    ensures Unscored(r) == LowerStr(Unscored(text))
    ensures r == LowerStr(Marked(text))
  {
    var c := Marked(text);
    UnscoredLower(c);
    LowerStr(c)
  }

  /**
   * The four passes before lower-casing. Only underscores were added, and
   * no two neighbours are left that any pair pattern would match: every
   * letter/digit boundary and every lower/upper boundary of the input is
   * separated by an underscore.
   */
  function Marked(text: string): (c: string)
    ensures Unscored(c) == Unscored(text)
    ensures NoAdjacent(LetterDigit, c) && NoAdjacent(DigitLetter, c) && NoAdjacent(LowerUpper, c)
  {
    var words := SplitWords(text);
    var a := ReplacePairs(LetterDigit, words);
    var b := ReplacePairs(DigitLetter, a);
    var c := ReplacePairs(LowerUpper, b);
    SplitWordsOnlyInserts(text);
    ReplacePairsOnlyInserts(LetterDigit, words);
    ReplacePairsOnlyInserts(DigitLetter, a);
    ReplacePairsOnlyInserts(LowerUpper, b);
    ReplacePairsSeparates(LetterDigit, words);
    ReplacePairsKeepsSeparation(DigitLetter, LetterDigit, a);
    ReplacePairsKeepsSeparation(LowerUpper, LetterDigit, b);
    ReplacePairsSeparates(DigitLetter, a);
    ReplacePairsKeepsSeparation(LowerUpper, DigitLetter, b);
    ReplacePairsSeparates(LowerUpper, b);
    c
  }

  // ------------------------------------------------------------ separation

  /** No two neighbouring runes of `s` match the rule's pattern. */
  predicate NoAdjacent(rule: PairRule, s: string)
  {
    forall i :: 0 <= i < |s| - 1 ==> !PairMatch(rule, s[i], s[i + 1])
  }

  /** A pass keeps the first rune in front. */
  lemma ReplacePairsFirst(rule: PairRule, s: string)
    requires |s| > 0
    ensures |ReplacePairs(rule, s)| > 0 && ReplacePairs(rule, s)[0] == s[0]
  {
  }

  /** The second rune of a match never starts another match of the same rule. */
  lemma MatchesDoNotChain(rule: PairRule, a: char, b: char, c: char)
    requires PairMatch(rule, a, b)
    ensures !PairMatch(rule, b, c)
  {
  }

  /** After a pass, no neighbours match its pattern: every match got its underscore. */
  lemma {:induction false} ReplacePairsSeparates(rule: PairRule, s: string)
    ensures NoAdjacent(rule, ReplacePairs(rule, s))
    decreases |s|
  {
    if |s| >= 2 {
      if PairMatch(rule, s[0], s[1]) {
        var t := ReplacePairs(rule, s[2..]);
        ReplacePairsSeparates(rule, s[2..]);
        var r := [s[0], '_', s[1]] + t;
        forall i | 0 <= i < |r| - 1 ensures !PairMatch(rule, r[i], r[i + 1]) {
          if i == 2 {
            ReplacePairsFirst(rule, s[2..]);
            MatchesDoNotChain(rule, s[0], s[1], s[2]);
          } else if i > 2 {
            assert r[i] == t[i - 3] && r[i + 1] == t[i - 2];
          }
        }
      } else {
        var t := ReplacePairs(rule, s[1..]);
        ReplacePairsSeparates(rule, s[1..]);
        var r := [s[0]] + t;
        forall i | 0 <= i < |r| - 1 ensures !PairMatch(rule, r[i], r[i + 1]) {
          if i == 0 {
            ReplacePairsFirst(rule, s[1..]);
          } else {
            assert r[i] == t[i - 1] && r[i + 1] == t[i];
          }
        }
      }
    }
  }

  /** A pass only puts underscores between runes, so it never brings two runes together. */
  lemma {:induction false} ReplacePairsKeepsSeparation(rule: PairRule, other: PairRule, s: string)
    requires NoAdjacent(other, s)
    ensures NoAdjacent(other, ReplacePairs(rule, s))
    decreases |s|
  {
    if |s| >= 2 {
      if PairMatch(rule, s[0], s[1]) {
        var t := ReplacePairs(rule, s[2..]);
        assert NoAdjacent(other, s[2..]) by {
          forall i | 0 <= i < |s[2..]| - 1 ensures !PairMatch(other, s[2..][i], s[2..][i + 1]) {
            assert s[2..][i] == s[i + 2] && s[2..][i + 1] == s[i + 3];
          }
        }
        ReplacePairsKeepsSeparation(rule, other, s[2..]);
        var r := [s[0], '_', s[1]] + t;
        forall i | 0 <= i < |r| - 1 ensures !PairMatch(other, r[i], r[i + 1]) {
          if i == 2 {
            ReplacePairsFirst(rule, s[2..]);
            assert r[3] == s[2];
          } else if i > 2 {
            assert r[i] == t[i - 3] && r[i + 1] == t[i - 2];
          }
        }
      } else {
        var t := ReplacePairs(rule, s[1..]);
        assert NoAdjacent(other, s[1..]) by {
          forall i | 0 <= i < |s[1..]| - 1 ensures !PairMatch(other, s[1..][i], s[1..][i + 1]) {
            assert s[1..][i] == s[i + 1] && s[1..][i + 1] == s[i + 2];
          }
        }
        ReplacePairsKeepsSeparation(rule, other, s[1..]);
        var r := [s[0]] + t;
        forall i | 0 <= i < |r| - 1 ensures !PairMatch(other, r[i], r[i + 1]) {
          if i == 0 {
            ReplacePairsFirst(rule, s[1..]);
          } else {
            assert r[i] == t[i - 1] && r[i + 1] == t[i];
          }
        }
      }
    }
  }

  /** Text that is already lower snake case without digits comes back unchanged. */
  lemma PlainUnchanged(text: string)
    requires Plain(text)
    ensures SnakeCase(text) == text
  {
    SplitWordsPlain(text);
    ReplacePairsPlain(LetterDigit, text);
    ReplacePairsPlain(DigitLetter, text);
    ReplacePairsPlain(LowerUpper, text);
    LowerPlain(text);
  }

  lemma {:induction false} LowerPlain(s: string)
    requires Plain(s)
    ensures LowerStr(s) == s
  {
  }

  lemma {:induction false} NoDigitNoPairs(rule: PairRule, s: string)
    requires rule != LowerUpper
    requires forall i :: 0 <= i < |s| ==> !IsDigit(s[i])
    ensures ReplacePairs(rule, s) == s
    decreases |s|
  {
    if |s| >= 2 {
      NoDigitNoPairs(rule, s[1..]);
      assert [s[0]] + s[1..] == s;
    }
  }

  lemma {:induction false} NoLowerUpperPairs(s: string)
    requires forall i :: 0 <= i < |s| - 1 ==> !(IsLower(s[i]) && IsUpper(s[i + 1]))
    ensures ReplacePairs(LowerUpper, s) == s
    decreases |s|
  {
    if |s| >= 2 {
      NoLowerUpperPairs(s[1..]);
      assert [s[0]] + s[1..] == s;
    }
  }

  // ------------------------------------------------ where words split

  predicate AllUpper(s: string) { forall i :: 0 <= i < |s| ==> IsUpper(s[i]) }
  predicate AllLower(s: string) { forall i :: 0 <= i < |s| ==> IsLower(s[i]) }
  predicate AllDigits(s: string) { forall i :: 0 <= i < |s| ==> IsDigit(s[i]) }

  /** A run of letters all in one case: `HELLO` or `hello`. */
  predicate OneCase(s: string) { |s| > 0 && (AllUpper(s) || AllLower(s)) }

  /** A capitalised word: `World`. */
  predicate Capitalised(w: string) { |w| >= 2 && IsUpper(w[0]) && AllLower(w[1..]) }

  /** One step of the scan when the first two runes form a pair. */
  lemma ConsMatch(rule: PairRule, c: char, e: char, t: string)
    requires PairMatch(rule, c, e)
    ensures ReplacePairs(rule, [c, e] + t) == [c, '_', e] + ReplacePairs(rule, t)
  {
    assert ([c, e] + t)[2..] == t;
  }

  /** One step of the scan when the first two runes do not form a pair. */
  lemma ConsNoMatch(rule: PairRule, c: char, t: string)
    requires |t| > 0 && !PairMatch(rule, c, t[0])
    ensures ReplacePairs(rule, [c] + t) == [c] + ReplacePairs(rule, t)
  {
    assert ([c] + t)[1..] == t;
  }

  lemma {:induction false} LetterDigitSplit(u: string, d: string)
    requires |u| > 0 && |d| > 0 && AllDigits(d)
    requires forall i :: 0 <= i < |u| ==> IsLetter(u[i])
    ensures ReplacePairs(LetterDigit, u + d) == u + "_" + d
    decreases |u|
  {
    if |u| == 1 {
      assert ReplacePairs(LetterDigit, u + d) == [u[0], '_', d[0]] + ReplacePairs(LetterDigit, d[1..]) by {
        assert u + d == [u[0], d[0]] + d[1..];
        assert IsLetter(u[0]) && IsDigit(d[0]);
        ConsMatch(LetterDigit, u[0], d[0], d[1..]);
      }
      assert ReplacePairs(LetterDigit, d[1..]) == d[1..] by {
        NoLetterNoPairs(LetterDigit, d[1..]);
      }
      assert [u[0], '_', d[0]] + d[1..] == u + "_" + d;
    } else {
      assert ReplacePairs(LetterDigit, u + d) == [u[0]] + ReplacePairs(LetterDigit, u[1..] + d) by {
        assert u + d == [u[0]] + (u[1..] + d);
        assert (u[1..] + d)[0] == u[1] && IsLetter(u[1]);
        ConsNoMatch(LetterDigit, u[0], u[1..] + d);
      }
      assert ReplacePairs(LetterDigit, u[1..] + d) == u[1..] + "_" + d by {
        LetterDigitSplit(u[1..], d);
      }
      assert [u[0]] + (u[1..] + "_" + d) == u + "_" + d;
    }
  }

  /** A last digit followed by letters gets its underscore, and the letters are left alone. */
  lemma {:induction false} LastDigitSplit(c: char, l: string)
    requires IsDigit(c) && |l| > 0
    requires forall i :: 0 <= i < |l| ==> IsLetter(l[i])
    ensures ReplacePairs(DigitLetter, [c] + l) == [c] + "_" + l
  {
    assert ReplacePairs(DigitLetter, [c] + l) == [c, '_', l[0]] + ReplacePairs(DigitLetter, l[1..]) by {
      assert [c] + l == [c, l[0]] + l[1..];
      ConsMatch(DigitLetter, c, l[0], l[1..]);
    }
    assert ReplacePairs(DigitLetter, l[1..]) == l[1..] by {
      NoDigitNoPairs(DigitLetter, l[1..]);
    }
    assert [c, '_', l[0]] + l[1..] == [c] + "_" + l;
  }

  lemma {:induction false} DigitLetterSplit(d: string, l: string)
    requires |d| > 0 && |l| > 0 && AllDigits(d)
    requires forall i :: 0 <= i < |l| ==> IsLetter(l[i])
    ensures ReplacePairs(DigitLetter, d + l) == d + "_" + l
    decreases |d|
  {
    if |d| == 1 {
      assert IsDigit(d[0]) && d == [d[0]];
      LastDigitSplit(d[0], l);
    } else {
      assert ReplacePairs(DigitLetter, d + l) == [d[0]] + ReplacePairs(DigitLetter, d[1..] + l) by {
        assert d + l == [d[0]] + (d[1..] + l);
        assert (d[1..] + l)[0] == d[1] && IsDigit(d[1]);
        ConsNoMatch(DigitLetter, d[0], d[1..] + l);
      }
      assert ReplacePairs(DigitLetter, d[1..] + l) == d[1..] + "_" + l by {
        DigitLetterSplit(d[1..], l);
      }
      assert [d[0]] + (d[1..] + "_" + l) == d + "_" + l;
    }
  }

  lemma {:induction false} LowerUpperSplit(l: string, u: string)
    requires |l| > 0 && |u| > 0 && AllLower(l) && AllUpper(u)
    ensures ReplacePairs(LowerUpper, l + u) == l + "_" + u
    decreases |l|
  {
    if |l| == 1 {
      assert ReplacePairs(LowerUpper, l + u) == [l[0], '_', u[0]] + ReplacePairs(LowerUpper, u[1..]) by {
        assert l + u == [l[0], u[0]] + u[1..];
        assert IsLower(l[0]) && IsUpper(u[0]);
        ConsMatch(LowerUpper, l[0], u[0], u[1..]);
      }
      assert ReplacePairs(LowerUpper, u[1..]) == u[1..] by {
        NoLowerUpperPairs(u[1..]);
      }
      assert [l[0], '_', u[0]] + u[1..] == l + "_" + u;
    } else {
      assert ReplacePairs(LowerUpper, l + u) == [l[0]] + ReplacePairs(LowerUpper, l[1..] + u) by {
        assert l + u == [l[0]] + (l[1..] + u);
        assert (l[1..] + u)[0] == l[1] && IsLower(l[1]);
        ConsNoMatch(LowerUpper, l[0], l[1..] + u);
      }
      assert ReplacePairs(LowerUpper, l[1..] + u) == l[1..] + "_" + u by {
        LowerUpperSplit(l[1..], u);
      }
      assert [l[0]] + (l[1..] + "_" + u) == l + "_" + u;
    }
  }

  lemma {:induction false} CapitalWordSplit(u: string, w: string)
    requires |u| > 0 && AllUpper(u) && Capitalised(w)
    ensures SplitWords(u + w) == u + "_" + w
    decreases |u|
  {
    var s := u + w;
    if |u| == 1 {
      assert s[1..] == w && s[2..] == w[1..];
      assert LowerRunEnd(s, 3) == |s|;
      assert s[|s|..] == [];
      assert [s[0], '_'] + s[1..|s|] + [] == u + "_" + w;
    } else {
      assert s[1..] == u[1..] + w;
      assert !IsLower(s[2]);
      CapitalWordSplit(u[1..], w);
      assert [u[0]] + (u[1..] + "_" + w) == u + "_" + w;
    }
  }

  lemma LowerAround(x: string, y: string)
    ensures LowerStr(x + "_" + y) == LowerStr(x) + "_" + LowerStr(y)
  {
    LowerStrAppend(x + "_", y);
    LowerStrAppend(x, "_");
    assert LowerStr("_") == "_";
  }

  /** The four passes and the final lower-casing, one step at a time. */
  lemma Passes(text: string, words: string, a: string, b: string, c: string)
    requires SplitWords(text) == words && ReplacePairs(LetterDigit, words) == a
    requires ReplacePairs(DigitLetter, a) == b && ReplacePairs(LowerUpper, b) == c
    ensures SnakeCase(text) == LowerStr(c)
  {
  }

  /** Letters then digits: `HELLO1234` and `hello1234` become `hello_1234`. */
  lemma LettersThenDigits(u: string, d: string)
    requires OneCase(u) && |d| > 0 && AllDigits(d)
    ensures SnakeCase(u + d) == LowerStr(u) + "_" + d
  {
    var s := u + d;
    var a := u + "_" + d;
    assert SplitWords(s) == s by { SplitWordsNoLowerAfterUpper(s); }
    assert ReplacePairs(LetterDigit, s) == a by { LetterDigitSplit(u, d); }
    assert ReplacePairs(DigitLetter, a) == a by { NoDigitThenLetter(a); }
    assert ReplacePairs(LowerUpper, a) == a by { NoLowerUpperPairs(a); }
    Passes(s, s, a, a, a);
    assert LowerStr(a) == LowerStr(u) + "_" + d by {
      LowerAround(u, d);
      LowerPlainLetters(d);
    }
  }

  /** Digits then letters: `1234HELLO` and `1234hello` become `1234_hello`. */
  lemma DigitsThenLetters(d: string, l: string)
    requires |d| > 0 && AllDigits(d) && OneCase(l)
    ensures SnakeCase(d + l) == d + "_" + LowerStr(l)
  {
    var s := d + l;
    SplitWordsNoLowerAfterUpper(s);
    NoLetterThenDigit(s);
    DigitLetterSplit(d, l);
    var b := d + "_" + l;
    NoLowerUpperPairs(b);
    Passes(s, s, s, b, b);
    LowerAround(d, l);
    LowerPlainLetters(d);
  }

  /** Lower then upper: `helloWORLD` becomes `hello_world`. */
  lemma LowerThenUpper(l: string, u: string)
    requires |l| > 0 && AllLower(l) && |u| > 0 && AllUpper(u)
    ensures SnakeCase(l + u) == l + "_" + LowerStr(u)
  {
    var s := l + u;
    SplitWordsNoLowerAfterUpper(s);
    NoDigitNoPairs(LetterDigit, s);
    NoDigitNoPairs(DigitLetter, s);
    LowerUpperSplit(l, u);
    Passes(s, s, s, s, l + "_" + u);
    LowerAround(l, u);
    LowerPlainLetters(l);
  }

  /** Capitals then a capitalised word: `HELLOWorld` becomes `hello_world`. */
  lemma CapitalsThenWord(u: string, w: string)
    requires |u| > 0 && AllUpper(u) && Capitalised(w)
    ensures SnakeCase(u + w) == LowerStr(u) + "_" + LowerStr(w)
  {
    CapitalWordSplit(u, w);
    var a := u + "_" + w;
    NoDigitNoPairs(LetterDigit, a);
    NoDigitNoPairs(DigitLetter, a);
    NoLowerUpperPairs(a);
    Passes(u + w, a, a, a, a);
    LowerAround(u, w);
  }

  lemma {:induction false} LowerPlainLetters(s: string)
    requires forall i :: 0 <= i < |s| ==> !IsUpper(s[i])
    ensures LowerStr(s) == s
  {
  }

  lemma {:induction false} SplitWordsNoLowerAfterUpper(s: string)
    requires forall i :: 0 <= i < |s| - 1 ==> !(IsUpper(s[i]) && IsLower(s[i + 1]))
    ensures SplitWords(s) == s
    decreases |s|
  {
    if |s| >= 3 {
      SplitWordsNoLowerAfterUpper(s[1..]);
      assert [s[0]] + s[1..] == s;
    }
  }

  lemma {:induction false} NoLetterNoPairs(rule: PairRule, s: string)
    requires rule != LowerUpper
    requires forall i :: 0 <= i < |s| ==> !IsLetter(s[i])
    ensures ReplacePairs(rule, s) == s
    decreases |s|
  {
    if |s| >= 2 {
      NoLetterNoPairs(rule, s[1..]);
      assert [s[0]] + s[1..] == s;
    }
  }

  lemma {:induction false} NoDigitThenLetter(s: string)
    requires forall i :: 0 <= i < |s| - 1 ==> !(IsDigit(s[i]) && IsLetter(s[i + 1]))
    ensures ReplacePairs(DigitLetter, s) == s
    decreases |s|
  {
    if |s| >= 2 {
      NoDigitThenLetter(s[1..]);
      assert [s[0]] + s[1..] == s;
    }
  }

  lemma {:induction false} NoLetterThenDigit(s: string)
    requires forall i :: 0 <= i < |s| - 1 ==> !(IsLetter(s[i]) && IsDigit(s[i + 1]))
    ensures ReplacePairs(LetterDigit, s) == s
    decreases |s|
  {
    if |s| >= 2 {
      NoLetterThenDigit(s[1..]);
      assert [s[0]] + s[1..] == s;
    }
  }

  // ------------------------------------------------------------ to private

  /** The name with its first character lower-cased; the rest is kept. */
  function ToPrivate(name: string): (r: string)
    ensures |r| == |name|
    ensures |name| > 0 ==> r[0] == Lower(name[0]) && r[1..] == name[1..]
  {
    if name == "" then "" else [Lower(name[0])] + name[1..]
  }

  /** A name that is already private is unchanged, and applying the helper twice changes nothing more. */
  lemma ToPrivateLaws(name: string)
    ensures |name| > 0 && !IsUpper(name[0]) ==> ToPrivate(name) == name
    ensures ToPrivate(ToPrivate(name)) == ToPrivate(name)
  {
    if |name| > 0 {
      assert [name[0]] + name[1..] == name;
      var p := ToPrivate(name);
      assert [p[0]] + p[1..] == p;
    }
  }
}

=== FILE: imports.dfy ===
/**
 * The generated file's import table and its assembly: every package the
 * generated code refers to is registered once under an alias, either the
 * requested package name or a fresh `aliasK`, and the file is emitted as
 * one import declaration (when anything was registered) followed by the
 * declarations in the order they were appended.
 */
module Imports {
  import opened Ast
  import opened Text
  import opened Context

  datatype ImportTable = ImportTable(
    importToAlias: map<string, string>,
    aliasToImport: map<string, string>,
    counter: nat)

  function EmptyTable(): (t: ImportTable)
    ensures Valid(t) && |t.aliasToImport| == 0
  {
    ImportTable(map[], map[], 0)
  }

  /** The k-th generated alias, `alias1`, `alias2`, ... */
  function AliasName(k: nat): string
  {
    "alias" + NatStr(k)
  }

  lemma AliasNameInjective(a: nat, b: nat)
    requires AliasName(a) == AliasName(b)
    ensures a == b
  {
    assert AliasName(a)[5..] == NatStr(a);
    assert AliasName(b)[5..] == NatStr(b);
    NatStrInjective(a, b);
  }

  /**
   * The table invariant: the two maps are inverse bijections between
   * registered locations and aliases, and no generated alias beyond the
   * counter is taken yet.
   */
  ghost predicate Valid(t: ImportTable)
  {
    (forall loc :: loc in t.importToAlias ==>
       t.importToAlias[loc] in t.aliasToImport && t.aliasToImport[t.importToAlias[loc]] == loc)
    && (forall a :: a in t.aliasToImport ==>
       t.aliasToImport[a] in t.importToAlias && t.importToAlias[t.aliasToImport[a]] == a)
    && (forall k: nat :: k > t.counter ==> AliasName(k) !in t.aliasToImport)
  }

  /** A requested package name that can never collide with a generated alias. */
  ghost predicate NotGeneratedName(pkgName: string)
  {
    forall k: nat :: AliasName(k) != pkgName
  }

  /** `t2` keeps every registration of `t`. */
  predicate Extends(t: ImportTable, t2: ImportTable)
  {
    (forall loc :: loc in t.importToAlias ==>
       loc in t2.importToAlias && t2.importToAlias[loc] == t.importToAlias[loc])
    && (forall a :: a in t.aliasToImport ==>
       a in t2.aliasToImport && t2.aliasToImport[a] == t.aliasToImport[a])
    && t.counter <= t2.counter
  }

  lemma ExtendsTransitive(a: ImportTable, b: ImportTable, c: ImportTable)
    requires Extends(a, b) && Extends(b, c)
    ensures Extends(a, c)
  {
  }

  datatype Added = Added(alias: string, table: ImportTable)

  function AllocateUniqueAlias(t: ImportTable): (r: Added)
    ensures r.table.counter == t.counter + 1
    ensures Valid(t) ==> r.alias !in t.aliasToImport
  {
    var k := t.counter + 1;
    Added(AliasName(k), t.(counter := k))
  }

  /**
   * Register `location` and return the alias to qualify its names with.
   * A location already registered keeps its alias; otherwise the requested
   * package name is used unless it is empty or taken, in which case a
   * fresh generated alias is allocated.
   */
  function AddImport(t: ImportTable, pkgName: string, location: string): (r: Added)
    ensures location in t.importToAlias ==> r == Added(t.importToAlias[location], t)
    ensures location !in t.importToAlias && pkgName != "" && pkgName !in t.aliasToImport ==>
      r.alias == pkgName && r.table.counter == t.counter
    ensures location !in t.importToAlias && (pkgName == "" || pkgName in t.aliasToImport) ==>
      r.alias == AliasName(t.counter + 1) && r.table.counter == t.counter + 1
    ensures location in r.table.importToAlias && r.table.importToAlias[location] == r.alias
    ensures location !in t.importToAlias || Valid(t) ==>
      r.alias in r.table.aliasToImport && r.table.aliasToImport[r.alias] == location
    ensures r.table.importToAlias.Keys == t.importToAlias.Keys + {location}
    ensures location !in t.importToAlias || Valid(t) ==>
      r.table.aliasToImport.Keys == t.aliasToImport.Keys + {r.alias}
    ensures Valid(t) && (pkgName == "" || NotGeneratedName(pkgName)) ==>
      Valid(r.table) && Extends(t, r.table)
      && (location !in t.importToAlias ==> r.alias !in t.aliasToImport)
  {
    if location in t.importToAlias then Added(t.importToAlias[location], t)
    else
      var chosen :=
        if pkgName in t.aliasToImport || pkgName == "" then AllocateUniqueAlias(t)
        else Added(pkgName, t);
      var a := chosen.alias;
      var t2 := chosen.table.(importToAlias := t.importToAlias[location := a],
                              aliasToImport := t.aliasToImport[a := location]);
      assert Valid(t) && (pkgName == "" || NotGeneratedName(pkgName)) ==> a !in t.aliasToImport;
      assert Valid(t) && (pkgName == "" || NotGeneratedName(pkgName)) ==>
        forall k: nat :: k > t2.counter ==> AliasName(k) != a by {
        if Valid(t) && (pkgName == "" || NotGeneratedName(pkgName)) && !(pkgName in t.aliasToImport || pkgName == "") {
          assert a == pkgName;
        } else if Valid(t) && (pkgName == "" || NotGeneratedName(pkgName)) {
          forall k: nat | k > t2.counter ensures AliasName(k) != a {
            if AliasName(k) == a { AliasNameInjective(k, t.counter + 1); }
          }
        }
      }
      Added(a, t2)
  }

  /** Registering the same location twice changes nothing the second time. */
  lemma AddImportIdempotent(t: ImportTable, pkgName: string, pkgName2: string, location: string)
    ensures var first := AddImport(t, pkgName, location);
            AddImport(first.table, pkgName2, location) == first
  {
  }

  /** Under the invariant, different locations never share an alias. */
  lemma DistinctLocationsDistinctAliases(t: ImportTable, l1: string, l2: string)
    requires Valid(t) && l1 in t.importToAlias && l2 in t.importToAlias && l1 != l2
    ensures t.importToAlias[l1] != t.importToAlias[l2]
  {
  }

  /**
   * A requested name of the generated shape breaks the invariant: after
   * registering `x` as `alias1`, an unnamed registration of `y` is handed
   * `alias1` again and `x` loses its entry in the reverse map. Every
   * caller in the repository requests the empty name, so this path is
   * never taken there.
   */
  lemma GeneratedShapeNameCollides()
    ensures var t1 := AddImport(EmptyTable(), "alias1", "x").table;
            var r := AddImport(t1, "", "y");
            r.alias == "alias1" && r.table.importToAlias["x"] == "alias1" && !Valid(r.table)
  {
    var t1 := ImportTable(map["x" := "alias1"], map["alias1" := "x"], 0);
    var t2 := ImportTable(map["x" := "alias1", "y" := "alias1"], map["alias1" := "y"], 1);
    RequestedShapeFirst();
    UnnamedAfterRequestedShape(t1, t2);
    assert t2.importToAlias["x"] == "alias1" && t2.aliasToImport["alias1"] != "x";
  }

  lemma RequestedShapeFirst()
    ensures AddImport(EmptyTable(), "alias1", "x").table == ImportTable(map["x" := "alias1"], map["alias1" := "x"], 0)
  {
  }

  lemma UnnamedAfterRequestedShape(t1: ImportTable, t2: ImportTable)
    requires t1 == ImportTable(map["x" := "alias1"], map["alias1" := "x"], 0)
    requires t2 == ImportTable(map["x" := "alias1", "y" := "alias1"], map["alias1" := "y"], 1)
    ensures AddImport(t1, "", "y") == Added("alias1", t2)
  {
    assert NatStr(1) == "1";
    assert AliasName(1) == "alias1";
    assert t1.aliasToImport["alias1" := "y"] == map["alias1" := "y"];
  }

  // ------------------------------------------------------------ file assembly

  /** One emitted import: `alias "location"`. */
  datatype ImportLine = ImportLine(alias: string, path: string)

  datatype OutDecl<D> = ImportDecl(specs: set<ImportLine>) | Declaration(decl: D)

  datatype OutFile<D> = OutFile(packageName: string, decls: seq<OutDecl<D>>)

  datatype FileBuilder<D> = FileBuilder(packageName: string, imports: ImportTable, decls: seq<D>)

  function NewFile<D>(packageName: string): (f: FileBuilder<D>)
    ensures Valid(f.imports) && |f.decls| == 0 && f.packageName == packageName
  {
    FileBuilder(packageName, EmptyTable(), [])
  }

  function AppendDeclaration<D>(f: FileBuilder<D>, d: D): (r: FileBuilder<D>)
    ensures r.decls == f.decls + [d] && r.imports == f.imports && r.packageName == f.packageName
  {
    f.(decls := f.decls + [d])
  }

  function Quote(location: string): string { "\"" + location + "\"" }

  function ImportLines(t: ImportTable): (s: set<ImportLine>)
    ensures forall a :: a in t.aliasToImport ==> ImportLine(a, Quote(t.aliasToImport[a])) in s
    ensures forall line :: line in s ==>
      line.alias in t.aliasToImport && line.path == Quote(t.aliasToImport[line.alias])
  {
    set a | a in t.aliasToImport :: ImportLine(a, Quote(t.aliasToImport[a]))
  }

  /**
   * The emitted file: an import declaration exactly when some import is
   * registered, listing every registration once (in no particular order),
   * followed by the appended declarations in order.
   */
  function Build<D>(f: FileBuilder<D>): (r: OutFile<D>)
    ensures r.packageName == f.packageName
    ensures |r.decls| == |f.decls| + (if |f.imports.aliasToImport| > 0 then 1 else 0)
    ensures (|r.decls| > 0 && r.decls[0].ImportDecl?) <==> |f.imports.aliasToImport| > 0
    ensures forall i :: 0 <= i < |f.decls| ==>
      r.decls[|r.decls| - |f.decls| + i] == Declaration(f.decls[i])
    ensures |f.imports.aliasToImport| > 0 ==> r.decls[0] == ImportDecl(ImportLines(f.imports))
  {
    var body := seq(|f.decls|, i requires 0 <= i < |f.decls| => Declaration(f.decls[i]));
    if |f.imports.aliasToImport| > 0 then OutFile(f.packageName, [ImportDecl(ImportLines(f.imports))] + body)
    else OutFile(f.packageName, body)
  }

  /** Under the invariant each registered location is imported under exactly its alias. */
  lemma BuiltImportsMatchTable<D>(f: FileBuilder<D>, loc: string)
    requires Valid(f.imports) && loc in f.imports.importToAlias
    ensures Build(f).decls[0].ImportDecl?
    ensures ImportLine(f.imports.importToAlias[loc], Quote(loc)) in Build(f).decls[0].specs
    ensures forall line :: line in Build(f).decls[0].specs && line.path == Quote(loc) ==>
      line.alias == f.imports.importToAlias[loc]
  {
    var t := f.imports;
    assert t.importToAlias[loc] in t.aliasToImport;
    forall line | line in Build(f).decls[0].specs && line.path == Quote(loc)
      ensures line.alias == t.importToAlias[loc]
    {
      assert Quote(t.aliasToImport[line.alias]) == Quote(loc);
      assert Quote(t.aliasToImport[line.alias])[1..|Quote(loc)| - 1] == t.aliasToImport[line.alias];
      assert Quote(loc)[1..|Quote(loc)| - 1] == loc;
    }
  }

  /** An emitted import line, read back by a locator context, names the same alias and location. */
  lemma ImportLineReadBack(alias: string, location: string)
    requires |location| > 0 && location[0] != '"' && location[|location| - 1] != '"'
    ensures EntryOf(Some(alias), Quote(location)) == ImportEntry(alias, location)
  {
    TrimQuotedPath(location);
  }

  /** Appending a declaration adds it at the end of the emitted file and changes nothing before it. */
  lemma AppendThenBuild<D>(f: FileBuilder<D>, d: D)
    ensures Build(AppendDeclaration(f, d)).decls == Build(f).decls + [Declaration(d)]
  {
  }
}

=== FILE: locator.dfy ===
/**
 * The locator: finds the declaration of a type name among candidate
 * package locations, parsing each location at most once and caching the
 * type declarations it found there.
 *
 * The file system and the Go toolchain's package lookup are replaced by a
 * source map from location to the parsed files of that package; a location
 * missing from the map is one that could not be found or parsed.
 */
module Locate {
  import opened Ast
  import opened Walk
  import opened Context

  /** A type declaration found in a location, with the file that holds it. */
  datatype Discovery = Discovery(location: string, file: File, spec: TypeSpec)

  type Source = map<string, seq<File>>

  datatype Locator = Locator(source: Source, cache: map<string, seq<Discovery>>)

  // ------------------------------------------------------------ discovery

  function FileDiscoveries(loc: string, f: File, specs: seq<TypeSpec>): (r: seq<Discovery>)
    ensures |r| == |specs|
    ensures forall i :: 0 <= i < |r| ==> r[i] == Discovery(loc, f, specs[i])
  {
    if |specs| == 0 then [] else [Discovery(loc, f, specs[0])] + FileDiscoveries(loc, f, specs[1..])
  }

  /**
   * Every type declaration of the files of a location, file by file, each
   * tagged with the location and its file.
   */
  function Discoveries(loc: string, files: seq<File>): (r: seq<Discovery>)
    ensures forall d :: d in r <==>
      d.location == loc && d.file in files && d.spec in TypeSpecsInFile(d.file)
  {
    if |files| == 0 then []
    else
      var here := FileDiscoveries(loc, files[0], TypeSpecsInFile(files[0]));
      assert forall d :: d in here <==>
        d.location == loc && d.file == files[0] && d.spec in TypeSpecsInFile(files[0]) by {
        forall d: Discovery | d in here ensures d.location == loc && d.file == files[0] && d.spec in TypeSpecsInFile(files[0]) {
          var i :| 0 <= i < |here| && here[i] == d;
        }
        forall d: Discovery | d.location == loc && d.file == files[0] && d.spec in TypeSpecsInFile(files[0])
          ensures d in here
        {
          var specs := TypeSpecsInFile(files[0]);
          var i :| 0 <= i < |specs| && specs[i] == d.spec;
          assert here[i] == d;
        }
      }
      assert forall f :: f in files <==> f == files[0] || f in files[1..];
      here + Discoveries(loc, files[1..])
  }

  /** Discovery keeps file order: it distributes over concatenation of the file list. */
  lemma {:induction false} DiscoveriesAppend(loc: string, a: seq<File>, b: seq<File>)
    ensures Discoveries(loc, a + b) == Discoveries(loc, a) + Discoveries(loc, b)
  {
    if |a| == 0 {
      assert a + b == b;
    } else {
      assert (a + b)[0] == a[0];
      assert (a + b)[1..] == a[1..] + b;
      DiscoveriesAppend(loc, a[1..], b);
    }
  }

  /** One file contributes one discovery per type specification, in declaration order. */
  lemma DiscoveriesOfOneFile(loc: string, f: File)
    ensures Discoveries(loc, [f]) == FileDiscoveries(loc, f, TypeSpecsInFile(f))
  {
    assert [f][1..] == [];
  }

  /** Whether some file of `files` declares a type called `name`. */
  predicate Declares(files: seq<File>, name: string)
  {
    exists f, ts :: f in files && ts in TypeSpecsInFile(f) && ts.name == name
  }

  /** The first discovery declaring `name`, if any. */
  function FirstNamed(ds: seq<Discovery>, name: string): (r: Option<Discovery>)
    ensures r.Some? ==> r.value in ds && r.value.spec.name == name
    ensures r.Some? ==> exists i :: 0 <= i < |ds| && ds[i] == r.value
                                   && forall j :: 0 <= j < i ==> ds[j].spec.name != name
    ensures r.None? <==> forall d :: d in ds ==> d.spec.name != name
  {
    if |ds| == 0 then None
    else if ds[0].spec.name == name then
      assert ds[0] == ds[0];
      Some(ds[0])
    else
      assert forall d :: d in ds <==> d == ds[0] || d in ds[1..];
      var r := FirstNamed(ds[1..], name);
      if r.Some? then
        var i :| 0 <= i < |ds[1..]| && ds[1..][i] == r.value
                 && forall j :: 0 <= j < i ==> ds[1..][j].spec.name != name;
        assert ds[i + 1] == r.value;
        assert forall j :: 0 <= j < i + 1 ==> ds[j].spec.name != name by {
          forall j | 0 <= j < i + 1 ensures ds[j].spec.name != name {
            if j > 0 { assert ds[j] == ds[1..][j - 1]; }
          }
        }
        r
      else r
  }

  lemma FirstNamedDeclares(loc: string, files: seq<File>, name: string)
    ensures FirstNamed(Discoveries(loc, files), name).Some? <==> Declares(files, name)
  {
    var ds := Discoveries(loc, files);
    if Declares(files, name) {
      var f, ts :| f in files && ts in TypeSpecsInFile(f) && ts.name == name;
      assert Discovery(loc, f, ts) in ds;
    }
  }

  // ------------------------------------------------ reference (uncached) search

  /**
   * The lookup the cache must not change: try the locations in order; a
   * location that cannot be loaded ends the search with its failure; the
   * first declaration of `name` in the first location declaring it wins;
   * when no location declares it the result is TypeNotFound(name).
   */
  function Search(src: Source, name: string, locs: seq<string>): (r: Result<Discovery>)
    ensures r.Ok? ==> r.value.spec.name == name && r.value.location in locs
                      && r.value.location in src && r.value.file in src[r.value.location]
                      && r.value.spec in TypeSpecsInFile(r.value.file)
    ensures r == Err(TypeNotFound(name)) <==>
      forall l :: l in locs ==> l in src && !Declares(src[l], name)
    ensures r.Err? ==> r.error == TypeNotFound(name)
                       || (r.error.LoadFailure? && r.error.location in locs
                           && r.error.location !in src)
  {
    if |locs| == 0 then Err(TypeNotFound(name))
    else if locs[0] !in src then Err(LoadFailure(locs[0]))
    else
      assert forall l :: l in locs <==> l == locs[0] || l in locs[1..];
      match FirstNamed(Discoveries(locs[0], src[locs[0]]), name)
      case Some(d) =>
        FirstNamedDeclares(locs[0], src[locs[0]], name);
        Ok(d)
      case None =>
        FirstNamedDeclares(locs[0], src[locs[0]], name);
        Search(src, name, locs[1..])
  }

  /** Earlier locations take priority: a later one is consulted only when every earlier one lacks the name. */
  lemma {:induction false} SearchAppend(src: Source, name: string, a: seq<string>, b: seq<string>)
    ensures Search(src, name, a + b)
         == if Search(src, name, a) == Err(TypeNotFound(name)) then Search(src, name, b)
            else Search(src, name, a)
  {
    if |a| == 0 {
      assert a + b == b;
    } else {
      assert (a + b)[0] == a[0];
      assert (a + b)[1..] == a[1..] + b;
      if a[0] in src && FirstNamed(Discoveries(a[0], src[a[0]]), name).None? {
        SearchAppend(src, name, a[1..], b);
      }
    }
  }

  // ------------------------------------------------------------ the cache

  /** Every cached entry holds exactly the declarations its location has. */
  predicate Coherent(l: Locator)
  {
    forall loc :: loc in l.cache ==> loc in l.source && l.cache[loc] == Discoveries(loc, l.source[loc])
  }

  /** `l2` is `l` with possibly more locations cached; cached entries are never replaced. */
  predicate Extends(l: Locator, l2: Locator)
  {
    l2.source == l.source
    && forall loc :: loc in l.cache ==> loc in l2.cache && l2.cache[loc] == l.cache[loc]
  }

  lemma ExtendsTransitive(a: Locator, b: Locator, c: Locator)
    requires Extends(a, b) && Extends(b, c)
    ensures Extends(a, c)
  {
  }

  function NewLocator(src: Source): (l: Locator)
    ensures Coherent(l) && l.source == src && forall loc :: loc !in l.cache
  {
    Locator(src, map[])
  }

  /**
   * The declarations of one location: served from the cache when present,
   * otherwise loaded, recorded in the cache and returned.
   */
  function DiscoverTypes(l: Locator, loc: string): (r: Run<seq<Discovery>, Locator>)
    ensures Extends(l, r.state)
    ensures Coherent(l) ==> Coherent(r.state)
    ensures loc in l.cache ==> r == Run(Ok(l.cache[loc]), l)
    ensures loc !in l.cache ==> (r.result.Err? <==> loc !in l.source)
    ensures r.result.Err? ==> r.result.error == LoadFailure(loc) && r.state == l
    ensures r.result.Ok? ==> loc in r.state.cache && r.state.cache[loc] == r.result.value
    ensures Coherent(l) && r.result.Ok? ==>
      r.result.value == Discoveries(loc, l.source[loc])
      && forall d :: d in r.result.value ==> d.location == loc
  {
    if loc in l.cache then Run(Ok(l.cache[loc]), l)
    else if loc !in l.source then Run(Err(LoadFailure(loc)), l)
    else
      var ds := Discoveries(loc, l.source[loc]);
      Run(Ok(ds), l.(cache := l.cache[loc := ds]))
  }

  /** The first declaration of `name` in one location; `None` when the location has none. */
  function FindInLocation(l: Locator, name: string, loc: string): (r: Run<Option<Discovery>, Locator>)
    ensures Extends(l, r.state)
    ensures Coherent(l) ==> Coherent(r.state)
    ensures Coherent(l) ==>
      (r.result.Err? <==> loc !in l.source)
      && (r.result.Err? ==> r.result.error == LoadFailure(loc))
      && (r.result.Ok? ==> r.result.value == FirstNamed(Discoveries(loc, l.source[loc]), name))
  {
    var found := DiscoverTypes(l, loc);
    match found.result
    case Err(e) => Run(Err(e), found.state)
    case Ok(ds) => Run(Ok(FirstNamed(ds, name)), found.state)
  }

  /** Locations are tried in order; the first failure or the first declaration ends the search. */
  function FindInLocations(l: Locator, name: string, locs: seq<string>): (r: Run<Discovery, Locator>)
    ensures Extends(l, r.state)
    ensures Coherent(l) ==> Coherent(r.state)
    decreases |locs|
  {
    if |locs| == 0 then Run(Err(TypeNotFound(name)), l)
    else
      var step := FindInLocation(l, name, locs[0]);
      match step.result
      case Err(e) => Run(Err(e), step.state)
      case Ok(Some(d)) => Run(Ok(d), step.state)
      case Ok(None) =>
        var rest := FindInLocations(step.state, name, locs[1..]);
        ExtendsTransitive(l, step.state, rest.state);
        rest
  }

  /** Caching is invisible: a coherent locator answers exactly as the uncached search. */
  lemma {:induction false} CachedSearchIsSearch(l: Locator, name: string, locs: seq<string>)
    requires Coherent(l)
    ensures FindInLocations(l, name, locs).result == Search(l.source, name, locs)
    decreases |locs|
  {
    if |locs| > 0 {
      var step := FindInLocation(l, name, locs[0]);
      if step.result == Ok(None) {
        CachedSearchIsSearch(step.state, name, locs[1..]);
      }
    }
  }

  /** Unqualified names are looked up in the context's local locations. */
  function FindIdentType(l: Locator, c: LocatorContext, name: string): (r: Run<Discovery, Locator>)
    ensures Extends(l, r.state)
    ensures Coherent(l) ==> Coherent(r.state)
    ensures Coherent(l) ==> r.result == Search(l.source, name, CandidateLocations(c, "."))
  {
    var r := FindInLocations(l, name, CandidateLocations(c, "."));
    assert Coherent(l) ==> r.result == Search(l.source, name, CandidateLocations(c, ".")) by {
      if Coherent(l) { CachedSearchIsSearch(l, name, CandidateLocations(c, ".")); }
    }
    r
  }

  /** `q.sel` is looked up, by its selected name, in the candidate locations of qualifier `q`. */
  function FindSelectorType(l: Locator, c: LocatorContext, q: string, sel: string): (r: Run<Discovery, Locator>)
    ensures Extends(l, r.state)
    ensures Coherent(l) ==> Coherent(r.state)
    ensures Coherent(l) ==> r.result == Search(l.source, sel, CandidateLocations(c, q))
  {
    var r := FindInLocations(l, sel, CandidateLocations(c, q));
    assert Coherent(l) ==> r.result == Search(l.source, sel, CandidateLocations(c, q)) by {
      if Coherent(l) { CachedSearchIsSearch(l, sel, CandidateLocations(c, q)); }
    }
    r
  }

  /**
   * A lookup repeated on any coherent locator that keeps what the first
   * one cached answers the same and caches nothing new: every location the
   * first lookup visited is now served from the cache.
   */
  lemma {:induction false} LookupReplay(l: Locator, name: string, locs: seq<string>, l2: Locator)
    requires Coherent(l) && Coherent(l2)
    requires Extends(FindInLocations(l, name, locs).state, l2)
    ensures FindInLocations(l2, name, locs) == Run(FindInLocations(l, name, locs).result, l2)
    decreases |locs|
  {
    if |locs| > 0 {
      var step := FindInLocation(l, name, locs[0]);
      var rest := FindInLocations(step.state, name, locs[1..]);
      if step.result == Ok(None) {
        assert Extends(step.state, l2) by { ExtendsTransitive(step.state, rest.state, l2); }
        LookupReplay(step.state, name, locs[1..], l2);
      }
    }
  }

  /** A second identical lookup answers the same and leaves the cache as the first left it. */
  lemma RepeatLookupIsStable(l: Locator, name: string, locs: seq<string>)
    requires Coherent(l)
    ensures var first := FindInLocations(l, name, locs);
            FindInLocations(first.state, name, locs) == first
  {
    var first := FindInLocations(l, name, locs);
    LookupReplay(l, name, locs, first.state);
  }
}

=== FILE: logen_text.dfy ===
/**
 * The text-template path of `logen`: at level `debug` every call is
 * logged with its arguments and results after it returns; at level
 * `error` only a non-nil trailing error is logged. Any other level is
 * refused on the command line, and the method writer panics on it.
 */
module LogenText {
  import opened Text
  import opened GenStrings
  import opened Receivers

  /** The command line accepts exactly these two levels. */
  predicate AcceptedLevel(level: string)
  {
    level == "debug" || level == "error"
  }

  /** The generated type is named `<level>Logging<Interface>`. */
  function ConcreteName(level: string, iface: string): (r: string)
    ensures |level| <= |r| && r[..|level|] == level
    ensures HasSuffix(r, iface)
    ensures |r| == |level| + |"Logging"| + |iface|
  {
    var r := level + "Logging" + iface;
    assert r == level + ("Logging" + iface);
    assert r == (level + "Logging") + iface;
    r
  }

  /** The two levels' types never collide, and each names its interface unambiguously. */
  lemma ConcreteNameInjective(l1: string, i1: string, l2: string, i2: string)
    requires AcceptedLevel(l1) && AcceptedLevel(l2)
    requires ConcreteName(l1, i1) == ConcreteName(l2, i2)
    ensures l1 == l2 && i1 == i2
  {
    var r := ConcreteName(l1, i1);
    assert r[0] == l1[0] && r[0] == l2[0];
    assert r[|l1| + 7..] == i1 && r[|l2| + 7..] == i2;
  }

  /** What writing a method produces: its text, or a panic with a message. */
  datatype Outcome = Written(text: string) | Panicked(message: string)

  // ---------------------------------------------------------- debug level

  const ContextType := "context.Context"

  /** The arguments the debug log records: every argument but the contexts, in order. */
  function LoggedArgs(args: seq<Arg>): (r: seq<Arg>)
    ensures |r| <= |args|
    ensures forall a :: a in r <==> a in args && a.typ != ContextType
    ensures (forall i :: 0 <= i < |args| ==> args[i].typ != ContextType) ==> r == args
    decreases |args|
  {
    if |args| == 0 then []
    else
      var rest := LoggedArgs(args[1..]);
      assert forall a :: a in args <==> a == args[0] || a in args[1..];
      if args[0].typ == ContextType then rest else [args[0]] + rest
  }

  /** One key/value entry of the log call, and whether a line break follows it. */
  datatype Entry = Entry(key: string, value: string, newline: bool)

  function EntryText(e: Entry): string
  {
    e.key + "," + e.value + "," + (if e.newline then "\n" else "")
  }

  function EntriesText(es: seq<Entry>): string
  {
    if |es| == 0 then "" else EntryText(es[0]) + EntriesText(es[1..])
  }

  /** The entries are printed one after another. */
  lemma {:induction false} EntriesTextAppend(a: seq<Entry>, b: seq<Entry>)
    ensures EntriesText(a + b) == EntriesText(a) + EntriesText(b)
    decreases |a|
  {
    if |a| == 0 {
      assert a + b == b;
    } else {
      assert (a + b)[0] == a[0] && (a + b)[1..] == a[1..] + b;
      EntriesTextAppend(a[1..], b);
      var h := EntryText(a[0]);
      assert EntriesText(a + b) == h + (EntriesText(a[1..]) + EntriesText(b));
      assert h + (EntriesText(a[1..]) + EntriesText(b)) == (h + EntriesText(a[1..])) + EntriesText(b);
    }
  }

  /** Dropping the contexts commutes with concatenation, so the logged arguments keep their order. */
  lemma {:induction false} LoggedArgsAppend(a: seq<Arg>, b: seq<Arg>)
    ensures LoggedArgs(a + b) == LoggedArgs(a) + LoggedArgs(b)
    decreases |a|
  {
    if |a| == 0 {
      assert a + b == b;
    } else {
      assert (a + b)[0] == a[0] && (a + b)[1..] == a[1..] + b;
      LoggedArgsAppend(a[1..], b);
      if a[0].typ != ContextType {
        assert LoggedArgs(a + b) == [a[0]] + (LoggedArgs(a[1..]) + LoggedArgs(b));
      }
    }
  }

  /** A single argument is logged exactly when it is not a context. */
  lemma LoggedArgsOfOne(a: Arg)
    ensures LoggedArgs([a]) == if a.typ == ContextType then [] else [a]
  {
    assert [a][1..] == [];
  }

  /** One `"in_<name>", <name>,` line per logged argument, in the logged arguments' order. */
  function InEntries(args: seq<Arg>): (es: seq<Entry>)
    ensures |es| == |LoggedArgs(args)|
    ensures forall i :: 0 <= i < |es| ==>
      es[i] == Entry("\"in_" + LoggedArgs(args)[i].name + "\"", LoggedArgs(args)[i].name, true)
  {
    var logged := LoggedArgs(args);
    seq(|logged|, i requires 0 <= i < |logged| => Entry("\"in_" + logged[i].name + "\"", logged[i].name, true))
  }

  /**
   * Each result is logged once under its name: an `error` under the key
   * `"error"`, anything else under `"result_<name>"`. Only a non-error
   * result and a final error are followed by a line break.
   */
  function ResultEntries(rs: seq<Result>): (es: seq<Entry>)
    ensures |es| == |rs|
    ensures forall i :: 0 <= i < |rs| ==> es[i].value == rs[i].name
    ensures forall i :: 0 <= i < |rs| ==> (es[i].key == "\"error\"" <==> rs[i].typ == "error")
    ensures forall i :: 0 <= i < |rs| ==> (!es[i].newline <==> rs[i].typ == "error" && i < |rs| - 1)
  {
    seq(|rs|, i requires 0 <= i < |rs| =>
      if rs[i].typ == "error" then Entry("\"error\"", rs[i].name, i == |rs| - 1)
      else Entry("\"result_" + rs[i].name + "\"", rs[i].name, true))
  }

  function DebugHeader(methodName: string): string
  {
    "\n\t\tstart := time.Now()\n\t\tdefer func() {\n\t\t\tl.log.Log(\n"
    + "\t\t\t\t\"method\", \"" + methodName + "\",\n"
    + "\t\t\t\t\"took\", time.Since(start).Seconds(),\n"
  }

  /** `writeDebugCall`: a deferred log call listing the method, the duration, the arguments and the results. */
  function DebugCall(m: Method): (r: string)
    ensures r == DebugHeader(m.name) + EntriesText(InEntries(m.args)) + EntriesText(ResultEntries(m.results)) + ")\n}()\n"
    ensures HasSuffix(r, ")\n}()\n")
  {
    var header, ins, outs := DebugHeader(m.name), InEntries(m.args), ResultEntries(m.results);
    EntriesTextAppend(ins, outs);
    assert header + EntriesText(ins + outs) == header + EntriesText(ins) + EntriesText(outs);
    HasSuffixAppended(header + EntriesText(ins + outs), ")\n}()\n");
    header + EntriesText(ins + outs) + ")\n}()\n"
  }

  /** The argument entries skip contexts and keep the others' order and names. */
  lemma InEntriesSkipContexts(args: seq<Arg>)
    ensures var es := InEntries(args);
      |es| == |LoggedArgs(args)|
      && forall e :: e in es ==>
           (exists a :: a in args && a.typ != ContextType && e == Entry("\"in_" + a.name + "\"", a.name, true))
  {
    var logged := LoggedArgs(args);
    var es := InEntries(args);
    forall e | e in es
      ensures exists a :: a in args && a.typ != ContextType && e == Entry("\"in_" + a.name + "\"", a.name, true)
    {
      var i :| 0 <= i < |es| && es[i] == e;
      assert logged[i] in logged;
    }
  }

  /** The argument entries of a concatenation are the two parts' entries, one after the other. */
  lemma InEntriesAppend(a: seq<Arg>, b: seq<Arg>)
    ensures InEntries(a + b) == InEntries(a) + InEntries(b)
  {
    LoggedArgsAppend(a, b);
  }

  /** `writeReturnStatementDebug`: the call, prefixed by `return ` exactly when there are results. */
  function ReturnStatementDebug(recvName: string, m: Method): (s: string)
    ensures |m.results| > 0 ==> s == "return " + recvName + ".next." + m.name + InvocationString(m.args) + "\n"
    ensures |m.results| == 0 ==> s == recvName + ".next." + m.name + InvocationString(m.args) + "\n"
  {
    (if |m.results| > 0 then "return " else "") + recvName + ".next." + m.name + InvocationString(m.args) + "\n"
  }

  // ---------------------------------------------------------- error level

  /** The same error value is tested against nil and then logged. */
  function ErrorLog(errName: string, methodName: string): (r: string)
    ensures var test := "\n\t\tif " + errName + " != nil {";
      |test| <= |r| && r[..|test|] == test
    ensures HasSuffix(r, errName + ".Error(),\n\t\t\t)\n\t\t}\n\t\t")
  {
    var test := "\n\t\tif " + errName + " != nil {";
    var middle := "\n\t\t\tl.log.Log(\n\t\t\t\t\"method\", \"" + methodName + "\",\n\t\t\t\t\"error\", ";
    var logged := errName + ".Error(),\n\t\t\t)\n\t\t}\n\t\t";
    var front := test + middle;
    assert front[..|test|] == test;
    assert (front + logged)[..|test|] == front[..|test|];
    assert (front + logged)[|front|..] == logged;
    front + logged
  }

  /** The error check of `writeErrorCall`: present exactly when the last result is an `error`. */
  function ErrorCheck(m: Method): (s: string)
    ensures s != "" <==> |m.results| > 0 && m.results[|m.results| - 1].typ == "error"
  {
    if |m.results| > 0 && m.results[|m.results| - 1].typ == "error"
    then ErrorLog(m.results[|m.results| - 1].name, m.name)
    else ""
  }

  /**
   * `writeErrorCall`: nothing without results; otherwise the results are
   * assigned from the forwarded call, and the trailing error is logged
   * when there is one.
   */
  function ErrorCall(m: Method): (s: string)
    ensures s == "" <==> |m.results| == 0
    ensures |m.results| > 0 ==>
      s == AssignTargets(m.results) + "l.next." + m.name + InvocationString(m.args) + "\n" + ErrorCheck(m)
  {
    if |m.results| == 0 then ""
    else AssignTargets(m.results) + "l.next." + m.name + InvocationString(m.args) + "\n" + ErrorCheck(m)
  }

  /** The call a logging method forwards, with the receiver `l` that `buildReceiver` names. */
  function NextCall(m: Method): string
  {
    "l.next." + m.name + InvocationString(m.args) + "\n"
  }

  /** `part` occurs somewhere in `s`. */
  ghost predicate Contains(s: string, part: string)
  {
    exists p, q :: s == p + part + q
  }

  lemma ContainsMiddle(p: string, part: string, q: string)
    ensures Contains(p + part + q, part)
  {
  }

  /** Text written after keeps every occurrence. */
  lemma ContainsAppended(s: string, b: string, part: string)
    requires Contains(s, part)
    ensures Contains(s + b, part)
  {
    var p, q :| s == p + part + q;
    assert s + b == p + part + (q + b);
  }

  /**
   * As written, the error level writes nothing for a method without
   * results: the body is empty and the wrapped method is never called.
   */
  lemma ErrorLevelDropsCall(recvName: string, typeName: string, m: Method)
    requires |m.results| == 0
    ensures LogCall(recvName, m, "error") == Written("")
    ensures !Contains(LogCall(recvName, m, "error").text, NextCall(m))
    ensures WriteMethod(recvName, typeName, m, "error")
         == Written(Signature(recvName, typeName, m, Named) + "{}\n\n")
  {
    forall p, q ensures "" != p + NextCall(m) + q {
      assert |p + NextCall(m) + q| >= |"l.next."| > 0;
    }
  }

  /**
   * The evidently intended `writeErrorCall`: a method without results is
   * still forwarded; with results the text is unchanged.
   */
  function ErrorCallForwarding(m: Method): (s: string)
    ensures |m.results| > 0 ==> s == ErrorCall(m)
    ensures Contains(s, NextCall(m))
  {
    if |m.results| == 0 then
      ContainsMiddle("", NextCall(m), "");
      assert "" + NextCall(m) + "" == NextCall(m);
      NextCall(m)
    else
      var s := ErrorCall(m);
      assert s == AssignTargets(m.results) + NextCall(m) + ErrorCheck(m);
      ContainsMiddle(AssignTargets(m.results), NextCall(m), ErrorCheck(m));
      s
  }

  /**
   * The corrected body for either level: every method is forwarded to the
   * wrapped implementation, and only a result-less method at the error
   * level reads differently from the source.
   */
  function LogCallForwarding(m: Method, level: string): (r: Outcome)
    ensures r.Written? <==> AcceptedLevel(level)
    ensures r.Panicked? ==> r.message == "unknown log level " + level
    ensures r.Written? ==> Contains(r.text, NextCall(m))
    ensures level != "error" || |m.results| > 0 ==> r == LogCall("l", m, level)
  {
    match level
    case "debug" =>
      DebugForwards(m);
      Written(DebugCall(m) + ReturnStatementDebug("l", m))
    case "error" =>
      ErrorForwards(m);
      Written(ErrorCallForwarding(m) + ReturnStatement(m.results))
    case _ => Panicked("unknown log level " + level)
  }

  lemma DebugForwards(m: Method)
    ensures Contains(DebugCall(m) + ReturnStatementDebug("l", m), NextCall(m))
  {
    var front := if |m.results| > 0 then "return " else "";
    DebugReturnParts(m, front);
    ContainsAtEnd(DebugCall(m), front, NextCall(m));
  }

  lemma DebugReturnParts(m: Method, front: string)
    requires front == if |m.results| > 0 then "return " else ""
    ensures ReturnStatementDebug("l", m) == front + NextCall(m)
  {
  }

  lemma ContainsAtEnd(a: string, front: string, part: string)
    ensures Contains(a + (front + part), part)
  {
    assert a + (front + part) == (a + front) + part + "";
  }

  lemma ErrorForwards(m: Method)
    ensures Contains(ErrorCallForwarding(m) + ReturnStatement(m.results), NextCall(m))
  {
    ContainsAppended(ErrorCallForwarding(m), ReturnStatement(m.results), NextCall(m));
  }

  // -------------------------------------------------------------- methods

  /** `writeLogCall`: the body for the level, or a panic for any other level. */
  function LogCall(recvName: string, m: Method, level: string): (r: Outcome)
    ensures r.Written? <==> AcceptedLevel(level)
    ensures r.Panicked? ==> r.message == "unknown log level " + level
  {
    match level
    case "debug" => Written(DebugCall(m) + ReturnStatementDebug(recvName, m))
    case "error" => Written(ErrorCall(m) + ReturnStatement(m.results))
    case _ => Panicked("unknown log level " + level)
  }

  /** `writeMethods` for one method: the signature with named results, then the body in braces. */
  function WriteMethod(recvName: string, typeName: string, m: Method, level: string): (r: Outcome)
    ensures r.Written? <==> AcceptedLevel(level)
    ensures r.Panicked? ==> r.message == "unknown log level " + level
    ensures r.Written? ==>
      var sig := Signature(recvName, typeName, m, Named);
      |sig| < |r.text| && r.text[..|sig|] == sig && r.text[|sig|] == '{' && HasSuffix(r.text, "}\n\n")
  {
    match LogCall(recvName, m, level)
    case Written(body) =>
      Framed(Signature(recvName, typeName, m, Named), body);
      Written(Signature(recvName, typeName, m, Named) + "{" + body + "}\n\n")
    case Panicked(msg) => Panicked(msg)
  }

  /** A method's text starts with its signature and an opening brace and ends with the closing one. */
  lemma Framed(sig: string, body: string)
    ensures var text := sig + "{" + body + "}\n\n";
      |sig| < |text| && text[..|sig|] == sig && text[|sig|] == '{' && HasSuffix(text, "}\n\n")
  {
    var text := sig + "{" + body + "}\n\n";
    assert text == sig + ("{" + body + "}\n\n");
    HasSuffixAppended(sig + "{" + body, "}\n\n");
  }

  /**
   * The error level's method for a method with results: the signature
   * prints every result as `name type`, so the names the body assigns
   * with `=` are all declared by it, and the return gives them back.
   */
  lemma ErrorMethodAssignsDeclared(recvName: string, typeName: string, m: Method)
    requires |m.results| > 0
    ensures WriteMethod(recvName, typeName, m, "error")
         == Written(Signature(recvName, typeName, m, Named) + "{" + ErrorCall(m) + ReturnStatement(m.results) + "}\n\n")
    ensures ErrorCall(m) == AssignTargets(m.results) + NextCall(m) + ErrorCheck(m)
    ensures Signature(recvName, typeName, m, Named)[|SignatureHead(recvName, typeName, m)|..]
         == ArgsString(AsArgs(m.results))
    ensures AssignsDeclared(m, Named)
  {
    var sig := Signature(recvName, typeName, m, Named);
    assert LogCall(recvName, m, "error") == Written(ErrorCall(m) + ReturnStatement(m.results));
    Regrouped(sig, ErrorCall(m), ReturnStatement(m.results));
    ErrorCallParts(m);
    ErrorLevelAssignsDeclared(m);
  }

  lemma Regrouped(sig: string, call: string, ret: string)
    ensures sig + "{" + (call + ret) + "}\n\n" == sig + "{" + call + ret + "}\n\n"
  {
  }

  lemma ErrorCallParts(m: Method)
    requires |m.results| > 0
    ensures ErrorCall(m) == AssignTargets(m.results) + NextCall(m) + ErrorCheck(m)
  {
    var a, b, c, d := AssignTargets(m.results), "l.next." + m.name, InvocationString(m.args), ErrorCheck(m);
    assert a + b + c + "\n" + d == a + (b + c + "\n") + d;
  }

  /**
   * At the error level the results are assigned with `=`; the signature
   * names them, so every target is declared and, as for the return
   * statement, the same names come back in order.
   */
  lemma ErrorLevelAssignsDeclared(m: Method)
    requires |m.results| > 0
    ensures AssignsDeclared(m, Named)
    ensures var t := AssignTargets(m.results);
      ReturnStatement(m.results) == "return " + t[..|t| - 1]
  {
    NamedResultsDeclared(m);
    TargetsAreReturned(m.results);
  }

  /** Both levels forward the same call text when the receiver is `l`, as `buildReceiver` names it. */
  lemma LevelsForwardSameCall(m: Method)
    requires |m.results| > 0
    ensures var call := "l.next." + m.name + InvocationString(m.args) + "\n";
      ReturnStatementDebug("l", m) == "return " + call
      && ErrorCall(m) == AssignTargets(m.results) + call + ErrorCheck(m)
  {
  }

  /** A lone `error` result is logged under `"error"` and ends its line. */
  lemma OnlyErrorResult(rs: seq<Result>)
    requires |rs| == 1 && rs[0].typ == "error"
    ensures ResultEntries(rs) == [Entry("\"error\"", rs[0].name, true)]
    ensures EntriesText(ResultEntries(rs)) == "\"error\"," + rs[0].name + ",\n"
  {
    assert ResultEntries(rs)[1..] == [];
  }
}

=== FILE: mongen_text.dfy ===
/**
 * The text-template path of `mongen`: every method of the wrapped
 * interface becomes a signature, a body that starts a clock, forwards
 * the call to `next`, counts it and records its duration under the
 * snake-cased method name, counts a failure when the last result is an
 * `error`, and finally returns the results.
 */
module MongenText {
  import opened Text
  import opened GenStrings
  import opened Receivers
  import opened Snake

  /** What `writeMethods` prints for one method, piece by piece. */
  datatype MethodText = MethodText(
    signature: string,
    form: ResultForm,   // how the signature printed the results
    call: string,       // result assignment and forwarded call
    measure: string,    // total-ops count and duration record
    failure: string,    // failed-ops count, or nothing
    ret: string)        // return statement, or nothing

  /** The pieces in order: the signature opens the text, the body follows in braces after the clock starts. */
  function Render(t: MethodText): (r: string)
    ensures |t.signature| <= |r| && r[..|t.signature|] == t.signature
    ensures HasSuffix(r, t.ret + "}\n\n")
    ensures |r| == |t.signature| + |t.call| + |t.measure| + |t.failure| + |t.ret| + 25
  {
    var head := t.signature + "{\n" + "start := time.Now()\n" + t.call + t.measure + t.failure;
    var tail := t.ret + "}\n\n";
    assert (t.signature + ("{\n" + "start := time.Now()\n" + t.call + t.measure + t.failure))[..|t.signature|] == t.signature;
    assert head == t.signature + ("{\n" + "start := time.Now()\n" + t.call + t.measure + t.failure);
    assert (head + tail)[..|t.signature|] == head[..|t.signature|];
    assert (head + tail)[|head|..] == tail;
    head + tail
  }

  /** The measurement template, labelled with the operation name. */
  function Measurements(op: string): string
  {
    "\n\tm.totalOps.With(\"operation\", \"" + op + "\").Add(1)\n"
    + "\tm.opsDuration.With(\"operation\", \"" + op + "\").Observe(time.Since(start).Seconds())\n\t"
  }

  /** The failure template: count a failure when `errName` is not nil. */
  function FailureBlock(errName: string, op: string): string
  {
    "\n\t\tif " + errName + " != nil {\n\t\t\tm.failedOps.With(\"operation\", \"" + op + "\").Add(1)\n\t\t}\n\t\t"
  }

  /** Failures are counted exactly when the last result is an `error`. */
  predicate CountsFailures(rs: seq<Result>)
  {
    |rs| > 0 && rs[|rs| - 1].typ == "error"
  }

  /** The forwarded call: the assignment targets, then `<recv>.next.<Name>(<arg names>)`. */
  function ForwardedCall(recvName: string, m: Method): (r: string)
    ensures |m.results| == 0 ==> r == recvName + ".next." + m.name + InvocationString(m.args) + "\n"
    ensures |m.results| > 0 ==>
      r == Join(ResultNames(m.results), ",") + "=" + recvName + ".next." + m.name + InvocationString(m.args) + "\n"
  {
    TargetsJoinNames(m.results);
    AssignTargets(m.results) + recvName + ".next." + m.name + InvocationString(m.args) + "\n"
  }

  /**
   * `writeSignature`, `writeMethodBody` and `writeReturnStatement` as
   * written: the signature prints the results as types only, while the
   * body assigns the forwarded call's results to their names with `=`.
   */
  function WriteMethod(recvName: string, typeName: string, m: Method): (t: MethodText)
    ensures t.form == TypesOnly && t.signature == Signature(recvName, typeName, m, t.form)
    ensures Declared(m, t.form) == ArgNames(m.args)
    ensures t.call == ForwardedCall(recvName, m) && t.ret == ReturnStatement(m.results)
    ensures t.failure != "" <==> CountsFailures(m.results)
    ensures CountsFailures(m.results) ==>
      t.failure == FailureBlock(m.results[|m.results| - 1].name, ToSnakeCase(m.name))
    ensures t.measure == Measurements(ToSnakeCase(m.name))
    ensures t.ret == "" <==> |m.results| == 0
    ensures |m.results| == 0 ==> t.call == recvName + ".next." + m.name + InvocationString(m.args) + "\n"
  {
    var op := ToSnakeCase(m.name);
    MethodText(
      Signature(recvName, typeName, m, TypesOnly),
      TypesOnly,
      ForwardedCall(recvName, m),
      Measurements(op),
      if CountsFailures(m.results) then FailureBlock(m.results[|m.results| - 1].name, op) else "",
      ReturnStatement(m.results))
  }

  /**
   * The value the failure block tests is the one the forwarded call
   * assigned last, and the same names come back in the return statement.
   */
  lemma FailureTestsAssignedResult(recvName: string, typeName: string, m: Method)
    requires CountsFailures(m.results)
    ensures var t := WriteMethod(recvName, typeName, m);
      var last := m.results[|m.results| - 1].name + "=";
      var targets := AssignTargets(m.results);
      t.call == targets + recvName + ".next." + m.name + InvocationString(m.args) + "\n"
      && |targets| >= |last| && targets[|targets| - |last|..] == last
      && t.ret == "return " + targets[..|targets| - 1]
  {
    LastTargetIsLastResult(m.results);
    TargetsAreReturned(m.results);
  }

  /**
   * As written, the body assigns with `=` to result names the signature
   * never declares: unless a parameter happens to share the first
   * result's name, the emitted method does not compile.
   */
  lemma AssignsUndeclaredNames(recvName: string, typeName: string, m: Method)
    requires |m.results| > 0 && m.results[0].name !in ArgNames(m.args)
    ensures !AssignsDeclared(m, WriteMethod(recvName, typeName, m).form)
  {
    assert Declared(m, TypesOnly) == ArgNames(m.args);
  }

  /** The interface of the package's own example: `DoWork(int, string) (string, error)`. */
  lemma DoWorkAssignsUndeclared(m: Method)
    requires m == Method("DoWork", [Arg("arg0", "int"), Arg("arg1", "string")],
                         [Result("ret0", "string"), Result("ret1", "error")])
    ensures !AssignsDeclared(m, WriteMethod("m", "monitoringDoer", m).form)
  {
    var names := ArgNames(m.args);
    assert names == ["arg0", "arg1"];
    assert "ret0" != "arg0" && "ret0" != "arg1";
    AssignsUndeclaredNames("m", "monitoringDoer", m);
  }

  /**
   * The evidently intended method: the signature names the results, as
   * `logen`'s does, so the `=` assigns to declared names.
   */
  function WriteMethodNamed(recvName: string, typeName: string, m: Method): (t: MethodText)
    ensures t.form == Named && AssignsDeclared(m, t.form)
    ensures t.signature == Signature(recvName, typeName, m, t.form)
    ensures Declared(m, t.form) == ArgNames(m.args) + ResultNames(m.results)
    ensures var w := WriteMethod(recvName, typeName, m);
      t.call == w.call && t.measure == w.measure && t.failure == w.failure && t.ret == w.ret
  {
    NamedResultsDeclared(m);
    WriteMethod(recvName, typeName, m).(signature := Signature(recvName, typeName, m, Named), form := Named)
  }
}

=== FILE: oc_builders.dfy ===
/**
 * The OpenCensus monitoring method of `mongen`, in its two versions: the
 * library package (with a context decorator and a tag insertion that
 * panics on error) and the command's own copy (no decorator, errors
 * discarded). Each method binds a context, tags it with the operation
 * name, counts the call, times it, counts failures and returns the
 * wrapped method's results.
 */
module OcBuilders {
  import opened Ast
  import opened Walk
  import opened Snake
  import opened GoCode
  import opened Generate
  import opened CommonBuilders

  /** The aliases the generated file gives the packages the method body uses. */
  datatype PackageAliases = PackageAliases(statsPkg: string, timePkg: string, contextPkg: string, tagPkg: string)

  function AliasSet(a: PackageAliases): set<string>
  {
    {a.statsPkg, a.timePkg, a.contextPkg, a.tagPkg}
  }

  /** The local variables both versions declare. */
  const CtxName := "ctx"
  const TagKeyName := "tagKey"
  const StartFieldName := "start"
  const ErrName := "err"

  // ------------------------------------------------------------ context

  /** The first parameter's type is `<ctxAlias>.Context`. */
  predicate TakesContext(m: MethodConfig, ctxAlias: string)
  {
    |m.params| > 0 && m.params[0].typ == Selector(ctxAlias, "Context")
  }

  /**
   * `contextParam.Build` and `ContextParam.Build`: `ctx :=` the first
   * parameter when it is a context of the file's context package, and
   * `<ctxAlias>.Background()` otherwise.
   */
  function ContextParam(ctxAlias: string, m: MethodConfig): (s: Stmt)
    requires TakesContext(m, ctxAlias) ==> |m.params[0].names| > 0
    ensures s.AssignStmt? && s.tok == Define && s.lhs == [Id(CtxName)] && StmtDefs(s) == {CtxName}
    ensures TakesContext(m, ctxAlias) ==> s.rhs == [Id(m.params[0].names[0])]
    ensures !TakesContext(m, ctxAlias) ==> s.rhs == [Call(Sel(Id(ctxAlias), "Background"), [], false)]
  {
    var background := Call(Sel(Id(ctxAlias), "Background"), [], false);
    OneExpr(Id(CtxName));
    if TakesContext(m, ctxAlias) then
      OneExpr(Id(m.params[0].names[0]));
      AssignStmt([Id(CtxName)], Define, [Id(m.params[0].names[0])])
    else
      AssignStmt([Id(CtxName)], Define, [background])
  }

  /** The context is bound from the method's own parameter or from the context package, nothing else. */
  lemma ContextParamReads(ctxAlias: string, m: MethodConfig)
    requires TakesContext(m, ctxAlias) ==> |m.params[0].names| > 0
    ensures var s := ContextParam(ctxAlias, m);
      ListIds(s.rhs) == if TakesContext(m, ctxAlias) then {m.params[0].names[0]} else {ctxAlias}
  {
    var s := ContextParam(ctxAlias, m);
    OneExpr(s.rhs[0]);
    if !TakesContext(m, ctxAlias) {
      assert ExprIds(Sel(Id(ctxAlias), "Background")) == {ctxAlias};
      assert ListIds([]) == {};
    }
  }

  lemma ContextParamOk(ctxAlias: string, m: MethodConfig, scope: set<string>)
    requires TakesContext(m, ctxAlias) ==> |m.params[0].names| > 0
    requires CtxName !in scope && ctxAlias in scope
    requires TakesContext(m, ctxAlias) ==> m.params[0].names[0] in scope
    ensures StmtOk(ContextParam(ctxAlias, m), scope)
  {
    ContextParamReads(ctxAlias, m);
  }

  /** `contextDecorator.Build`: `if m.ctxFunc != nil { ctx = m.ctxFunc(ctx) }`. */
  function ContextDecorator(): (s: Stmt)
    ensures s.IfStmt? && StmtDefs(s) == {}
  {
    var decorate := AssignStmt([Id(CtxName)], Assign, [Call(Member("ctxFunc"), [Id(CtxName)], false)]);
    IfStmt(None, NotNil(Member("ctxFunc")), [decorate], NoElse)
  }

  lemma ContextDecoratorOk(scope: set<string>)
    requires CtxName in scope && Receiver in scope
    ensures StmtOk(ContextDecorator(), scope)
  {
    var c := Call(Member("ctxFunc"), [Id(CtxName)], false);
    OneExpr(Id(CtxName));
    OneExpr(c);
    Single(ContextDecorator().body[0], scope);
  }

  // ---------------------------------------------------------------- tag

  function OperationLit(): Expr { Lit("\"operation\"") }

  /** `tag.Insert(tagKey, "<op>")` inside `tag.New(ctx, ...)`. */
  function TagNew(tagAlias: string, op: string): (e: Expr)
    ensures ExprIds(e) == {tagAlias, CtxName, TagKeyName}
  {
    var value := Lit("\"" + op + "\"");
    var insert := Call(Sel(Id(tagAlias), "Insert"), [Id(TagKeyName), value], false);
    assert ExprIds(insert) == {tagAlias, TagKeyName} by {
      TwoExprs(Id(TagKeyName), value);
      assert ExprIds(Sel(Id(tagAlias), "Insert")) == {tagAlias};
    }
    TwoExprs(Id(CtxName), insert);
    assert ExprIds(Sel(Id(tagAlias), "New")) == {tagAlias};
    Call(Sel(Id(tagAlias), "New"), [Id(CtxName), insert], false)
  }

  /** The library's `createTagKey.Build`: `tagKey := tag.MustNewKey("operation")`. */
  function CreateTagKey(tagAlias: string): (s: Stmt)
    ensures s.AssignStmt? && s.tok == Define && StmtDefs(s) == {TagKeyName}
    ensures ListIds(s.rhs) == {tagAlias}
  {
    var key := Call(Sel(Id(tagAlias), "MustNewKey"), [OperationLit()], false);
    OneExpr(Id(TagKeyName));
    OneExpr(key);
    OneExpr(OperationLit());
    assert ExprIds(Sel(Id(tagAlias), "MustNewKey")) == {tagAlias};
    AssignStmt([Id(TagKeyName)], Define, [key])
  }

  /** The command's `CreateTagKey.Build`: `tagKey, _ := tag.NewKey("operation")`, the error discarded. */
  function CreateTagKeyDiscarding(tagAlias: string): (s: Stmt)
    ensures s.AssignStmt? && s.tok == Define && StmtDefs(s) == {TagKeyName}
    ensures s.lhs == [Id(TagKeyName), Id(Blank)]
    ensures ListIds(s.rhs) == {tagAlias}
  {
    var key := Call(Sel(Id(tagAlias), "NewKey"), [OperationLit()], false);
    OneExpr(key);
    OneExpr(OperationLit());
    assert ExprIds(Sel(Id(tagAlias), "NewKey")) == {tagAlias};
    var lhs := [Id(TagKeyName), Id(Blank)];
    assert DeclaredBy(lhs) == {TagKeyName} by {
      assert lhs[0].name == TagKeyName;
    }
    AssignStmt(lhs, Define, [key])
  }

  /**
   * The library's `insertTagInContext.Build`: `var err error`, then
   * `if ctx, err = tag.New(...); err != nil { panic(err) }`.
   */
  function InsertTagInContext(tagAlias: string, op: string): (ss: seq<Stmt>)
    ensures |ss| == 2 && ss[0] == VarDecl(ErrName, "error")
    ensures ss[1].IfStmt? && ss[1].init.Some? && ss[1].cond == NotNil(Id(ErrName)) && ss[1].els == NoElse
    ensures ss[1].body == [ExprStmt(Call(Id("panic"), [Id(ErrName)], false))]
  {
    var newTag := AssignStmt([Id(CtxName), Id(ErrName)], Assign, [TagNew(tagAlias, op)]);
    [VarDecl(ErrName, "error"),
     IfStmt(Some(newTag), NotNil(Id(ErrName)), [ExprStmt(Call(Id("panic"), [Id(ErrName)], false))], NoElse)]
  }

  /** The command's `InsertTagInContext.Build`: `ctx, _ = tag.New(...)`, the error discarded. */
  function InsertTagDiscarding(tagAlias: string, op: string): (s: Stmt)
    ensures InsertTagInContext(tagAlias, op)[1].init.value.AssignStmt?
    ensures s.AssignStmt? && s.tok == Assign && s.lhs == [Id(CtxName), Id(Blank)]
    ensures s.rhs == InsertTagInContext(tagAlias, op)[1].init.value.rhs
    ensures StmtDefs(s) == {} && ListIds(s.rhs) == {tagAlias, CtxName, TagKeyName}
  {
    OneExpr(TagNew(tagAlias, op));
    AssignStmt([Id(CtxName), Id(Blank)], Assign, [TagNew(tagAlias, op)])
  }

  /** The assignment targets `ctx, <second>` read `ctx` and, unless it is `_`, `<second>`. */
  lemma TargetIds(second: string)
    ensures ListIds([Id(CtxName), Id(second)]) - {Blank} == {CtxName} + ({second} - {Blank})
  {
    TwoExprs(Id(CtxName), Id(second));
  }

  /** `var err error` declares `err`; the `if` after it reads only names declared before it. */
  lemma InsertTagOk(tagAlias: string, op: string, scope: set<string>)
    requires tagAlias in scope && CtxName in scope && TagKeyName in scope && ErrName !in scope
    requires "panic" in scope
    ensures var ss := InsertTagInContext(tagAlias, op);
      StmtOk(ss[0], scope) && StmtDefs(ss[0]) == {ErrName}
      && StmtOk(ss[1], scope + StmtDefs(ss[0])) && StmtDefs(ss[1]) == {}
  {
    var ss := InsertTagInContext(tagAlias, op);
    var inner := scope + {ErrName};
    var init := ss[1].init.value;
    OneExpr(TagNew(tagAlias, op));
    TargetIds(ErrName);
    assert StmtOk(init, inner);
    assert StmtDefs(init) == {};
    var p := ExprStmt(Call(Id("panic"), [Id(ErrName)], false));
    OneExpr(Id(ErrName));
    assert StmtOk(p, inner);
    Single(p, inner);
  }

  lemma InsertTagDiscardingOk(tagAlias: string, op: string, scope: set<string>)
    requires tagAlias in scope && CtxName in scope && TagKeyName in scope
    ensures StmtOk(InsertTagDiscarding(tagAlias, op), scope)
    ensures StmtDefs(InsertTagDiscarding(tagAlias, op)) == {}
  {
    OneExpr(TagNew(tagAlias, op));
    TargetIds(Blank);
  }

  // -------------------------------------------------------------- stats

  /** `stats.Record(ctx, <x>)`. */
  function StatsRecord(statsAlias: string, x: Expr): (e: Expr)
    ensures ExprIds(e) == {statsAlias, CtxName} + ExprIds(x)
  {
    TwoExprs(Id(CtxName), x);
    assert ExprIds(Sel(Id(statsAlias), "Record")) == {statsAlias};
    Call(Sel(Id(statsAlias), "Record"), [Id(CtxName), x], false)
  }

  /** `recordStat.Build`: `stats.Record(ctx, m.<field>.M(1))`. */
  function RecordStat(statsAlias: string, field: string): (s: Stmt)
    ensures s.ExprStmt? && ExprIds(s.x) == {statsAlias, CtxName, Receiver}
  {
    var one := Call(Sel(Member(field), "M"), [Lit("1")], false);
    assert ExprIds(one) == {Receiver} by {
      OneExpr(Lit("1"));
      assert ExprIds(Sel(Member(field), "M")) == {Receiver};
    }
    ExprStmt(StatsRecord(statsAlias, one))
  }

  /** `recordOpsDurationStats.Build`: `stats.Record(ctx, m.opsDuration.M(time.Since(<start>).Seconds()))`. */
  function RecordOpsDurationStats(statsAlias: string, timeAlias: string, startName: string): (s: Stmt)
    ensures s.ExprStmt? && ExprIds(s.x) == {statsAlias, CtxName, Receiver, timeAlias, startName}
  {
    var since := Call(Sel(Id(timeAlias), "Since"), [Id(startName)], false);
    assert ExprIds(since) == {timeAlias, startName} by {
      OneExpr(Id(startName));
      assert ExprIds(Sel(Id(timeAlias), "Since")) == {timeAlias};
    }
    var seconds := Call(Sel(since, "Seconds"), [], false);
    assert ExprIds(seconds) == {timeAlias, startName} by {
      assert ListIds([]) == {};
      assert ExprIds(Sel(since, "Seconds")) == ExprIds(since);
    }
    var observe := Call(Sel(Member("opsDuration"), "M"), [seconds], false);
    assert ExprIds(observe) == {Receiver, timeAlias, startName} by {
      OneExpr(seconds);
      assert ExprIds(Sel(Member("opsDuration"), "M")) == {Receiver};
    }
    ExprStmt(StatsRecord(statsAlias, observe))
  }

  /**
   * `incrementFailedOps.Build` and `IncrementFailedOps.Build`: when some
   * result is an `error`, `if <first such result> != nil { stats.Record(ctx,
   * m.failedOps.M(1)) }`; an empty statement otherwise.
   */
  function IncrementFailedOps(statsAlias: string, m: MethodConfig): (s: Stmt)
    requires Named(m.results)
    ensures s.EmptyStmt? <==> FirstErrorIndex(m.results).None?
    ensures s.IfStmt? ==>
      s.cond == NotNil(Id(ErrorResultName(m.results).value)) && s.init.None? && s.els == NoElse
      && s.body == [RecordStat(statsAlias, "failedOps")]
    ensures StmtDefs(s) == {}
  {
    match ErrorResultName(m.results)
    case None => EmptyStmt
    case Some(n) => IfStmt(None, NotNil(Id(n)), [RecordStat(statsAlias, "failedOps")], NoElse)
  }

  lemma IncrementFailedOpsOk(statsAlias: string, m: MethodConfig, scope: set<string>)
    requires Named(m.results)
    requires statsAlias in scope && CtxName in scope && Receiver in scope
    requires NameSet(FirstNames(m.results)) <= scope
    ensures StmtOk(IncrementFailedOps(statsAlias, m), scope)
  {
    var s := IncrementFailedOps(statsAlias, m);
    if s.IfStmt? {
      Single(RecordStat(statsAlias, "failedOps"), scope);
    }
  }

  // ------------------------------------------------------------ methods

  /**
   * The statements after the tagged context, in the order both `Build`s
   * add them: count the call, start the clock, forward the call, record
   * the duration, count a failure, return.
   */
  function Measured(a: PackageAliases, m: MethodConfig, call: Stmt): (ss: seq<Stmt>)
    requires Named(m.results)
    ensures |ss| == 6 && ss[2] == call
  {
    [RecordStat(a.statsPkg, "totalOps"), StartTimeRecorder(a.timePkg, StartFieldName), call]
    + [RecordOpsDurationStats(a.statsPkg, a.timePkg, StartFieldName), IncrementFailedOps(a.statsPkg, m), ReturnResults(m)]
  }

  /** The library's tag statements: create the key, then tag the context and panic on failure. */
  function TagSetup(a: PackageAliases, m: MethodConfig): (ss: seq<Stmt>)
    ensures |ss| == 3
  {
    [CreateTagKey(a.tagPkg)] + InsertTagInContext(a.tagPkg, ToSnakeCase(m.name))
  }

  /**
   * The library's `ocMonitoringMethodBuilder.Build`: parameters as given,
   * results anonymised, and eleven statements in the order the source
   * adds them.
   */
  function BuildMethod(structName: string, a: PackageAliases, m: MethodConfig): (d: MethodDecl)
    requires Named(m.params) && Named(m.results)
    ensures d.recv == Receiver && d.name == m.name && d.params == m.params
    ensures d.results == FieldsAsAnonymous(m.results)
    ensures |d.body| == 11
  {
    var body := [ContextParam(a.contextPkg, m), ContextDecorator()]
      + (TagSetup(a, m) + Measured(a, m, MethodInvocation(m, Member("next"))));
    MethodDecl(Receiver, structName, m.name, m.params, FieldsAsAnonymous(m.results), body)
  }

  /**
   * The command's `OCMonitoringMethodBuilder.Build`: nine statements, no
   * decorator, the tag errors discarded, and the call never spread.
   */
  function BuildMethodDiscarding(structName: string, a: PackageAliases, m: MethodConfig): (d: MethodDecl)
    requires Named(m.params) && Named(m.results)
    ensures d.recv == Receiver && d.name == m.name && d.params == m.params
    ensures d.results == FieldsAsAnonymous(m.results)
    ensures |d.body| == 9
  {
    var body := [ContextParam(a.contextPkg, m)]
      + ([CreateTagKeyDiscarding(a.tagPkg), InsertTagDiscarding(a.tagPkg, ToSnakeCase(m.name))]
         + Measured(a, m, PlainInvocation(m, Member("next"))));
    MethodDecl(Receiver, structName, m.name, m.params, FieldsAsAnonymous(m.results), body)
  }

  /** The value a `tag.New(ctx, tag.Insert(key, <value>))` call inserts, if the expression is one. */
  function TagValue(e: Expr): Option<string>
  {
    match e
    case Call(Sel(_, "New"), args, _) =>
      if |args| == 2 && args[1].Call? && |args[1].args| == 2 && args[1].args[1].Lit?
      then Some(args[1].args[1].text) else None
    case _ => None
  }

  /** Both versions tag the context with the snake-cased method name, quoted. */
  lemma TagsOperationName(structName: string, a: PackageAliases, m: MethodConfig)
    requires Named(m.params) && Named(m.results)
    ensures var b := BuildMethod(structName, a, m).body;
      b[4].IfStmt? && b[4].init.Some? && b[4].init.value.AssignStmt? && |b[4].init.value.rhs| == 1
      && TagValue(b[4].init.value.rhs[0]) == Some("\"" + ToSnakeCase(m.name) + "\"")
    ensures var b := BuildMethodDiscarding(structName, a, m).body;
      b[2].AssignStmt? && |b[2].rhs| == 1
      && TagValue(b[2].rhs[0]) == Some("\"" + ToSnakeCase(m.name) + "\"")
  {
    var b := BuildMethod(structName, a, m).body;
    assert b[4] == InsertTagInContext(a.tagPkg, ToSnakeCase(m.name))[1];
  }

  /**
   * Only the library forwards a variadic method correctly: its call spreads
   * the last argument exactly when that parameter is variadic, while the
   * command's call never does.
   */
  lemma ForwardsVariadicCall(structName: string, a: PackageAliases, m: MethodConfig)
    requires Named(m.params) && Named(m.results) && VariadicLast(m.params)
    ensures ForwardsVariadic(CallOf(BuildMethod(structName, a, m).body[7]), m.params)
    ensures ForwardsVariadic(CallOf(BuildMethodDiscarding(structName, a, m).body[5]), m.params)
            <==> !LastEllipsis(m.params)
  {
    MethodInvocationForwardsVariadic(m, Member("next"));
    PlainInvocationForwardsVariadic(m, Member("next"));
  }

  // ------------------------------------------------------- reading only

  lemma CreateTagKeyOk(tagAlias: string, scope: set<string>)
    requires tagAlias in scope && TagKeyName !in scope
    ensures StmtOk(CreateTagKey(tagAlias), scope)
  {
    OneExpr(Id(TagKeyName));
  }

  lemma RecordStatOk(statsAlias: string, field: string, scope: set<string>)
    requires statsAlias in scope && CtxName in scope && Receiver in scope
    ensures StmtOk(RecordStat(statsAlias, field), scope) && StmtDefs(RecordStat(statsAlias, field)) == {}
  {
  }

  lemma RecordOpsDurationOk(statsAlias: string, timeAlias: string, startName: string, scope: set<string>)
    requires statsAlias in scope && CtxName in scope && Receiver in scope
    requires timeAlias in scope && startName in scope
    ensures StmtOk(RecordOpsDurationStats(statsAlias, timeAlias, startName), scope)
    ensures StmtDefs(RecordOpsDurationStats(statsAlias, timeAlias, startName)) == {}
  {
  }

  // ------------------------------------------------------------ scoping

  /** The method's local variables. */
  const Locals: set<string> := {CtxName, TagKeyName, ErrName, StartFieldName}

  /** The file's package aliases are neither locals nor result names of the method. */
  predicate AliasesApart(a: PackageAliases, m: MethodConfig)
  {
    AliasSet(a) !! (Locals + FieldNames(m.results))
  }

  /** What the top of the body may take for granted about the scope `s0` it starts in. */
  predicate TopFacts(a: PackageAliases, m: MethodConfig, s0: set<string>)
    requires Named(m.params) && Named(m.results)
  {
    a.statsPkg in s0 && a.timePkg in s0 && a.contextPkg in s0 && a.tagPkg in s0
    && "panic" in s0 && Receiver in s0
    && NameSet(FirstNames(m.params)) <= s0
    && CtxName !in s0 && TagKeyName !in s0 && ErrName !in s0 && StartFieldName !in s0
    && (forall n :: n in FirstNames(m.results) ==> n != Blank && n !in s0 && n !in Locals)
  }

  /**
   * A local or result name is outside the top scope: the aliases are apart
   * from it and it starts unlike the universe names, the receiver and the
   * parameters.
   */
  lemma Outside(x: string, a: PackageAliases, m: MethodConfig, ps: set<string>)
    requires x in AliasSet(a) ==> x !in Locals + FieldNames(m.results)
    requires x in Locals + FieldNames(m.results)
    requires forall n :: n in ps ==> |n| > 0 && n[0] == 'a'
    requires |x| > 0 && x[0] != 'a' && x[0] != 'n' && x[0] != 'p' && x[0] != 'm'
    ensures x !in AliasSet(a) + Predeclared + ({Receiver} + ps)
  {
    assert "nil"[0] == 'n' && "panic"[0] == 'p' && "append"[0] == 'a' && Receiver[0] == 'm';
  }

  /**
   * The top facts hold when the parameters `ps` all start with `a`, the
   * results with `r`, and the aliases are apart from the locals and results.
   */
  lemma {:induction false} TopFactsFrom(a: PackageAliases, m: MethodConfig, ps: set<string>)
    requires Named(m.params) && Named(m.results) && AliasesApart(a, m)
    requires NameSet(FirstNames(m.params)) <= ps
    requires forall n :: n in ps ==> |n| > 0 && n[0] == 'a'
    requires forall n :: n in FirstNames(m.results) ==> |n| > 0 && n[0] == 'r' && n != Blank
    requires FieldNames(m.results) == NameSet(FirstNames(m.results))
    ensures TopFacts(a, m, AliasSet(a) + Predeclared + ({Receiver} + ps))
  {
    var s0 := AliasSet(a) + Predeclared + ({Receiver} + ps);
    Outside(CtxName, a, m, ps);
    Outside(TagKeyName, a, m, ps);
    Outside(ErrName, a, m, ps);
    Outside(StartFieldName, a, m, ps);
    forall n | n in FirstNames(m.results) ensures n != Blank && n !in s0 && n !in Locals {
      assert n in FieldNames(m.results);
      Outside(n, a, m, ps);
    }
  }

  /**
   * The names in scope at the top of the body, by the signature both
   * `Build`s write: the aliases, the universe, the receiver and the
   * parameters are there; the locals and the results are not.
   */
  lemma {:induction false} TopScope(a: PackageAliases, m: MethodConfig, d: MethodDecl)
    requires Normalised(m) && AliasesApart(a, m)
    requires d.recv == Receiver && d.params == m.params && d.results == FieldsAsAnonymous(m.results)
    ensures Named(m.params) && Named(m.results)
    ensures TopFacts(a, m, AliasSet(a) + Predeclared + SignatureScope(d))
  {
    NormalisedNames(m);
    AnonymousDeclaresNothing(m.results);
    assert SignatureScope(d) == {Receiver} + FieldNames(m.params);
    NumberedNamed(m.results, "result", 1);
    TopFactsFrom(a, m, FieldNames(m.params));
  }

  /** What the measured statements take for granted about the scope they start in. */
  predicate MeasuredFacts(a: PackageAliases, m: MethodConfig, s: set<string>)
    requires Named(m.params) && Named(m.results)
  {
    a.statsPkg in s && a.timePkg in s && CtxName in s && Receiver in s && StartFieldName !in s
    && NameSet(FirstNames(m.params)) <= s
    && (forall n :: n in FirstNames(m.results) ==> n != Blank && n !in s && n != StartFieldName)
  }

  /**
   * The measured statements declare `start` and then the results before
   * recording, counting and returning them, whichever way the call spreads
   * its arguments.
   */
  lemma {:induction false} MeasuredOk(a: PackageAliases, m: MethodConfig, variadic: bool, s: set<string>)
    requires Named(m.params) && Named(m.results) && MeasuredFacts(a, m, s)
    ensures BlockOk(Measured(a, m, Invocation(m, Member("next"), variadic)), s)
  {
    var x0, x1 := RecordStat(a.statsPkg, "totalOps"), StartTimeRecorder(a.timePkg, StartFieldName);
    var x2, x3 := Invocation(m, Member("next"), variadic), RecordOpsDurationStats(a.statsPkg, a.timePkg, StartFieldName);
    var x4, x5 := IncrementFailedOps(a.statsPkg, m), ReturnResults(m);
    var s1 := s + StmtDefs(x0);
    var s2 := s1 + StmtDefs(x1);
    var s3 := s2 + StmtDefs(x2);
    var s4 := s3 + StmtDefs(x3);
    var s5 := s4 + StmtDefs(x4);
    RecordStatOk(a.statsPkg, "totalOps", s);
    StartTimeOk(a.timePkg, StartFieldName, s1);
    InvocationOk(m, Member("next"), variadic, s2);
    RecordOpsDurationOk(a.statsPkg, a.timePkg, StartFieldName, s3);
    IncrementFailedOpsOk(a.statsPkg, m, s4);
    ReturnResultsOk(m, s5);
    Chain3(x3, x4, x5, [], s3);
    Chain3(x0, x1, x2, [x3, x4, x5] + [], s);
    assert [x3, x4, x5] + [] == [x3, x4, x5];
  }

  /** The library's tag statements declare `tagKey` and `err`, reading only what precedes them. */
  lemma {:induction false} TagSetupOk(a: PackageAliases, m: MethodConfig, s: set<string>, rest: seq<Stmt>)
    requires a.tagPkg in s && CtxName in s && "panic" in s && TagKeyName !in s && ErrName !in s
    requires BlockOk(rest, s + {TagKeyName, ErrName})
    ensures BlockOk(TagSetup(a, m) + rest, s)
  {
    var insert := InsertTagInContext(a.tagPkg, ToSnakeCase(m.name));
    var x0 := CreateTagKey(a.tagPkg);
    var s1 := s + StmtDefs(x0);
    CreateTagKeyOk(a.tagPkg, s);
    InsertTagOk(a.tagPkg, ToSnakeCase(m.name), s1);
    assert s1 + StmtDefs(insert[0]) + StmtDefs(insert[1]) == s + {TagKeyName, ErrName};
    Chain3(x0, insert[0], insert[1], rest, s);
    assert TagSetup(a, m) + rest == [x0, insert[0], insert[1]] + rest;
  }

  /** The library's first two statements declare `ctx` and then read it. */
  lemma {:induction false} ContextSetupOk(a: PackageAliases, m: MethodConfig, s0: set<string>, rest: seq<Stmt>)
    requires Named(m.params) && Named(m.results) && TopFacts(a, m, s0)
    requires BlockOk(rest, s0 + {CtxName})
    ensures BlockOk([ContextParam(a.contextPkg, m), ContextDecorator()] + rest, s0)
  {
    var x0 := ContextParam(a.contextPkg, m);
    ContextParamOk(a.contextPkg, m, s0);
    ContextDecoratorOk(s0 + StmtDefs(x0));
    assert s0 + StmtDefs(x0) + StmtDefs(ContextDecorator()) == s0 + {CtxName};
    Chain2(x0, ContextDecorator(), rest, s0);
  }

  /** The library's body is fine in any scope that has the top facts. */
  lemma {:induction false} BuildMethodBodyOk(structName: string, a: PackageAliases, m: MethodConfig, s0: set<string>)
    requires Named(m.params) && Named(m.results) && TopFacts(a, m, s0)
    ensures BlockOk(BuildMethod(structName, a, m).body, s0)
  {
    var s1 := s0 + {CtxName};
    var s3 := s1 + {TagKeyName, ErrName};
    assert MeasuredFacts(a, m, s3);
    MeasuredOk(a, m, AnyEllipsis(m.params), s3);
    var measured := Measured(a, m, MethodInvocation(m, Member("next")));
    TagSetupOk(a, m, s1, measured);
    ContextSetupOk(a, m, s0, TagSetup(a, m) + measured);
  }

  /**
   * Every name the library's method reads is declared before it is read,
   * and every `:=` and `var` declares something new: the context, the tag
   * key, `err`, `start` and then the results, which the anonymised
   * signature leaves undeclared.
   */
  lemma {:induction false} BuildMethodWellScoped(structName: string, a: PackageAliases, m: MethodConfig)
    requires Normalised(m) && AliasesApart(a, m)
    ensures Named(m.params) && Named(m.results)
    ensures WellScoped(BuildMethod(structName, a, m), AliasSet(a))
  {
    var d := BuildMethod(structName, a, m);
    TopScope(a, m, d);
    BuildMethodBodyOk(structName, a, m, AliasSet(a) + Predeclared + SignatureScope(d));
  }

  /** The command's tag statements declare `tagKey` only; both errors go to `_`. */
  lemma {:induction false} TagDiscardingOk(a: PackageAliases, m: MethodConfig, s: set<string>, rest: seq<Stmt>)
    requires a.tagPkg in s && CtxName in s && TagKeyName !in s
    requires BlockOk(rest, s + {TagKeyName})
    ensures BlockOk([CreateTagKeyDiscarding(a.tagPkg), InsertTagDiscarding(a.tagPkg, ToSnakeCase(m.name))] + rest, s)
  {
    var x0 := CreateTagKeyDiscarding(a.tagPkg);
    var x1 := InsertTagDiscarding(a.tagPkg, ToSnakeCase(m.name));
    OneExpr(Id(TagKeyName));
    assert StmtOk(x0, s);
    InsertTagDiscardingOk(a.tagPkg, ToSnakeCase(m.name), s + StmtDefs(x0));
    assert s + StmtDefs(x0) + StmtDefs(x1) == s + {TagKeyName};
    Chain2(x0, x1, rest, s);
  }

  /** The command's body is fine in any scope that has the top facts. */
  lemma {:induction false} BuildMethodDiscardingBodyOk(structName: string, a: PackageAliases, m: MethodConfig, s0: set<string>)
    requires Named(m.params) && Named(m.results) && TopFacts(a, m, s0)
    ensures BlockOk(BuildMethodDiscarding(structName, a, m).body, s0)
  {
    var x0 := ContextParam(a.contextPkg, m);
    var s1 := s0 + {CtxName};
    var s2 := s1 + {TagKeyName};
    assert MeasuredFacts(a, m, s2);
    MeasuredOk(a, m, false, s2);
    var rest := [CreateTagKeyDiscarding(a.tagPkg), InsertTagDiscarding(a.tagPkg, ToSnakeCase(m.name))]
      + Measured(a, m, PlainInvocation(m, Member("next")));
    TagDiscardingOk(a, m, s1, Measured(a, m, PlainInvocation(m, Member("next"))));
    ContextParamOk(a.contextPkg, m, s0);
    assert s0 + StmtDefs(x0) == s1;
    Cons(x0, rest, s0);
  }

  /**
   * The command's method is well scoped too: dropping the decorator and
   * discarding the tag errors leaves every read after its declaration.
   */
  lemma {:induction false} BuildMethodDiscardingWellScoped(structName: string, a: PackageAliases, m: MethodConfig)
    requires Normalised(m) && AliasesApart(a, m)
    ensures Named(m.params) && Named(m.results)
    ensures WellScoped(BuildMethodDiscarding(structName, a, m), AliasSet(a))
  {
    var d := BuildMethodDiscarding(structName, a, m);
    TopScope(a, m, d);
    BuildMethodDiscardingBodyOk(structName, a, m, AliasSet(a) + Predeclared + SignatureScope(d));
  }
}

=== FILE: receivers.dfy ===
/**
 * What the two text-template generators, `mongen` and `logen`, share
 * line for line: splitting the receiver's qualified interface name,
 * naming the parameters and results the type checker reports, the
 * signature line, and the result assignment and return statement around
 * the forwarded call.
 */
module Receivers {
  import opened Text
  import opened GenStrings

  /** The position of the first `c` in `s`, or `|s|` when there is none. */
  function FirstIndex(s: string, c: char): (k: nat)
    ensures k <= |s|
    ensures k < |s| ==> s[k] == c
    ensures forall i :: 0 <= i < k ==> s[i] != c
  {
    if |s| == 0 then 0 else if s[0] == c then 0 else 1 + FirstIndex(s[1..], c)
  }

  predicate NoDot(s: string) { forall i :: 0 <= i < |s| ==> s[i] != '.' }

  /**
   * `removePackageName`: the longest dot-free suffix, which is everything
   * after the last dot, or the whole identifier when it has none.
   */
  function RemovePackageName(identifier: string): (r: string)
    ensures HasSuffix(identifier, r) && NoDot(r)
    ensures |r| < |identifier| ==> identifier[|identifier| - |r| - 1] == '.'
  {
    identifier[AfterLast(identifier, '.')..]
  }

  /** `strings.Split(s, ".")[0]`, as `writePackageName` takes the package name. */
  function PackagePart(s: string): (r: string)
    ensures |r| <= |s| && r == s[..|r|] && NoDot(r)
    ensures |r| < |s| ==> s[|r|] == '.'
  {
    s[..FirstIndex(s, '.')]
  }

  /**
   * `writeConstructor`'s name: `strings.Split(s, ".")[1]` when `s` holds a
   * dot, the whole of `s` otherwise.
   */
  function ConstructorName(s: string): (r: string)
    ensures NoDot(r)
  {
    var k := FirstIndex(s, '.');
    if k == |s| then s
    else
      var rest := s[k + 1..];
      rest[..FirstIndex(rest, '.')]
  }

  /**
   * The receiver's interface is written `pkg.Name`; the three splitters
   * recover its two parts.
   */
  lemma QualifiedNameParts(pkg: string, name: string)
    requires NoDot(pkg) && NoDot(name)
    ensures PackagePart(pkg + "." + name) == pkg
    ensures RemovePackageName(pkg + "." + name) == name
    ensures ConstructorName(pkg + "." + name) == name
  {
    var s := pkg + "." + name;
    assert s[|pkg|] == '.';
    var k := FirstIndex(s, '.');
    assert k == |pkg|;
    assert s[k + 1..] == name;
    var r := RemovePackageName(s);
    assert |r| == |name|;
  }

  // -------------------------------------------------------------- naming

  /** A parameter or result as the type checker reports it; the name may be empty. */
  datatype Var = Var(name: string, typ: string)

  /** The reported name, or `<prefix><position>` counting from zero when there is none. */
  function GivenName(v: Var, prefix: string, i: nat): (n: string)
    ensures n != ""
    ensures v.name != "" ==> n == v.name
    ensures v.name == "" ==> n == prefix + NatStr(i)
  {
    if v.name == "" then prefix + NatStr(i) else v.name
  }

  /** `buildReceiver`'s parameter list: unnamed parameters become `arg0`, `arg1`, ... */
  function NameArgs(ps: seq<Var>): (args: seq<Arg>)
    ensures |args| == |ps|
    ensures forall i :: 0 <= i < |ps| ==> args[i] == Arg(GivenName(ps[i], "arg", i), ps[i].typ)
  {
    seq(|ps|, i requires 0 <= i < |ps| => Arg(GivenName(ps[i], "arg", i), ps[i].typ))
  }

  /** `buildReceiver`'s result list: unnamed results become `ret0`, `ret1`, ... */
  function NameResults(rs: seq<Var>): (res: seq<Result>)
    ensures |res| == |rs|
    ensures forall i :: 0 <= i < |rs| ==> res[i] == Result(GivenName(rs[i], "ret", i), rs[i].typ)
  {
    seq(|rs|, i requires 0 <= i < |rs| => Result(GivenName(rs[i], "ret", i), rs[i].typ))
  }

  /**
   * A Go signature names all of a list's entries or none of them. Either
   * way the given names are non-empty, and they are pairwise distinct
   * whenever the reported names were.
   */
  predicate WellNamed(vs: seq<Var>)
  {
    (forall i :: 0 <= i < |vs| ==> vs[i].name == "")
    || ((forall i :: 0 <= i < |vs| ==> vs[i].name != "")
        && (forall i, j :: 0 <= i < j < |vs| ==> vs[i].name != vs[j].name))
  }

  lemma GivenNamesDistinct(vs: seq<Var>, prefix: string, i: nat, j: nat)
    requires WellNamed(vs) && 0 <= i < j < |vs|
    ensures GivenName(vs[i], prefix, i) != GivenName(vs[j], prefix, j)
  {
    if vs[i].name == "" {
      assert vs[j].name == "";
      var a, b := prefix + NatStr(i), prefix + NatStr(j);
      if a == b {
        assert NatStr(i) == a[|prefix|..];
        assert NatStr(j) == b[|prefix|..];
        NatStrInjective(i, j);
        assert false;
      }
    } else {
      assert vs[i].name != vs[j].name;
    }
  }

  /** `DoWork(int, string) (string, error)` is forwarded as `arg0`, `arg1` returning `ret0`, `ret1`. */
  lemma UnnamedExample(ps: seq<Var>, rs: seq<Var>)
    requires ps == [Var("", "int"), Var("", "string")]
    requires rs == [Var("", "string"), Var("", "error")]
    ensures NameArgs(ps) == [Arg("arg0", "int"), Arg("arg1", "string")]
    ensures NameResults(rs) == [Result("ret0", "string"), Result("ret1", "error")]
  {
    assert NatStr(0) == "0" && NatStr(1) == "1";
    var a, r := NameArgs(ps), NameResults(rs);
    assert a[0] == Arg("arg0", "int") && a[1] == Arg("arg1", "string");
    assert r[0] == Result("ret0", "string") && r[1] == Result("ret1", "error");
  }

  // ---------------------------------------------------------- signatures

  /** How a signature prints its results: `Results.String` or `Results.NamedString`. */
  datatype ResultForm = TypesOnly | Named

  /** `writeSignature`: `func (<recv> *<type>) <name>(<args>)<results>`. */
  function Signature(recvName: string, typeName: string, m: Method, form: ResultForm): (s: string)
    ensures |SignatureHead(recvName, typeName, m)| <= |s|
    ensures s[..|SignatureHead(recvName, typeName, m)|] == SignatureHead(recvName, typeName, m)
    ensures s == SignatureHead(recvName, typeName, m) <==> |m.results| == 0
    ensures form == Named && |m.results| > 0 ==>
      s[|SignatureHead(recvName, typeName, m)|..] == ArgsString(AsArgs(m.results))
  {
    var head := SignatureHead(recvName, typeName, m);
    var results := if form == Named then NamedString(m.results) else ResultsString(m.results);
    assert (head + results)[..|head|] == head && (head + results)[|head|..] == results;
    head + results
  }

  /** Everything a signature prints before its results: receiver, method name and parameters. */
  function SignatureHead(recvName: string, typeName: string, m: Method): string
  {
    "func (" + recvName + " *" + typeName + ") " + m.name + ArgsString(m.args)
  }

  /**
   * The names a signature brings into scope, by Go's rules: every
   * parameter name, and the result names only when the results are
   * printed with their names.
   */
  function Declared(m: Method, form: ResultForm): seq<string>
  {
    ArgNames(m.args) + (if form == Named then ResultNames(m.results) else [])
  }

  /** A plain `=` to the result names compiles only when each of them is already declared. */
  predicate AssignsDeclared(m: Method, form: ResultForm)
  {
    forall i :: 0 <= i < |m.results| ==> m.results[i].name in Declared(m, form)
  }

  lemma NamedResultsDeclared(m: Method)
    ensures AssignsDeclared(m, Named)
  {
    forall i | 0 <= i < |m.results| ensures m.results[i].name in Declared(m, Named) {
      assert Declared(m, Named)[|m.args| + i] == m.results[i].name;
    }
  }

  // ------------------------------------------------- assignment and return

  /** The result names, `,` between them and `=` after the last: the forwarded call's left-hand side. */
  function AssignTargets(rs: seq<Result>): string
    decreases |rs|
  {
    if |rs| == 0 then ""
    else if |rs| == 1 then rs[0].name + "="
    else rs[0].name + "," + AssignTargets(rs[1..])
  }

  /** `writeReturnStatement`: nothing without results, else `return ` and the names joined by `,`. */
  function ReturnStatement(rs: seq<Result>): (s: string)
    ensures s == "" <==> |rs| == 0
  {
    if |rs| == 0 then "" else "return " + Join(ResultNames(rs), ",")
  }

  /** The call assigns exactly the names the return statement returns, in the same order. */
  lemma {:induction false} TargetsJoinNames(rs: seq<Result>)
    ensures |rs| == 0 ==> AssignTargets(rs) == ""
    ensures |rs| > 0 ==> AssignTargets(rs) == Join(ResultNames(rs), ",") + "="
    decreases |rs|
  {
    if |rs| > 1 {
      TargetsJoinNames(rs[1..]);
      assert ResultNames(rs[1..]) == ResultNames(rs)[1..];
    }
  }

  lemma TargetsAreReturned(rs: seq<Result>)
    requires |rs| > 0
    ensures var t := AssignTargets(rs);
      |t| > 0 && t[|t| - 1] == '=' && ReturnStatement(rs) == "return " + t[..|t| - 1]
  {
    TargetsJoinNames(rs);
    var t := AssignTargets(rs);
    assert t[..|t| - 1] == Join(ResultNames(rs), ",");
  }

  /** The last result's name is the last thing assigned before the `=`. */
  lemma LastTargetIsLastResult(rs: seq<Result>)
    requires |rs| > 0
    ensures var t := AssignTargets(rs);
      var last := rs[|rs| - 1].name + "=";
      |t| >= |last| && t[|t| - |last|..] == last
  {
    TargetsJoinNames(rs);
    JoinEnds(ResultNames(rs), ",");
  }
}

=== FILE: resolver.dfy ===
/**
 * The resolver: rewrites a type expression taken from a parsed source
 * file so that it means the same thing inside the generated file. Every
 * non-builtin name becomes a selector whose qualifier is the alias under
 * which the declaring package is imported into the generated file;
 * composite types are rewritten component by component.
 */
module Resolve {
  import opened Ast
  import opened Context
  import Locate
  import Imports

  /** The names the resolver leaves unqualified. */
  const BuiltIns: set<string> := {
    "bool", "byte", "complex64", "complex128", "error", "float32", "float64",
    "int", "int8", "int16", "int32", "int64", "rune", "string",
    "uint", "uint8", "uint16", "uint32", "uint64", "uintptr"
  }

  predicate IsBuiltIn(name: string) { name in BuiltIns }

  /** Every builtin name has at least three letters, so shorter names are always looked up. */
  lemma ShortNamesAreNotBuiltIn(name: string)
    requires |name| < 3
    ensures !IsBuiltIn(name)
  {
    assert forall b :: b in BuiltIns ==> |b| >= 3;
  }

  /** What the resolver threads through a rewrite: the locator and the generated file's imports. */
  datatype RState = RState(locator: Locate.Locator, imports: Imports.ImportTable)

  ghost predicate Good(s: RState)
  {
    Locate.Coherent(s.locator) && Imports.Valid(s.imports)
  }

  /** Later states keep everything earlier ones cached or registered. */
  predicate Grows(s: RState, s2: RState)
  {
    Locate.Extends(s.locator, s2.locator) && Imports.Extends(s.imports, s2.imports)
  }

  lemma GrowsTransitive(a: RState, b: RState, c: RState)
    requires Grows(a, b) && Grows(b, c)
    ensures Grows(a, c)
  {
    Locate.ExtendsTransitive(a.locator, b.locator, c.locator);
    Imports.ExtendsTransitive(a.imports, b.imports, c.imports);
  }

  // --------------------------------------------------------- properties

  /**
   * A rewritten type: every bare name is builtin and every qualifier is an
   * alias registered in the generated file.
   */
  predicate Resolved(t: TypeExpr, aliases: set<string>)
    decreases TypeSize(t)
  {
    match t
    case Ident(n) => IsBuiltIn(n)
    case Selector(q, _) => q in aliases
    case ArrayType(_, e) => Resolved(e, aliases)
    case MapType(k, v) => Resolved(k, aliases) && Resolved(v, aliases)
    case ChanType(_, v) => Resolved(v, aliases)
    case StarExpr(x) => Resolved(x, aliases)
    case FuncType(p, r) => ListResolved(p, aliases) && ListResolved(r, aliases)
    case StructType(fs) => ListResolved(fs, aliases)
    case InterfaceType(ms) => ListResolved(ms, aliases)
    case Ellipsis(e) => Resolved(e, aliases)
    case Other(_) => true
  }

  predicate ListResolved(l: FieldList, aliases: set<string>)
    decreases ListSize(l)
  {
    l.List? ==> FieldsResolved(l.fields, aliases)
  }

  predicate FieldsResolved(fs: seq<Field>, aliases: set<string>)
    decreases FieldsSize(fs)
  {
    |fs| > 0 ==> Resolved(fs[0].typ, aliases) && FieldsResolved(fs[1..], aliases)
  }

  /**
   * A type with every qualifier dropped: what the rewrite must keep. Names,
   * composite shapes, field names, array lengths and channel directions
   * all survive; only the package a name is reached through may change.
   */
  function Erase(t: TypeExpr): TypeExpr
    decreases TypeSize(t)
  {
    match t
    case Ident(n) => Ident(n)
    case Selector(_, s) => Ident(s)
    case ArrayType(n, e) => ArrayType(n, Erase(e))
    case MapType(k, v) => MapType(Erase(k), Erase(v))
    case ChanType(d, v) => ChanType(d, Erase(v))
    case StarExpr(x) => StarExpr(Erase(x))
    case FuncType(p, r) => FuncType(EraseList(p), EraseList(r))
    case StructType(fs) => StructType(EraseList(fs))
    case InterfaceType(ms) => InterfaceType(EraseList(ms))
    case Ellipsis(e) => Ellipsis(Erase(e))
    case Other(x) => Other(x)
  }

  function EraseList(l: FieldList): FieldList
    decreases ListSize(l)
  {
    match l
    case NilList => NilList
    case List(fs) => List(EraseFields(fs))
  }

  function EraseFields(fs: seq<Field>): seq<Field>
    decreases FieldsSize(fs)
  {
    if |fs| == 0 then [] else [Field(fs[0].names, Erase(fs[0].typ))] + EraseFields(fs[1..])
  }

  /** Registering more aliases never un-resolves a type. */
  lemma {:induction false} ResolvedMonotone(t: TypeExpr, a: set<string>, b: set<string>)
    requires Resolved(t, a) && a <= b
    ensures Resolved(t, b)
    decreases TypeSize(t)
  {
    match t
    case Ident(_) =>
    case Selector(_, _) =>
    case ArrayType(_, e) => ResolvedMonotone(e, a, b);
    case MapType(k, v) => ResolvedMonotone(k, a, b); ResolvedMonotone(v, a, b);
    case ChanType(_, v) => ResolvedMonotone(v, a, b);
    case StarExpr(x) => ResolvedMonotone(x, a, b);
    case FuncType(p, r) => ListResolvedMonotone(p, a, b); ListResolvedMonotone(r, a, b);
    case StructType(fs) => ListResolvedMonotone(fs, a, b);
    case InterfaceType(ms) => ListResolvedMonotone(ms, a, b);
    case Ellipsis(e) => ResolvedMonotone(e, a, b);
    case Other(_) =>
  }

  lemma {:induction false} ListResolvedMonotone(l: FieldList, a: set<string>, b: set<string>)
    requires ListResolved(l, a) && a <= b
    ensures ListResolved(l, b)
    decreases ListSize(l)
  {
    if l.List? { FieldsResolvedMonotone(l.fields, a, b); }
  }

  lemma {:induction false} FieldsResolvedMonotone(fs: seq<Field>, a: set<string>, b: set<string>)
    requires FieldsResolved(fs, a) && a <= b
    ensures FieldsResolved(fs, b)
    decreases FieldsSize(fs)
  {
    if |fs| > 0 {
      ResolvedMonotone(fs[0].typ, a, b);
      FieldsResolvedMonotone(fs[1..], a, b);
    }
  }

  // ----------------------------------------------------------- rewriting

  /**
   * `r` is the rewrite of a name whose declaration search gave `found`: a
   * failed search is reported with the imports untouched; a found
   * declaration yields `alias.name`, with `alias` the one its location is
   * now imported under.
   */
  predicate RequalifiedBy(found: Result<Locate.Discovery>, name: string, s: RState, r: Run<TypeExpr, RState>)
  {
    match found
    case Err(e) => r.result == Err(e) && r.state.imports == s.imports
    case Ok(d) =>
      var added := Imports.AddImport(s.imports, "", d.location);
      r.result == Ok(Selector(added.alias, name)) && r.state.imports == added.table
      && d.location in r.state.imports.importToAlias
      && r.state.imports.importToAlias[d.location] == added.alias
  }

  /**
   * A bare name: builtins stay as they are; any other name is looked up in
   * the context's local locations and becomes `alias.Name`, importing the
   * declaring location under a generated alias.
   */
  function ResolveIdent(c: LocatorContext, n: string, s: RState): (r: Run<TypeExpr, RState>)
    ensures Good(s) ==> Good(r.state) && Grows(s, r.state)
    ensures IsBuiltIn(n) ==> r == Run(Ok(Ident(n)), s)
    ensures Good(s) && !IsBuiltIn(n) ==>
      RequalifiedBy(Locate.Search(s.locator.source, n, CandidateLocations(c, ".")), n, s, r)
  {
    if IsBuiltIn(n) then Run(Ok(Ident(n)), s)
    else
      var found := Locate.FindIdentType(s.locator, c, n);
      match found.result
      case Err(e) => Run(Err(e), s.(locator := found.state))
      case Ok(d) =>
        var added := Imports.AddImport(s.imports, "", d.location);
        Run(Ok(Selector(added.alias, n)), RState(found.state, added.table))
  }

  /**
   * A qualified name `q.sel`: looked up by `sel` in the candidate locations
   * of qualifier `q`, and re-qualified with the generated file's alias for
   * the declaring location. The selected name is kept.
   */
  function ResolveSelector(c: LocatorContext, q: string, sel: string, s: RState): (r: Run<TypeExpr, RState>)
    ensures Good(s) ==> Good(r.state) && Grows(s, r.state)
    ensures Good(s) ==>
      RequalifiedBy(Locate.Search(s.locator.source, sel, CandidateLocations(c, q)), sel, s, r)
  {
    var found := Locate.FindSelectorType(s.locator, c, q, sel);
    match found.result
    case Err(e) => Run(Err(e), s.(locator := found.state))
    case Ok(d) =>
      var added := Imports.AddImport(s.imports, "", d.location);
      Run(Ok(Selector(added.alias, sel)), RState(found.state, added.table))
  }

  /**
   * Rewrite a type expression. Composite types are rewritten component by
   * component, a map's key before its value and a function's parameters
   * before its results; the first failure ends the rewrite. Other
   * expressions are returned unchanged.
   */
  function ResolveType(c: LocatorContext, t: TypeExpr, s: RState): (r: Run<TypeExpr, RState>)
    decreases TypeSize(t)
    ensures Good(s) ==> Good(r.state) && Grows(s, r.state)
    ensures Good(s) && r.result.Ok? ==>
      Resolved(r.result.value, r.state.imports.aliasToImport.Keys)
      && Erase(r.result.value) == Erase(t)
  {
    match t
    case Ident(n) => ResolveIdent(c, n, s)
    case Selector(q, sel) => ResolveSelector(c, q, sel, s)
    case ArrayType(len, e) =>
      var re := ResolveType(c, e, s);
      if re.result.Err? then Run(Err(re.result.error), re.state)
      else Run(Ok(ArrayType(len, re.result.value)), re.state)
    case MapType(k, v) =>
      var rk := ResolveType(c, k, s);
      if rk.result.Err? then Run(Err(rk.result.error), rk.state)
      else
        var rv := ResolveType(c, v, rk.state);
        assert Good(s) ==> Grows(s, rv.state) by { if Good(s) { GrowsTransitive(s, rk.state, rv.state); } }
        if rv.result.Err? then Run(Err(rv.result.error), rv.state)
        else
          assert Good(s) ==> Resolved(rk.result.value, rv.state.imports.aliasToImport.Keys) by {
            if Good(s) {
              ResolvedMonotone(rk.result.value, rk.state.imports.aliasToImport.Keys,
                               rv.state.imports.aliasToImport.Keys);
            }
          }
          Run(Ok(MapType(rk.result.value, rv.result.value)), rv.state)
    case ChanType(d, v) =>
      var rv := ResolveType(c, v, s);
      if rv.result.Err? then Run(Err(rv.result.error), rv.state)
      else Run(Ok(ChanType(d, rv.result.value)), rv.state)
    case StarExpr(x) =>
      var rx := ResolveType(c, x, s);
      if rx.result.Err? then Run(Err(rx.result.error), rx.state)
      else Run(Ok(StarExpr(rx.result.value)), rx.state)
    case FuncType(p, res) =>
      var rp := ResolveList(c, p, s);
      if rp.result.Err? then Run(Err(rp.result.error), rp.state)
      else
        var rr := ResolveList(c, res, rp.state);
        assert Good(s) ==> Grows(s, rr.state) by { if Good(s) { GrowsTransitive(s, rp.state, rr.state); } }
        if rr.result.Err? then Run(Err(rr.result.error), rr.state)
        else
          assert Good(s) ==> ListResolved(rp.result.value, rr.state.imports.aliasToImport.Keys) by {
            if Good(s) {
              ListResolvedMonotone(rp.result.value, rp.state.imports.aliasToImport.Keys,
                                   rr.state.imports.aliasToImport.Keys);
            }
          }
          Run(Ok(FuncType(rp.result.value, rr.result.value)), rr.state)
    case StructType(fs) =>
      var rf := ResolveList(c, fs, s);
      if rf.result.Err? then Run(Err(rf.result.error), rf.state)
      else Run(Ok(StructType(rf.result.value)), rf.state)
    case InterfaceType(ms) =>
      var rm := ResolveList(c, ms, s);
      if rm.result.Err? then Run(Err(rm.result.error), rm.state)
      else Run(Ok(InterfaceType(rm.result.value)), rm.state)
    case Ellipsis(e) =>
      var re := ResolveType(c, e, s);
      if re.result.Err? then Run(Err(re.result.error), re.state)
      else Run(Ok(Ellipsis(re.result.value)), re.state)
    case Other(_) => Run(Ok(t), s)
  }

  /** An absent field list stays absent; a present one is rewritten field by field. */
  function ResolveList(c: LocatorContext, l: FieldList, s: RState): (r: Run<FieldList, RState>)
    decreases ListSize(l)
    ensures Good(s) ==> Good(r.state) && Grows(s, r.state)
    ensures r.result.Ok? ==> r.result.value.NilList? == l.NilList?
    ensures Good(s) && r.result.Ok? ==>
      ListResolved(r.result.value, r.state.imports.aliasToImport.Keys)
      && EraseList(r.result.value) == EraseList(l)
  {
    match l
    case NilList => Run(Ok(NilList), s)
    case List(fs) =>
      var rf := ResolveFields(c, fs, s);
      if rf.result.Err? then Run(Err(rf.result.error), rf.state)
      else Run(Ok(List(rf.result.value)), rf.state)
  }

  /** Fields in order, names kept, each type rewritten; the first failure ends the walk. */
  function ResolveFields(c: LocatorContext, fs: seq<Field>, s: RState): (r: Run<seq<Field>, RState>)
    decreases FieldsSize(fs)
    ensures Good(s) ==> Good(r.state) && Grows(s, r.state)
    ensures r.result.Ok? ==>
      |r.result.value| == |fs| && forall i :: 0 <= i < |fs| ==> r.result.value[i].names == fs[i].names
    ensures Good(s) && r.result.Ok? ==>
      FieldsResolved(r.result.value, r.state.imports.aliasToImport.Keys)
      && EraseFields(r.result.value) == EraseFields(fs)
  {
    if |fs| == 0 then Run(Ok([]), s)
    else
      var rh := ResolveType(c, fs[0].typ, s);
      if rh.result.Err? then Run(Err(rh.result.error), rh.state)
      else
        var rt := ResolveFields(c, fs[1..], rh.state);
        assert Good(s) ==> Grows(s, rt.state) by { if Good(s) { GrowsTransitive(s, rh.state, rt.state); } }
        if rt.result.Err? then Run(Err(rt.result.error), rt.state)
        else
          var out := [Field(fs[0].names, rh.result.value)] + rt.result.value;
          assert out[1..] == rt.result.value;
          assert Good(s) ==> Resolved(rh.result.value, rt.state.imports.aliasToImport.Keys) by {
            if Good(s) {
              ResolvedMonotone(rh.result.value, rh.state.imports.aliasToImport.Keys,
                               rt.state.imports.aliasToImport.Keys);
            }
          }
          Run(Ok(out), rt.state)
  }

  // ------------------------------------------------------------- replay

  /**
   * Resolving a name again, on any good state that grew from the first
   * resolution's result, gives the same answer and changes nothing: the
   * lookup is served from the cache and the import is already registered.
   */
  lemma ResolveIdentReplay(c: LocatorContext, n: string, s: RState, s2: RState)
    requires Good(s) && Good(s2) && Grows(ResolveIdent(c, n, s).state, s2)
    ensures ResolveIdent(c, n, s2) == Run(ResolveIdent(c, n, s).result, s2)
  {
    if !IsBuiltIn(n) {
      Locate.LookupReplay(s.locator, n, CandidateLocations(c, "."), s2.locator);
    }
  }

  lemma ResolveSelectorReplay(c: LocatorContext, q: string, sel: string, s: RState, s2: RState)
    requires Good(s) && Good(s2) && Grows(ResolveSelector(c, q, sel, s).state, s2)
    ensures ResolveSelector(c, q, sel, s2) == Run(ResolveSelector(c, q, sel, s).result, s2)
  {
    Locate.LookupReplay(s.locator, sel, CandidateLocations(c, q), s2.locator);
  }

  /** The same for any type expression: a rewrite is a function of the declaration alone. */
  lemma {:induction false} ResolveTypeReplay(c: LocatorContext, t: TypeExpr, s: RState, s2: RState)
    requires Good(s) && Good(s2) && Grows(ResolveType(c, t, s).state, s2)
    ensures ResolveType(c, t, s2) == Run(ResolveType(c, t, s).result, s2)
    decreases TypeSize(t), 1
  {
    match t
    case Ident(n) => ResolveIdentReplay(c, n, s, s2);
    case Selector(q, sel) => ResolveSelectorReplay(c, q, sel, s, s2);
    case ArrayType(_, e) => ResolveTypeReplay(c, e, s, s2);
    case MapType(k, v) => MapTypeReplay(c, k, v, s, s2);
    case ChanType(_, v) => ResolveTypeReplay(c, v, s, s2);
    case StarExpr(x) => ResolveTypeReplay(c, x, s, s2);
    case FuncType(p, res) => FuncTypeReplay(c, p, res, s, s2);
    case StructType(fs) => ResolveListReplay(c, fs, s, s2);
    case InterfaceType(ms) => ResolveListReplay(c, ms, s, s2);
    case Ellipsis(e) => ResolveTypeReplay(c, e, s, s2);
    case Other(_) =>
  }

  lemma {:induction false} MapTypeReplay(c: LocatorContext, k: TypeExpr, v: TypeExpr, s: RState, s2: RState)
    requires Good(s) && Good(s2) && Grows(ResolveType(c, MapType(k, v), s).state, s2)
    ensures ResolveType(c, MapType(k, v), s2) == Run(ResolveType(c, MapType(k, v), s).result, s2)
    decreases TypeSize(MapType(k, v)), 0
  {
    var rk := ResolveType(c, k, s);
    if rk.result.Ok? {
      var rv := ResolveType(c, v, rk.state);
      GrowsTransitive(rk.state, rv.state, s2);
      ResolveTypeReplay(c, k, s, s2);
      ResolveTypeReplay(c, v, rk.state, s2);
    } else {
      ResolveTypeReplay(c, k, s, s2);
    }
  }

  lemma {:induction false} FuncTypeReplay(c: LocatorContext, p: FieldList, res: FieldList, s: RState, s2: RState)
    requires Good(s) && Good(s2) && Grows(ResolveType(c, FuncType(p, res), s).state, s2)
    ensures ResolveType(c, FuncType(p, res), s2) == Run(ResolveType(c, FuncType(p, res), s).result, s2)
    decreases TypeSize(FuncType(p, res)), 0
  {
    var rp := ResolveList(c, p, s);
    if rp.result.Ok? {
      var rr := ResolveList(c, res, rp.state);
      GrowsTransitive(rp.state, rr.state, s2);
      ResolveListReplay(c, p, s, s2);
      ResolveListReplay(c, res, rp.state, s2);
    } else {
      ResolveListReplay(c, p, s, s2);
    }
  }

  lemma {:induction false} ResolveListReplay(c: LocatorContext, l: FieldList, s: RState, s2: RState)
    requires Good(s) && Good(s2) && Grows(ResolveList(c, l, s).state, s2)
    ensures ResolveList(c, l, s2) == Run(ResolveList(c, l, s).result, s2)
    decreases ListSize(l)
  {
    if l.List? {
      ResolveFieldsReplay(c, l.fields, s, s2);
    }
  }

  lemma {:induction false} ResolveFieldsReplay(c: LocatorContext, fs: seq<Field>, s: RState, s2: RState)
    requires Good(s) && Good(s2) && Grows(ResolveFields(c, fs, s).state, s2)
    ensures ResolveFields(c, fs, s2) == Run(ResolveFields(c, fs, s).result, s2)
    decreases FieldsSize(fs)
  {
    if |fs| > 0 {
      var rh := ResolveType(c, fs[0].typ, s);
      if rh.result.Ok? {
        var rt := ResolveFields(c, fs[1..], rh.state);
        GrowsTransitive(rh.state, rt.state, s2);
        ResolveTypeReplay(c, fs[0].typ, s, s2);
        ResolveFieldsReplay(c, fs[1..], rh.state, s2);
      } else {
        ResolveTypeReplay(c, fs[0].typ, s, s2);
      }
    }
  }

  /** A builtin or an expression the resolver does not inspect costs no lookup and no import. */
  lemma UntouchedTypes(c: LocatorContext, t: TypeExpr, s: RState)
    requires (t.Ident? && IsBuiltIn(t.name)) || t.Other?
    ensures ResolveType(c, t, s) == Run(Ok(t), s)
  {
  }

  /** A map whose key cannot be resolved fails with the key's error; its value is never looked up. */
  lemma MapKeyFirst(c: LocatorContext, k: TypeExpr, v: TypeExpr, s: RState)
    requires ResolveType(c, k, s).result.Err?
    ensures ResolveType(c, MapType(k, v), s) == ResolveType(c, k, s).(result := Err(ResolveType(c, k, s).result.error))
  {
  }
}

=== FILE: snake.dfy ===
/**
 * Snake-casing of method names for metric labels and file names: one
 * rune-by-rune rule, written out identically three times in the
 * repository. Go's `unicode` classes are narrowed to ASCII: upper and
 * lower case letters are `A`-`Z` and `a`-`z`, and numbers are digits.
 */
module Snake {
  import opened Text

  /**
   * An underscore goes before rune `i` when it is not the first rune, it
   * is upper case or a digit, and the rune after it or the rune before it
   * is lower case.
   */
  predicate Boundary(s: string, i: nat)
    requires i < |s|
  {
    i > 0 && (IsUpper(s[i]) || IsDigit(s[i]))
    && ((i + 1 < |s| && IsLower(s[i + 1])) || IsLower(s[i - 1]))
  }

  /** The output the first `n` runes produce. */
  function SnakeUpTo(s: string, n: nat): string
    requires n <= |s|
  {
    if n == 0 then ""
    else SnakeUpTo(s, n - 1) + (if Boundary(s, n - 1) then "_" else "") + [Lower(s[n - 1])]
  }

  /** How many underscores the first `n` runes insert. */
  function Inserted(s: string, n: nat): nat
    requires n <= |s|
  {
    if n == 0 then 0 else Inserted(s, n - 1) + (if Boundary(s, n - 1) then 1 else 0)
  }

  /** Where the lowered rune `i` lands in the output. */
  function Pos(s: string, i: nat): nat
    requires i < |s|
  {
    i + Inserted(s, i + 1)
  }

  lemma {:induction false} SnakeLength(s: string, n: nat)
    requires n <= |s|
    ensures |SnakeUpTo(s, n)| == n + Inserted(s, n)
  {
    if n > 0 { SnakeLength(s, n - 1); }
  }

  /**
   * Rune `i` appears lowered at `Pos(s, i)`, and when it is a boundary
   * the inserted underscore sits right before it.
   */
  lemma {:induction false} SnakeAt(s: string, n: nat, i: nat)
    requires i < n <= |s|
    ensures Pos(s, i) < |SnakeUpTo(s, n)| && SnakeUpTo(s, n)[Pos(s, i)] == Lower(s[i])
    ensures Boundary(s, i) ==> Pos(s, i) >= 1 && SnakeUpTo(s, n)[Pos(s, i) - 1] == '_'
  {
    SnakeLength(s, n - 1);
    var prev := SnakeUpTo(s, n - 1);
    if i < n - 1 {
      SnakeAt(s, n - 1, i);
      assert SnakeUpTo(s, n)[..|prev|] == prev;
    }
  }

  lemma {:induction false} InsertedMonotone(s: string, i: nat, n: nat)
    requires i <= n <= |s|
    ensures Inserted(s, i) <= Inserted(s, n)
    decreases n
  {
    if i < n { InsertedMonotone(s, i, n - 1); }
  }

  /** Positions are strictly increasing, and an inserted underscore never lands on an earlier rune. */
  lemma PosOrdered(s: string, i: nat, j: nat)
    requires i < j < |s|
    ensures Pos(s, i) < Pos(s, j) - (if Boundary(s, j) then 1 else 0)
  {
    InsertedMonotone(s, i + 1, j);
  }

  /**
   * Snake case of `s`: lower case throughout, as long as the input plus
   * one per boundary, empty exactly for the empty input, and never
   * starting with an inserted underscore.
   */
  function ToSnakeCase(s: string): (r: string)
    ensures |r| == |s| + Inserted(s, |s|)
    ensures NoUpper(r)
    ensures r == "" <==> s == ""
    ensures |s| > 0 ==> Pos(s, 0) == 0 && r[0] == Lower(s[0])
    ensures forall i :: 0 <= i < |s| ==> Pos(s, i) < |r| && r[Pos(s, i)] == Lower(s[i])
    ensures forall i :: 0 <= i < |s| && Boundary(s, i) ==> Pos(s, i) >= 1 && r[Pos(s, i) - 1] == '_'
  {
    SnakeLength(s, |s|);
    NoUpperUpTo(s, |s|);
    SnakeAtAll(s);
    assert |s| > 0 ==> Inserted(s, 1) == 0;
    SnakeUpTo(s, |s|)
  }

  lemma SnakeAtAll(s: string)
    ensures forall i :: 0 <= i < |s| ==>
      Pos(s, i) < |SnakeUpTo(s, |s|)| && SnakeUpTo(s, |s|)[Pos(s, i)] == Lower(s[i])
    ensures forall i :: 0 <= i < |s| && Boundary(s, i) ==>
      Pos(s, i) >= 1 && SnakeUpTo(s, |s|)[Pos(s, i) - 1] == '_'
  {
    forall i | 0 <= i < |s|
      ensures Pos(s, i) < |SnakeUpTo(s, |s|)| && SnakeUpTo(s, |s|)[Pos(s, i)] == Lower(s[i])
      ensures Boundary(s, i) ==> Pos(s, i) >= 1 && SnakeUpTo(s, |s|)[Pos(s, i) - 1] == '_'
    {
      SnakeAt(s, |s|, i);
    }
  }

  lemma {:induction false} NoUpperUpTo(s: string, n: nat)
    requires n <= |s|
    ensures NoUpper(SnakeUpTo(s, n))
  {
    if n > 0 {
      NoUpperUpTo(s, n - 1);
      var r := SnakeUpTo(s, n);
      var prev := SnakeUpTo(s, n - 1);
      forall k | 0 <= k < |r| ensures !IsUpper(r[k]) {
        if k < |prev| { assert r[k] == prev[k]; }
      }
    }
  }

  /** Text with no upper-case letters and no digits is already snake case. */
  lemma {:induction false} PlainTextUnchanged(s: string, n: nat)
    requires n <= |s|
    requires forall i :: 0 <= i < |s| ==> !IsUpper(s[i]) && !IsDigit(s[i])
    ensures SnakeUpTo(s, n) == s[..n]
  {
    if n > 0 {
      PlainTextUnchanged(s, n - 1);
      assert s[..n] == s[..n - 1] + [s[n - 1]];
    }
  }

  lemma PlainTextIsSnakeCase(s: string)
    requires forall i :: 0 <= i < |s| ==> !IsUpper(s[i]) && !IsDigit(s[i])
    ensures ToSnakeCase(s) == s
  {
    PlainTextUnchanged(s, |s|);
    assert s[..|s|] == s;
  }

  /** An acronym at the end stays in one word: `UserID` becomes `user_id`. */
  lemma TrailingAcronym(s: string)
    requires s == "UserID"
    ensures ToSnakeCase(s) == "user_id"
  {
    assert SnakeUpTo(s, 1) == "u";
    assert SnakeUpTo(s, 2) == "us";
    assert SnakeUpTo(s, 3) == "use";
    assert SnakeUpTo(s, 4) == "user";
    assert Boundary(s, 4);
    assert SnakeUpTo(s, 5) == "user_i";
    assert !Boundary(s, 5);
    assert SnakeUpTo(s, 6) == "user_id";
  }
}

=== FILE: stub_builder.dfy ===
/**
 * The stub method `gostub` writes for each interface method: lock the
 * method's mutex and unlock it on return, append the arguments to the
 * recorded calls, then call the user's stub function when one is set or
 * return the configured results otherwise.
 */
module StubBuilder {
  import opened Ast
  import opened Walk
  import opened GoCode
  import opened Generate
  import opened CommonBuilders

  /**
   * The receiver and the four fields of the stub struct that belong to the
   * method: its mutex, its recorded arguments, its configured results and
   * its stub function.
   */
  datatype StubFields = StubFields(recv: string, mutex: string, args: string, results: string, stub: string)

  /** `<recv>.<field>`: a field of the stub struct. */
  function FieldSel(f: StubFields, field: string): (e: Expr)
    ensures ExprIds(e) == {f.recv}
  {
    Sel(Id(f.recv), field)
  }

  /** `MutexActionBuilder.Build`: `<mutex>.<action>()`, deferred or as a statement. */
  function MutexAction(mutexSel: Expr, action: string, deferred: bool): (s: Stmt)
    ensures deferred <==> s.DeferStmt?
    ensures !deferred <==> s.ExprStmt?
    ensures (if deferred then s.call else s.x) == Call(Sel(mutexSel, action), [], false)
    ensures StmtDefs(s) == {}
  {
    var call := Call(Sel(mutexSel, action), [], false);
    if deferred then DeferStmt(call) else ExprStmt(call)
  }

  /** The parameters' first names as identifiers: what is recorded and what is forwarded. */
  function ParamSelectors(params: seq<Field>): (es: seq<Expr>)
    requires Named(params)
    ensures |es| == |params|
    ensures forall i :: 0 <= i < |params| ==> es[i] == Id(params[i].names[0])
    ensures ListIds(es) == NameSet(FirstNames(params))
  {
    IdentsIds(FirstNames(params));
    Idents(FirstNames(params))
  }

  /**
   * The recording statement:
   * `<args> = append(<args>, struct{<params, variadics as slices>}{<param names>})`.
   */
  function RecordArgs(f: StubFields, params: seq<Field>): (s: Stmt)
    requires Named(params)
    ensures s.AssignStmt? && s.tok == Assign && s.lhs == [FieldSel(f, f.args)] && |s.rhs| == 1
    ensures s.rhs[0].Call? && s.rhs[0].fun == Id("append") && |s.rhs[0].args| == 2
    ensures s.rhs[0].args[0] == FieldSel(f, f.args) && s.rhs[0].args[1].StructLit?
  {
    var lit := StructLit(FieldsWithoutEllipsis(params), ParamSelectors(params));
    AssignStmt([FieldSel(f, f.args)], Assign, [Call(Id("append"), [FieldSel(f, f.args), lit], false)])
  }

  /** `buildCallStubMethodCode`: return the stub's results, or call it as a statement when there are none. */
  function CallStub(f: StubFields, m: MethodConfig): (ss: seq<Stmt>)
    requires Named(m.params)
    ensures |ss| == 1
    ensures m.HasResults() <==> ss[0].ReturnStmt?
    ensures m.HasResults() ==> |ss[0].results| == 1
  {
    var call := Call(FieldSel(f, f.stub), ParamSelectors(m.params), LastEllipsis(m.params));
    if m.HasResults() then [ReturnStmt([call])] else [ExprStmt(call)]
  }

  /** The call the stub branch makes. */
  function StubCallOf(ss: seq<Stmt>): Expr
  {
    if |ss| == 0 then Lit("")
    else match ss[0]
      case ReturnStmt(rs) => if |rs| > 0 then rs[0] else Lit("")
      case ExprStmt(x) => x
      case _ => Lit("")
  }

  /** `buildReturnReturnsCode`: no else without results, otherwise return each configured result. */
  function ReturnReturns(f: StubFields, results: seq<Field>): (e: Else)
    requires Named(results)
    ensures e == NoElse <==> |results| == 0
    ensures e.ElseBlock? ==>
      e.stmts == [ReturnStmt(seq(|results|, i requires 0 <= i < |results| => Sel(FieldSel(f, f.results), results[i].names[0])))]
  {
    if |results| == 0 then NoElse
    else ElseBlock([ReturnStmt(seq(|results|, i requires 0 <= i < |results| => Sel(FieldSel(f, f.results), results[i].names[0])))])
  }

  /** The final `if <stub> != nil { <call stub> } else { <return results> }`. */
  function Dispatch(f: StubFields, m: MethodConfig): (s: Stmt)
    requires Named(m.params) && Named(m.results)
    ensures s.IfStmt? && s.init.None? && s.cond == NotNil(FieldSel(f, f.stub))
  {
    IfStmt(None, NotNil(FieldSel(f, f.stub)), CallStub(f, m), ReturnReturns(f, m.results))
  }

  /**
   * `StubMethodBuilder.Build`: parameters as given, results anonymised, and
   * four statements: lock, deferred unlock, record, dispatch.
   */
  function BuildMethod(structName: string, f: StubFields, m: MethodConfig): (d: MethodDecl)
    requires Named(m.params) && Named(m.results)
    ensures d.recv == f.recv && d.recvType == structName && d.name == m.name && d.params == m.params
    ensures d.results == FieldsAsAnonymous(m.results)
    ensures |d.body| == 4
  {
    var body := [MutexAction(FieldSel(f, f.mutex), "Lock", false), MutexAction(FieldSel(f, f.mutex), "Unlock", true),
                 RecordArgs(f, m.params), Dispatch(f, m)];
    MethodDecl(f.recv, structName, m.name, m.params, FieldsAsAnonymous(m.results), body)
  }

  // --------------------------------------------------------- properties

  /** The method locks its mutex first and defers unlocking the same mutex. */
  lemma LockReleased(structName: string, f: StubFields, m: MethodConfig)
    requires Named(m.params) && Named(m.results)
    ensures var b := BuildMethod(structName, f, m).body;
      b[0].ExprStmt? && b[0].x == Call(Sel(FieldSel(f, f.mutex), "Lock"), [], false)
      && b[1].DeferStmt? && b[1].call == Call(Sel(FieldSel(f, f.mutex), "Unlock"), [], false)
  {
  }

  /**
   * The recorded literal has one element per parameter, naming it, and a
   * field per parameter with its names and with a variadic type turned
   * into the slice the parameter is inside the method; the stub is called
   * with the same arguments.
   */
  lemma {:induction false} RecordsEveryArgument(structName: string, f: StubFields, m: MethodConfig)
    requires Named(m.params) && Named(m.results)
    ensures var b := BuildMethod(structName, f, m).body;
      var lit := b[2].rhs[0].args[1];
      |lit.elts| == |lit.fields| == |m.params|
      && (forall i :: 0 <= i < |m.params| ==>
            lit.elts[i] == Id(m.params[i].names[0])
            && lit.fields[i].names == m.params[i].names
            && !lit.fields[i].typ.Ellipsis?
            && (m.params[i].typ.Ellipsis? ==> lit.fields[i].typ == ArrayType(None, m.params[i].typ.elt)))
      && StubCallOf(b[3].body).Call? && StubCallOf(b[3].body).args == lit.elts
  {
    var b := BuildMethod(structName, f, m).body;
    assert b[2] == RecordArgs(f, m.params) && b[3] == Dispatch(f, m);
  }

  /**
   * Unlike the monitoring methods, the stub call spreads the last argument
   * exactly when the last parameter is variadic, for every parameter list.
   */
  lemma {:induction false} StubCallForwardsVariadic(structName: string, f: StubFields, m: MethodConfig)
    requires Named(m.params) && Named(m.results)
    ensures ForwardsVariadic(StubCallOf(BuildMethod(structName, f, m).body[3].body), m.params)
  {
    var b := BuildMethod(structName, f, m).body;
    assert b[3] == Dispatch(f, m);
  }

  /**
   * With results, both branches return: the stub call's results, or one
   * configured result per declared result, in order. Without results there
   * is no else branch and the stub is called as a statement.
   */
  lemma {:induction false} BranchesAgree(structName: string, f: StubFields, m: MethodConfig)
    requires Named(m.params) && Named(m.results)
    ensures var s := BuildMethod(structName, f, m).body[3];
      (s.els.ElseBlock? <==> m.HasResults())
      && (s.body[0].ReturnStmt? <==> m.HasResults())
      && (s.els.ElseBlock? ==>
            |s.els.stmts| == 1 && s.els.stmts[0].ReturnStmt?
            && |s.els.stmts[0].results| == |m.results|
            && forall i :: 0 <= i < |m.results| ==>
                 s.els.stmts[0].results[i] == Sel(FieldSel(f, f.results), m.results[i].names[0]))
  {
    var b := BuildMethod(structName, f, m).body;
    assert b[3] == Dispatch(f, m);
  }

  // ------------------------------------------------------------ scoping

  lemma {:induction false} DispatchOk(f: StubFields, m: MethodConfig, scope: set<string>)
    requires Named(m.params) && Named(m.results)
    requires f.recv in scope && "nil" in scope && NameSet(FirstNames(m.params)) <= scope
    ensures StmtOk(Dispatch(f, m), scope)
  {
    var call := Call(FieldSel(f, f.stub), ParamSelectors(m.params), LastEllipsis(m.params));
    assert ExprIds(call) <= scope;
    var body := CallStub(f, m);
    if m.HasResults() {
      OneExpr(call);
    }
    Single(body[0], scope);
    var els := ReturnReturns(f, m.results);
    if els.ElseBlock? {
      var rs := els.stmts[0].results;
      ListIdsWithin(rs, {f.recv});
      Single(els.stmts[0], scope);
    }
  }

  /** A list of expressions each of which reads within `s` reads within `s`. */
  lemma {:induction false} ListIdsWithin(es: seq<Expr>, s: set<string>)
    requires forall i :: 0 <= i < |es| ==> ExprIds(es[i]) <= s
    ensures ListIds(es) <= s
    decreases |es|
  {
    if |es| > 0 {
      ListIdsWithin(es[1..], s);
    }
  }

  lemma RecordArgsOk(f: StubFields, params: seq<Field>, scope: set<string>)
    requires Named(params)
    requires f.recv in scope && "append" in scope && NameSet(FirstNames(params)) <= scope
    ensures StmtOk(RecordArgs(f, params), scope)
  {
    var lit := StructLit(FieldsWithoutEllipsis(params), ParamSelectors(params));
    var call := Call(Id("append"), [FieldSel(f, f.args), lit], false);
    TwoExprs(FieldSel(f, f.args), lit);
    OneExpr(call);
    OneExpr(FieldSel(f, f.args));
  }

  /** The four statements read only the receiver, the parameters, `append` and `nil`. */
  lemma {:induction false} BodyOk(structName: string, f: StubFields, m: MethodConfig, scope: set<string>)
    requires Named(m.params) && Named(m.results)
    requires f.recv in scope && "append" in scope && "nil" in scope && NameSet(FirstNames(m.params)) <= scope
    ensures BlockOk(BuildMethod(structName, f, m).body, scope)
    ensures BlockDefs(BuildMethod(structName, f, m).body) == {}
  {
    var b := BuildMethod(structName, f, m).body;
    var x0, x1 := MutexAction(FieldSel(f, f.mutex), "Lock", false), MutexAction(FieldSel(f, f.mutex), "Unlock", true);
    var x2, x3 := RecordArgs(f, m.params), Dispatch(f, m);
    assert b == [x0, x1, x2, x3];
    RecordArgsOk(f, m.params, scope);
    DispatchOk(f, m, scope);
    QuietBlock(x0, x1, x2, x3, scope);
  }

  /** Four statements that each read only `scope` and declare nothing make a block that does the same. */
  lemma {:induction false} QuietBlock(x0: Stmt, x1: Stmt, x2: Stmt, x3: Stmt, scope: set<string>)
    requires StmtDefs(x0) == {} && StmtDefs(x1) == {} && StmtDefs(x2) == {} && StmtDefs(x3) == {}
    requires StmtOk(x0, scope) && StmtOk(x1, scope) && StmtOk(x2, scope) && StmtOk(x3, scope)
    ensures BlockOk([x0, x1, x2, x3], scope) && BlockDefs([x0, x1, x2, x3]) == {}
  {
    assert scope + {} + {} + {} == scope && scope + {} + {} == scope && scope + {} == scope;
    Single(x3, scope);
    Chain3(x0, x1, x2, [x3], scope);
    assert [x0, x1, x2] + [x3] == [x0, x1, x2, x3];
    DeclaresNothing([x0, x1, x2, x3]);
  }

  /** A block of statements none of which declares anything declares nothing. */
  lemma {:induction false} DeclaresNothing(ss: seq<Stmt>)
    requires forall i :: 0 <= i < |ss| ==> StmtDefs(ss[i]) == {}
    ensures BlockDefs(ss) == {}
    decreases |ss|
  {
    if |ss| > 0 {
      DeclaresNothing(ss[1..]);
    }
  }

  /**
   * The stub method reads only its receiver, its parameters and the
   * universe's `append` and `nil`, and declares nothing.
   */
  lemma {:induction false} BuildMethodWellScoped(structName: string, f: StubFields, m: MethodConfig)
    requires Named(m.params) && Named(m.results)
    ensures WellScoped(BuildMethod(structName, f, m), {})
    ensures BlockDefs(BuildMethod(structName, f, m).body) == {}
  {
    var d := BuildMethod(structName, f, m);
    assert NameSet(FirstNames(m.params)) <= FieldNames(m.params) by {
      forall n | n in NameSet(FirstNames(m.params)) ensures n in FieldNames(m.params) {
        var i :| 0 <= i < |m.params| && FirstNames(m.params)[i] == n;
        assert m.params[i].names[0] == n;
      }
    }
    BodyOk(structName, f, m, {} + Predeclared + SignatureScope(d));
  }
}

=== FILE: text.dfy ===
/**
 * String helpers shared by the models: decimal rendering of counters,
 * joining with a separator, suffix tests, quote trimming and the ASCII
 * character classes that stand in for Go's `unicode` predicates.
 */
module Text {

  // ---------------------------------------------------------------- digits

  function DigitChar(d: nat): (c: char)
    requires d < 10
    ensures '0' <= c <= '9'
  {
    ('0' as int + d) as char
  }

  /** Decimal rendering of a natural number, as `%d` prints it. */
  function NatStr(n: nat): (s: string)
    ensures |s| >= 1
    ensures forall i :: 0 <= i < |s| ==> '0' <= s[i] <= '9'
  {
    if n < 10 then [DigitChar(n)] else NatStr(n / 10) + [DigitChar(n % 10)]
  }

  lemma NatStrLong(n: nat)
    requires n >= 10
    ensures |NatStr(n)| >= 2
  {
  }

  /** Different numbers never render to the same text. */
  lemma {:induction false} NatStrInjective(a: nat, b: nat)
    requires NatStr(a) == NatStr(b)
    ensures a == b
  {
    if a < 10 && b < 10 {
      assert NatStr(a)[0] == DigitChar(a);
    } else if a < 10 {
      NatStrLong(b);
    } else if b < 10 {
      NatStrLong(a);
    } else {
      var sa, sb := NatStr(a), NatStr(b);
      assert sa[|sa| - 1] == DigitChar(a % 10);
      assert sb[|sb| - 1] == DigitChar(b % 10);
      assert sa[..|sa| - 1] == NatStr(a / 10);
      assert sb[..|sb| - 1] == NatStr(b / 10);
      NatStrInjective(a / 10, b / 10);
    }
  }

  // ---------------------------------------------------------- char classes

  predicate IsUpper(c: char) { 'A' <= c <= 'Z' }
  predicate IsLower(c: char) { 'a' <= c <= 'z' }
  predicate IsDigit(c: char) { '0' <= c <= '9' }
  predicate IsLetter(c: char) { IsUpper(c) || IsLower(c) }

  function Lower(c: char): (r: char)
    ensures IsUpper(c) ==> IsLower(r)
    ensures !IsUpper(c) ==> r == c
    ensures !IsUpper(r)
  {
    if IsUpper(c) then (c as int + 32) as char else c
  }

  /** `strings.ToLower` restricted to ASCII. */
  function LowerStr(s: string): (r: string)
    ensures |r| == |s|
    ensures forall i :: 0 <= i < |s| ==> r[i] == Lower(s[i])
  {
    if |s| == 0 then [] else [Lower(s[0])] + LowerStr(s[1..])
  }

  predicate NoUpper(s: string) { forall i :: 0 <= i < |s| ==> !IsUpper(s[i]) }

  lemma {:induction false} LowerStrAppend(a: string, b: string)
    ensures LowerStr(a + b) == LowerStr(a) + LowerStr(b)
    decreases |a|
  {
    if |a| == 0 {
      assert a + b == b;
    } else {
      assert (a + b)[1..] == a[1..] + b;
      LowerStrAppend(a[1..], b);
    }
  }

  // ------------------------------------------------------------- sequences

  /** `strings.Join`: the items with `sep` between consecutive ones. */
  function Join(xs: seq<string>, sep: string): (r: string)
    ensures |xs| == 0 ==> r == ""
  {
    if |xs| == 0 then ""
    else if |xs| == 1 then xs[0]
    else xs[0] + sep + Join(xs[1..], sep)
  }

  /** The joined text starts with the first item and ends with the last. */
  lemma {:induction false} JoinEnds(xs: seq<string>, sep: string)
    requires |xs| > 0
    ensures |Join(xs, sep)| >= |xs[0]| && Join(xs, sep)[..|xs[0]|] == xs[0]
    ensures HasSuffix(Join(xs, sep), xs[|xs| - 1])
    decreases |xs|
  {
    if |xs| > 1 {
      JoinEnds(xs[1..], sep);
      var j := Join(xs, sep);
      assert j == xs[0] + (sep + Join(xs[1..], sep));
    }
  }

  /** Appending one more item extends the joined text at its end. */
  lemma {:induction false} JoinSnoc(xs: seq<string>, x: string, sep: string)
    requires |xs| > 0
    ensures Join(xs + [x], sep) == Join(xs, sep) + sep + x
  {
    if |xs| == 1 {
      assert xs + [x] == [xs[0], x];
      assert (xs + [x])[1..] == [x];
    } else {
      assert (xs + [x])[1..] == xs[1..] + [x];
      JoinSnoc(xs[1..], x, sep);
    }
  }

  /** `strings.HasSuffix`: `s` is some text followed by `suffix`. */
  predicate HasSuffix(s: string, suffix: string)
  {
    |suffix| <= |s| && s[|s| - |suffix|..] == suffix
  }

  /** `HasSuffix` holds exactly when `s` is some text followed by `suffix`. */
  lemma HasSuffixMeans(s: string, suffix: string)
    ensures HasSuffix(s, suffix) <==> exists p :: s == p + suffix
  {
    if HasSuffix(s, suffix) {
      assert s == s[..|s| - |suffix|] + suffix;
    }
  }

  lemma HasSuffixAppended(p: string, suffix: string)
    ensures HasSuffix(p + suffix, suffix)
  {
    assert (p + suffix)[|p|..] == suffix;
  }

  /** Drop the leading double quotes: only quotes are dropped, and none is left at the front. */
  function TrimLeftQuotes(s: string): (r: string)
    ensures |r| <= |s| && r == s[|s| - |r|..]
    ensures forall i :: 0 <= i < |s| - |r| ==> s[i] == '"'
    ensures |r| > 0 ==> r[0] != '"'
  {
    if |s| > 0 && s[0] == '"' then TrimLeftQuotes(s[1..]) else s
  }

  /** Drop the trailing double quotes: only quotes are dropped, and none is left at the end. */
  function TrimRightQuotes(s: string): (r: string)
    ensures |r| <= |s| && r == s[..|r|]
    ensures forall i :: |r| <= i < |s| ==> s[i] == '"'
    ensures |r| > 0 ==> r[|r| - 1] != '"'
  {
    if |s| > 0 && s[|s| - 1] == '"' then TrimRightQuotes(s[..|s| - 1]) else s
  }

  /** `s` is `r` with only double quotes before (the first `k` characters) and after it. */
  predicate QuotesAround(s: string, r: string, k: nat)
  {
    k + |r| <= |s| && r == s[k..k + |r|]
    && (forall i :: 0 <= i < k ==> s[i] == '"')
    && (forall i :: k + |r| <= i < |s| ==> s[i] == '"')
  }

  /** `strings.Trim(s, "\"")`: drop every leading and trailing double quote. */
  function TrimQuotes(s: string): (r: string)
    ensures exists k :: QuotesAround(s, r, k)
    ensures |r| > 0 ==> r[0] != '"' && r[|r| - 1] != '"'
  {
    var l := TrimLeftQuotes(s);
    TrimmedBothSides(s, l, TrimRightQuotes(l));
    TrimRightQuotes(l)
  }

  /** Trimming the front and then the back leaves the text between two runs of quotes. */
  lemma {:induction false} TrimmedBothSides(s: string, l: string, r: string)
    requires |l| <= |s| && l == s[|s| - |l|..] && forall i :: 0 <= i < |s| - |l| ==> s[i] == '"'
    requires |r| <= |l| && r == l[..|r|] && forall i :: |r| <= i < |l| ==> l[i] == '"'
    ensures QuotesAround(s, r, |s| - |l|)
  {
    var k := |s| - |l|;
    assert r == s[k..k + |r|] by {
      assert l == s[k..];
      assert r == l[..|r|];
    }
    forall i | k + |r| <= i < |s| ensures s[i] == '"' {
      assert s[i] == l[i - k];
    }
  }

  /** A quoted import path loses exactly its surrounding quotes. */
  lemma TrimQuotedPath(p: string)
    requires |p| > 0 && p[0] != '"' && p[|p| - 1] != '"'
    ensures TrimQuotes("\"" + p + "\"") == p
  {
    var q := "\"" + p + "\"";
    var tail := p + "\"";
    assert q[0] == '"' && q[1..] == tail;
    assert TrimLeftQuotes(q) == TrimLeftQuotes(tail);
    assert tail[0] == p[0];
    assert TrimLeftQuotes(tail) == tail;
    assert tail[..|tail| - 1] == p;
    assert TrimRightQuotes(tail) == TrimRightQuotes(p);
    assert TrimRightQuotes(p) == p;
  }

  /** Index just past the last occurrence of `c`, or 0 when there is none. */
  function AfterLast(s: string, c: char): (k: nat)
    ensures k <= |s|
    ensures k > 0 ==> s[k - 1] == c
    ensures forall i :: k <= i < |s| ==> s[i] != c
  {
    if |s| == 0 then 0
    else if s[|s| - 1] == c then |s|
    else AfterLast(s[..|s| - 1], c)
  }
}

=== FILE: walk.dfy ===
/**
 * Syntax-tree walking and construction helpers. The source streams the
 * items of a declaration list over a channel from a goroutine; here each
 * walk is the sequence of items it would send, in the order it sends them.
 */
module Walk {
  import opened Ast

  /** How many normalised entries one field expands to: one per name, and one for an unnamed field. */
  function ReuseCount(f: Field): (n: nat)
    ensures n >= 1
    ensures |f.names| > 0 ==> n == |f.names|
    ensures |f.names| == 0 ==> n == 1
  {
    if |f.names| == 0 then 1 else |f.names|
  }

  /** Total number of entries a field sequence expands to. */
  function TotalReuse(fs: seq<Field>): nat
  {
    if |fs| == 0 then 0 else ReuseCount(fs[0]) + TotalReuse(fs[1..])
  }

  lemma {:induction false} TotalReuseAppend(a: seq<Field>, b: seq<Field>)
    ensures TotalReuse(a + b) == TotalReuse(a) + TotalReuse(b)
  {
    if |a| == 0 {
      assert a + b == b;
    } else {
      assert (a + b)[1..] == a[1..] + b;
      TotalReuseAppend(a[1..], b);
    }
  }

  /** A field list's fields in order; an absent list has none. */
  function FieldsOf(l: FieldList): (r: seq<Field>)
    ensures l.NilList? ==> r == []
    ensures l.List? ==> r == l.fields
  {
    match l
    case NilList => []
    case List(fs) => fs
  }

  /** The general (`GenDecl`) declarations among `ds`, in order. */
  function GenericDecls(ds: seq<Decl>): (r: seq<Decl>)
    ensures forall d :: d in r <==> d in ds && d.GenDecl?
    ensures |r| <= |ds|
  {
    if |ds| == 0 then []
    else (if ds[0].GenDecl? then [ds[0]] else []) + GenericDecls(ds[1..])
  }

  /** Filtering distributes over concatenation, so order and multiplicity are kept. */
  lemma {:induction false} GenericDeclsAppend(a: seq<Decl>, b: seq<Decl>)
    ensures GenericDecls(a + b) == GenericDecls(a) + GenericDecls(b)
  {
    if |a| == 0 {
      assert a + b == b;
    } else {
      assert (a + b)[0] == a[0];
      assert (a + b)[1..] == a[1..] + b;
      GenericDeclsAppend(a[1..], b);
    }
  }

  /** The type specifications among `specs`, in order. */
  function TypeSpecsOf(specs: seq<Spec>): (r: seq<TypeSpec>)
    ensures forall ts :: ts in r <==> TypeDecl(ts) in specs
    ensures |r| <= |specs|
  {
    if |specs| == 0 then []
    else
      (match specs[0] case TypeDecl(ts) => [ts] case _ => [])
      + TypeSpecsOf(specs[1..])
  }

  lemma {:induction false} TypeSpecsOfAppend(a: seq<Spec>, b: seq<Spec>)
    ensures TypeSpecsOf(a + b) == TypeSpecsOf(a) + TypeSpecsOf(b)
  {
    if |a| == 0 {
      assert a + b == b;
    } else {
      assert (a + b)[0] == a[0];
      assert (a + b)[1..] == a[1..] + b;
      TypeSpecsOfAppend(a[1..], b);
    }
  }

  /** Type specifications of a sequence of declarations, general declarations only. */
  function TypeSpecsInDecls(ds: seq<Decl>): (r: seq<TypeSpec>)
    ensures forall ts :: ts in r <==>
      exists d :: d in ds && d.GenDecl? && TypeDecl(ts) in d.specs
  {
    if |ds| == 0 then []
    else
      var here := if ds[0].GenDecl? then TypeSpecsOf(ds[0].specs) else [];
      assert forall d :: d in ds <==> d == ds[0] || d in ds[1..];
      here + TypeSpecsInDecls(ds[1..])
  }

  /** The walk keeps declaration order: it distributes over concatenation. */
  lemma {:induction false} TypeSpecsInDeclsAppend(a: seq<Decl>, b: seq<Decl>)
    ensures TypeSpecsInDecls(a + b) == TypeSpecsInDecls(a) + TypeSpecsInDecls(b)
  {
    if |a| == 0 {
      assert a + b == b;
    } else {
      assert (a + b)[0] == a[0];
      assert (a + b)[1..] == a[1..] + b;
      TypeSpecsInDeclsAppend(a[1..], b);
    }
  }

  /** One declaration contributes its type specifications, in order, when it is a general declaration, and nothing otherwise. */
  lemma TypeSpecsInOneDecl(d: Decl)
    ensures TypeSpecsInDecls([d]) == if d.GenDecl? then TypeSpecsOf(d.specs) else []
  {
    assert [d][1..] == [];
  }

  /** Every type specification of a file, in declaration order. */
  function TypeSpecsInFile(f: File): (r: seq<TypeSpec>)
    ensures forall ts :: ts in r <==>
      exists d :: d in f.decls && d.GenDecl? && TypeDecl(ts) in d.specs
  {
    TypeSpecsInDecls(f.decls)
  }

  /** A field for one name, as the normaliser creates it. */
  function CreateField(name: string, t: TypeExpr): (f: Field)
    ensures f.names == [name] && f.typ == t && ReuseCount(f) == 1
  {
    Field([name], t)
  }

  /** The same fields with their names dropped (result lists of generated signatures). */
  function FieldsAsAnonymous(fs: seq<Field>): (r: seq<Field>)
    ensures |r| == |fs|
    ensures forall i :: 0 <= i < |r| ==> r[i].names == [] && r[i].typ == fs[i].typ
  {
    seq(|fs|, i requires 0 <= i < |fs| => Field([], fs[i].typ))
  }

  /** A field's type with a variadic `...T` turned into the slice `[]T`. */
  function WithoutEllipsis(t: TypeExpr): (r: TypeExpr)
    ensures !r.Ellipsis?
    ensures t.Ellipsis? ==> r == ArrayType(None, t.elt)
    ensures !t.Ellipsis? ==> r == t
  {
    if t.Ellipsis? then ArrayType(None, t.elt) else t
  }

  /** The same fields, names kept, with every variadic type written as a slice. */
  function FieldsWithoutEllipsis(fs: seq<Field>): (r: seq<Field>)
    ensures |r| == |fs|
    ensures forall i :: 0 <= i < |r| ==>
      r[i].names == fs[i].names && r[i].typ == WithoutEllipsis(fs[i].typ)
  {
    seq(|fs|, i requires 0 <= i < |fs| => Field(fs[i].names, WithoutEllipsis(fs[i].typ)))
  }

  /** Rewriting variadic types is idempotent, and leaves no variadic type behind. */
  lemma FieldsWithoutEllipsisIdempotent(fs: seq<Field>)
    ensures forall i :: 0 <= i < |fs| ==> !FieldsWithoutEllipsis(fs)[i].typ.Ellipsis?
    ensures FieldsWithoutEllipsis(FieldsWithoutEllipsis(fs)) == FieldsWithoutEllipsis(fs)
  {
  }

  /** Dropping names is idempotent and commutes with the variadic rewrite. */
  lemma FieldsAsAnonymousLaws(fs: seq<Field>)
    ensures FieldsAsAnonymous(FieldsAsAnonymous(fs)) == FieldsAsAnonymous(fs)
    ensures FieldsAsAnonymous(FieldsWithoutEllipsis(fs))
         == FieldsWithoutEllipsis(FieldsAsAnonymous(fs))
  {
  }
}
